=== FILE: README.md ===
# Its Show Time booking backend — a Dafny model

This project models the decision logic of the "Its Show Time" Spring backend, a
ticketing service for movie shows and live events. It covers:

- **Bookings.** Public booking codes ("BK" plus twelve characters from A–Z0–9),
  drawn with a bounded retry until one is unused. Cancellation as a guarded
  state change with a 30-minute window. The analytics fold that totals revenue,
  bookings and seats per venue.
- **The booking endpoints.** The defaults stamped on new movie and event
  bookings, the owner-only reads, the public lookup by code without the user,
  the blocked-seat list of a show, and per-zone availability of an event date.
- **Schedules.** A schedule's date range and showtime list are expanded into
  shows. The showtimes are stored as a hand-written JSON-like array and parsed
  back by hand.
- **Shows.** The per-movie summary, with its masking of the booking figures for
  the public, and the guarded deletion of a movie's shows.
- **Validators and small state machines.** Venue pincode and ownership guards,
  the one-rating-per-item upsert and the review list, the wishlist toggle,
  registration, login and profile patches, the `ROLE_` authority, the local
  one-time-password fallback, and the image upload and poster-proxy guards.

The model is functional. Every store is an explicit value, passed in and
returned: bookings, ratings and wishlist entries are sequences in store order,
and users, venues and events are maps from id to record. Repository finders
are filters over those values.

Some inputs come from outside the program, and each becomes a parameter:

- the clock is an integer number of seconds, and dates are day numbers;
- each random draw is given as the sequence of its outputs;
- money is in integer cents;
- stored JSON documents (`bookingDetails`, `eventConfig`) are already parsed
  into a small `Value` type with a `Malformed` case;
- the password encoder is a pair of functions, `encode` and `matches`;
- the SMS gateway, the file store and the HTTP client are represented by
  their answers.

Modules follow the source's components:

| module | file | models |
|---|---|---|
| `Common` | common.dfy | `Option`/`Result`, and the `java.lang.String` operations the code relies on (`trim`, `isBlank`, `split`, `%06d`, `Stream.distinct`) |
| `Entities` | entities.dfy | the persistent records and the parsed-JSON `Value` |
| `BookingCodes` | booking_codes.dfy | `generateBookingCode` and the retry loop |
| `BookingService` | booking_service.dfy | `createBooking`, `cancelBooking`, `calculateAnalytics` |
| `BookingApi` | booking_api.dfy | the booking controller |
| `ScheduleService` | schedule_service.dfy | `parseShowtimes`, `generateShowsForSchedule` |
| `ScheduleApi` | schedule_api.dfy | `toJsonArray`, `createSchedule`, `getSchedulesForVenue` |
| `ShowApi` | show_api.dfy | `getMovieShowSummary`, `deleteMovieForOwner` |
| `VenueApi` | venue_api.dfy | the venue controller's create, update and delete |
| `RatingApi` | rating_api.dfy | the rating controller |
| `Wishlist` | wishlist.dfy | the wishlist service and its toggle endpoint |
| `Auth` | auth.dfy | the auth controller and the user service |
| `UserDetails` | user_details.dfy | `loadUserByUsername` |
| `Sms` | sms.dfy | the OTP send and verify fallback |
| `ImageUpload` | image_upload.dfy | the upload validation and the poster proxy |

Behaviour worth noting:

- **The cancellation window.** The code converts the elapsed time with a
  truncating `toMinutes()` and compares it with `<= 30`. A booking is therefore
  still cancellable 30 minutes 59 seconds after it was made, and the window
  closes only at 31 whole minutes.
- **Blocked seats.** The blocked seats of a show are the concatenation of the
  seat lists of its confirmed bookings, and duplicates are kept. They are not
  a set.
- **The showtimes round trip.** `parseShowtimes(toJsonArray(ts)) == ts` needs
  every time to be non-empty and free of commas. It does not need the times to
  be equal to their own trim, because the quotes that `toJsonArray` adds shield
  the spaces inside them from `trim()`.

## Model

| member | source | states |
|---|---|---|
| BookingCodes.AlphabetMembers | src/main/java/com/excelr/service/impl/BookingServiceImpl.java:19 | the alphabet is A–Z followed by 0–9: position k < 26 is the k-th capital letter, the rest are the digits in order |
| BookingCodes.Generate | src/main/java/com/excelr/service/impl/BookingServiceImpl.java:19-30 | a generated code is 14 characters long, starts with "BK", and its character 2+i is the alphabet letter picked by the i-th draw |
| BookingCodes.AlphabetIndex | src/main/java/com/excelr/service/impl/BookingServiceImpl.java:19 | every code character is at some position of the alphabet, so each code character comes from exactly one draw value |
| BookingCodes.GenerateInjective | src/main/java/com/excelr/service/impl/BookingServiceImpl.java:22-30 | different draw sequences give different codes |
| BookingCodes.GenerateSurjective | src/main/java/com/excelr/service/impl/BookingServiceImpl.java:22-30 | every string of the code shape is the code of some draw sequence, so generation is a bijection onto well-formed codes |
| BookingCodes.FirstFreeAt | src/main/java/com/excelr/service/impl/BookingServiceImpl.java:39-45 | the returned position is the first candidate not already taken: every earlier candidate is taken, and this one is free unless all are taken |
| BookingCodes.FirstFree | src/main/java/com/excelr/service/impl/BookingServiceImpl.java:39-48 | the chosen code is untaken and well-formed, and it is the first free candidate; there is no code exactly when every candidate is taken |
| BookingCodes.PickCode | src/main/java/com/excelr/service/impl/BookingServiceImpl.java:39-48 | the ten-attempt loop returns the first untaken candidate, or nothing exactly when all ten are taken |
| BookingService.Codes | src/main/java/com/excelr/service/impl/BookingServiceImpl.java:41 | a code is reported as existing exactly when some stored booking carries it |
| BookingService.CreateBooking | src/main/java/com/excelr/service/impl/BookingServiceImpl.java:32-51 | the owner is always the given user, bookedAt is set only when missing, and an existing non-blank code is kept; otherwise the code is new and well-formed; code generation fails exactly when a code is needed and all ten candidates exist; after that the save is refused exactly for a null payment method or total amount or a kept code another row already has; either failure saves nothing; otherwise the row is appended under the next id with a code no earlier row has |
| BookingService.CreateKeepsCodesUnique | src/main/java/com/excelr/service/impl/BookingServiceImpl.java:37-50 | every successful save, whether the code was kept or generated, keeps the table's codes pairwise distinct |
| BookingService.JavaDiv | src/main/java/com/excelr/service/impl/BookingServiceImpl.java:70 | Java `long` division truncates toward zero, for negative dividends too |
| BookingService.CancelWindowInSeconds | src/main/java/com/excelr/service/impl/BookingServiceImpl.java:70-73 | the truncated minute count is at most 30 exactly when fewer than 31 × 60 seconds have passed |
| BookingService.FindBooking | src/main/java/com/excelr/service/impl/BookingServiceImpl.java:58-59 | the lookup finds the first row with the id, or nothing exactly when no row has it |
| BookingService.CancelBooking | src/main/java/com/excelr/service/impl/BookingServiceImpl.java:57-80 | the failures come in order (missing, not the owner, already cancelled, no bookedAt, window expired), each leaving the store unchanged; success exactly when the truncated minutes are at most 30, and it sets CANCELLED and REFUNDED on that row and changes nothing else |
| BookingService.CancelTwice | src/main/java/com/excelr/service/impl/BookingServiceImpl.java:65-67 | after a successful cancellation, a second one at any time reports already-cancelled, and the status stays CANCELLED |
| BookingService.VenueKey | src/main/java/com/excelr/service/impl/BookingServiceImpl.java:155-165 | the bucket is the show's venue name for movies; for events it is the event's venue name, else the event's address; otherwise "Unknown Venue" |
| BookingService.Upsert | src/main/java/com/excelr/service/impl/BookingServiceImpl.java:167-176 | adding one booking's figures to a bucket raises that bucket and the sum of all buckets by exactly those figures, and leaves every other bucket unchanged |
| BookingService.UpsertKeys | src/main/java/com/excelr/service/impl/BookingServiceImpl.java:167-170 | after a booking is added the bucket names are the old names plus its venue key |
| BookingService.UpsertDistinct | src/main/java/com/excelr/service/impl/BookingServiceImpl.java:167-170 | `putIfAbsent` never creates a second bucket with the same name |
| BookingService.ByVenue | src/main/java/com/excelr/service/impl/BookingServiceImpl.java:112-177 | bucket names are distinct, the buckets add up to the overall totals, and each bucket holds exactly the bookings whose venue key is its name |
| BookingService.CalculateAnalytics | src/main/java/com/excelr/service/impl/BookingServiceImpl.java:106-184 | totalBookings is the list length; revenue sums the non-null amounts; seats follow the movie or event rule; the per-venue buckets sum to the totals and each is the total of its own bookings |
| BookingApi.CreateMovieBooking | src/main/java/com/excelr/controller/BookingController.java:53-90 | fails for an unknown user, for an unknown show when a showId is given, and for null seats; then with the code error exactly when all ten candidate codes are taken; then exactly for a null payment method, which the NOT NULL column refuses on save; it succeeds exactly otherwise. The booking is MOVIE, CONFIRMED, payment COMPLETED, amount 0 when absent, the request's payment method, booked now, with no event or date id, a show only when a showId was sent, the seats stored, the next id and a fresh well-formed code; it is appended to the store |
| BookingApi.CreateEventBooking | src/main/java/com/excelr/controller/BookingController.java:92-125 | fails for an unknown user or event and for null zones; then with the code error exactly when all ten candidate codes are taken; then exactly for a null payment method, which the NOT NULL column refuses on save; it succeeds exactly otherwise. The booking is EVENT with no show, the event and date id attached, CONFIRMED, payment COMPLETED, amount 0 when absent, the request's payment method, the next id and a fresh code, appended to the store |
| BookingApi.GetBookingById | src/main/java/com/excelr/controller/BookingController.java:127-137 | a missing booking is not found; an unauthenticated caller is refused; the booking is returned exactly when the authenticated caller owns it, and 403 otherwise |
| BookingApi.GetBookingsForUser | src/main/java/com/excelr/controller/BookingController.java:180-189 | succeeds exactly when the caller is that user and the user exists, and then gives exactly their own bookings |
| BookingApi.FindByCode | src/main/java/com/excelr/controller/BookingController.java:161-163 | the lookup finds a row carrying the code, and nothing exactly when no row has it |
| BookingApi.GetBookingByCodePublic | src/main/java/com/excelr/controller/BookingController.java:159-178 | found exactly when some booking has the code; the answer is that booking's ticket data with the code |
| BookingApi.CreatedBookingIsReadable | src/main/java/com/excelr/controller/BookingController.java:53-189 | a booking just created reads back by id for its owner, appears in the owner's list, and its code finds its ticket data |
| BookingApi.FindBookingOfLast | src/main/java/com/excelr/service/impl/BookingServiceImpl.java:58-59 | a row appended under an unused id is found at the end |
| BookingApi.PublicViewHidesOwner | src/main/java/com/excelr/controller/BookingController.java:165-177 | the public answer does not depend on the booking's user |
| BookingApi.BlockedSeats | src/main/java/com/excelr/controller/BookingController.java:264-285 | one booking blocks its own seat list when it is a CONFIRMED booking of the show and nothing otherwise; the list length is the sum of the seat-list lengths of the show's CONFIRMED bookings; a seat appears exactly when one of those bookings lists it |
| BookingApi.BlockedSeatsAppend | src/main/java/com/excelr/controller/BookingController.java:268-282 | the blocked seats of two runs of bookings are the first run's followed by the second's, so the lists are concatenated in store order |
| BookingApi.CreatedMovieBookingSeats | src/main/java/com/excelr/controller/BookingController.java:66-72 | a stored movie booking reads back as exactly the seats requested, for the blocked-seat list and for analytics |
| BookingApi.CancelReleasesSeats | src/main/java/com/excelr/service/impl/BookingServiceImpl.java:76-77 | cancelling a blocking booking removes exactly its seats from the show's blocked multiset |
| BookingApi.SubsetOfBlocked | src/main/java/com/excelr/controller/BookingController.java:264-285 | every seat of a confirmed booking of the show is blocked, as often as that booking lists it |
| BookingApi.BlockedSeatsKeepDuplicates | src/main/java/com/excelr/controller/BookingController.java:268-282 | two confirmed bookings of the same seat list that seat twice |
| BookingApi.DecodeZones | src/main/java/com/excelr/controller/BookingController.java:307-311 | the zone list decodes exactly when every one of its entries does, and then entry by entry in the same order |
| BookingApi.Availability | src/main/java/com/excelr/controller/BookingController.java:346-351 | available + booked = capacity with no clamping, and isAvailable exactly when booked < capacity |
| BookingApi.LastCapacityIsLastDeclaration | src/main/java/com/excelr/controller/BookingController.java:309-352 | a zone name is reported exactly when declared, with the capacity of its last declaration |
| BookingApi.ZoneMap | src/main/java/com/excelr/controller/BookingController.java:302-352 | the map has one entry per declared name, built from its last capacity and its booked passes |
| BookingApi.GetZoneAvailability | src/main/java/com/excelr/controller/BookingController.java:290-358 | fails exactly for an unknown event or an unreadable config; otherwise each declared zone reports its capacity, the adult and child Integer passes of the date's CONFIRMED bookings, capacity − booked unclamped, and availability exactly when that is positive |
| BookingApi.AvailabilityExamples | src/main/java/com/excelr/controller/BookingController.java:346-351 | capacity 100 with 40 booked leaves 60 and is available; with 110 booked it reports −10 and is not available |
| BookingApi.CategoryLookup | src/main/java/com/excelr/controller/BookingController.java:101-107 | a category count stored by the create endpoint reads back as the count the request gave, 0 when it was null |
| BookingApi.ZoneLookup | src/main/java/com/excelr/controller/BookingController.java:322-337 | the adult and child passes read back from a stored zone are the ones the request booked in that zone |
| BookingApi.ZoneTotal | src/main/java/com/excelr/service/impl/BookingServiceImpl.java:131-148 | the seats analytics reads back from stored zones are every count the request gave |
| BookingApi.CreatedEventBookingCounts | src/main/java/com/excelr/controller/BookingController.java:329-337 | for a stored event booking, availability counts the adult and child of a zone, while analytics counts every category of every zone |
| BookingApi.SeatRulesDiffer | src/main/java/com/excelr/service/impl/BookingServiceImpl.java:137-147 | a Long count and an extra category are seats for analytics but not passes for availability |
| ScheduleService.StripBrackets | src/main/java/com/excelr/service/impl/MovieScheduleServiceImpl.java:72-74 | one enclosing `[`…`]` pair is removed only when both are present |
| ScheduleService.Unquote | src/main/java/com/excelr/service/impl/MovieScheduleServiceImpl.java:77-79 | one enclosing pair of double quotes is removed when the piece is at least 2 long and both ends are quotes |
| ScheduleService.CleanPieces | src/main/java/com/excelr/service/impl/MovieScheduleServiceImpl.java:75-83 | no kept piece is empty, and comma-free pieces stay comma-free |
| ScheduleService.ParseShowtimes | src/main/java/com/excelr/service/impl/MovieScheduleServiceImpl.java:65-85 | null or blank text parses to no showtimes; no parsed showtime is empty or holds a comma |
| ScheduleService.DayShows | src/main/java/com/excelr/service/impl/MovieScheduleServiceImpl.java:40-59 | one day gives one show per showtime, in showtime order, each with the schedule's venue, movie and prices (0 when missing) and ACTIVE |
| ScheduleService.ShowsFrom | src/main/java/com/excelr/service/impl/MovieScheduleServiceImpl.java:38-61 | the days from a date to the end date give days × showtimes shows, numbered consecutively, dated inside the range and non-decreasing; with at least one showtime, show k falls on day k div |times| after the start at showtime k mod |times| |
| ScheduleService.GenerateShows | src/main/java/com/excelr/service/impl/MovieScheduleServiceImpl.java:32-63 | the count is (days in range) × (parsed showtimes), none when start is after end; show k is on the start date plus k div |times| at showtime k mod |times| (date-major), and every show copies the schedule |
| ScheduleService.ShowsFromCover | src/main/java/com/excelr/service/impl/MovieScheduleServiceImpl.java:39-60 | every day of the range and every showtime meet in some generated show |
| ScheduleService.GenerateShowsCover | src/main/java/com/excelr/service/impl/MovieScheduleServiceImpl.java:39-60 | for every day in the range and every parsed showtime there is a generated show |
| ScheduleApi.QuoteAll | src/main/java/com/excelr/controller/MovieScheduleController.java:79 | every time is wrapped in double quotes, position by position |
| ScheduleApi.ToJsonArray | src/main/java/com/excelr/controller/MovieScheduleController.java:73-86 | the stored text always starts with `[` and ends with `]` |
| ScheduleApi.CleanQuoted | src/main/java/com/excelr/service/impl/MovieScheduleServiceImpl.java:75-83 | trimming and unquoting the quoted times gives the times back |
| ScheduleApi.UnwrapJsonArray | src/main/java/com/excelr/service/impl/MovieScheduleServiceImpl.java:67-74 | a stored array is never blank, and trimming and stripping its brackets gives exactly the text between them |
| ScheduleApi.SplitJsonArrayBody | src/main/java/com/excelr/service/impl/MovieScheduleServiceImpl.java:75 | splitting the comma-joined quoted times at commas gives the quoted times back |
| ScheduleApi.ShowtimesRoundTrip | src/main/java/com/excelr/controller/MovieScheduleController.java:73-86 | parsing the stored text gives the original list back, for every list of non-empty comma-free times; null reads back as empty |
| ScheduleApi.CreateSchedule | src/main/java/com/excelr/controller/MovieScheduleController.java:36-60 | fails, in this order, exactly for a null venue id, an unknown venue, an unparsable date, and a null movie id (the NOT NULL column); otherwise the schedule keeps the venue, the dates and the showtimes text, missing prices become 0, it is ACTIVE, and its shows are exactly the generated ones (so days × parsed showtimes of them, laid out day by day), each copying the schedule and dated within it; the reported count is their number, and for non-empty comma-free times that count is days × times |
| ScheduleApi.CreateScheduleCounts | src/main/java/com/excelr/controller/MovieScheduleController.java:56-58 | three days with two showtimes report six shows, and an end date before the start date reports none |
| ScheduleApi.SchedulesForVenue | src/main/java/com/excelr/controller/MovieScheduleController.java:62-70 | fails exactly for an unknown venue, then exactly for a given date that does not parse; otherwise it lists exactly the venue's schedules that end on or after the given date, or today when none is given |
| ScheduleApi.CreatedScheduleIsListed | src/main/java/com/excelr/controller/MovieScheduleController.java:36-70 | a schedule just created is listed for its venue from any day up to its end date, together with the venue's other running schedules |
| ShowApi.Selected | src/main/java/com/excelr/controller/ShowController.java:85-91 | an owner sees exactly the shows at their venues, and everyone else sees every show |
| ShowApi.Group | src/main/java/com/excelr/controller/ShowController.java:93-94 | a group is exactly the shows of one movie |
| ShowApi.MinDate | src/main/java/com/excelr/controller/ShowController.java:101-104 | the first date is a date of the group and at most every other one; it is missing only for an empty group |
| ShowApi.MaxDate | src/main/java/com/excelr/controller/ShowController.java:106-109 | the last date is a date of the group and at least every other one; it is missing only for an empty group |
| ShowApi.BookingCount | src/main/java/com/excelr/controller/ShowController.java:111 | one booking counts 1 exactly when it is on the group's shows; the count is at most the number of bookings and zero exactly when none is on the shows |
| ShowApi.BookingCountAppend | src/main/java/com/excelr/controller/ShowController.java:111 | the count adds up over any split of the bookings |
| ShowApi.Revenue | src/main/java/com/excelr/controller/ShowController.java:112-119 | one booking counts its amount (0 when null) exactly when it is CONFIRMED and on the shows; revenue is 0 when no such booking exists, and never negative when no amount is |
| ShowApi.RevenueAppend | src/main/java/com/excelr/controller/ShowController.java:112-119 | revenue adds up over any split of the bookings |
| ShowApi.Summarize | src/main/java/com/excelr/controller/ShowController.java:96-140 | showCount is the group size; the first and last dates are dates of the group and bound every other date, and are missing only for an empty group; theatres are the distinct venue names in first-seen order joined by ", "; bookings and revenue are 0 unless an owner asks |
| ShowApi.GroupOfPresentMovie | src/main/java/com/excelr/controller/ShowController.java:93-94 | every movie that occurs has a non-empty group |
| ShowApi.MovieShowSummaries | src/main/java/com/excelr/controller/ShowController.java:82-145 | fails exactly when a selected show has no venue; otherwise the lines are one per movie of the selected shows, with no movie twice, none empty, and each the summary of its movie's shows |
| ShowApi.SummariesCorrect | src/main/java/com/excelr/controller/ShowController.java:93-142 | the lines built from the distinct movie ids meet that promise |
| ShowApi.SummariesCover | src/main/java/com/excelr/controller/ShowController.java:93-142 | every selected show's movie has a line |
| ShowApi.SummariesNonEmpty | src/main/java/com/excelr/controller/ShowController.java:93-142 | every line counts at least one show |
| ShowApi.SummariesDistinct | src/main/java/com/excelr/controller/ShowController.java:93-142 | no movie has two lines |
| ShowApi.SummariesExact | src/main/java/com/excelr/controller/ShowController.java:96-140 | each line is the summary of its own movie's group |
| ShowApi.GroupsPartition | src/main/java/com/excelr/controller/ShowController.java:93-94 | with distinct keys covering every show, the group sizes add up to the number of shows |
| ShowApi.SummaryPartitionsShows | src/main/java/com/excelr/controller/ShowController.java:93-135 | every selected show is counted in exactly one line: the show counts add up to the number of selected shows |
| ShowApi.DeleteMovieForOwner | src/main/java/com/excelr/controller/ShowController.java:147-191 | 404 exactly when the owner has no show of the movie; 400 exactly when some such show has a CONFIRMED booking; otherwise exactly those shows and all their bookings go, and their schedules too unless that last step fails |
| ShowApi.DeleteMovieTwice | src/main/java/com/excelr/controller/ShowController.java:147-160 | after a successful removal, removing the same movie for the same owner finds no show |
| VenueApi.ValidatePincode | src/main/java/com/excelr/controller/VenueController.java:41-47 | accepted exactly when the trimmed pincode is six ASCII digits, and then the trimmed value is kept; "required" exactly when it is null or trims to empty |
| VenueApi.PincodeStable | src/main/java/com/excelr/controller/VenueController.java:41-55 | a six-digit pincode passes unchanged |
| VenueApi.PincodePadded | src/main/java/com/excelr/controller/VenueController.java:41 | spaces and control characters around a six-digit pincode are dropped and the digits kept |
| VenueApi.ParseVenueType | src/main/java/com/excelr/controller/VenueController.java:52 | only the exact names THEATRE and EVENT_GROUND are venue types |
| VenueApi.CreateVenue | src/main/java/com/excelr/controller/VenueController.java:35-63 | fails for a missing owner first, then for a bad pincode, then exactly for an unknown venue type, then exactly when location, address, country or capacity is null (NOT NULL columns), and succeeds exactly otherwise; on success the venue belongs to the owner, keeps the trimmed pincode and the request's fields, and is stored under the new id |
| VenueApi.UpdateVenue | src/main/java/com/excelr/controller/VenueController.java:65-103 | 404 exactly for an unknown venue; 403 exactly when the request's owner is null, or the venue has none, or they differ; ownership comes before the pincode, then the venue type, then the NOT NULL columns (location, address, country, capacity); it succeeds exactly when all pass, and overwrites exactly the eight editable fields, keeping the id and owner |
| VenueApi.UpdateWithOwnFields | src/main/java/com/excelr/controller/VenueController.java:78-99 | an owner re-submitting a venue's own fields leaves the store unchanged |
| VenueApi.ResubmitPasses | src/main/java/com/excelr/controller/VenueController.java:78-93 | a re-submitted venue passes the ownership, pincode and type checks |
| VenueApi.DeleteVenue | src/main/java/com/excelr/controller/VenueController.java:125-152 | 404 exactly for an unknown venue; 403 exactly when the caller's id and the owner's id are both known and differ; a referenced venue cannot go; success removes exactly that venue |
| VenueApi.CreateThenDelete | src/main/java/com/excelr/controller/VenueController.java:35-152 | deleting a venue just created by its owner restores the venues exactly |
| VenueApi.DeleteVenueTwice | src/main/java/com/excelr/controller/VenueController.java:125-130 | a deleted venue is reported missing when deleted again |
| VenueApi.DeleteWithoutOwnerId | src/main/java/com/excelr/controller/VenueController.java:138 | without an owner id the ownership guard never refuses |
| RatingApi.FindRating | src/main/java/com/excelr/controller/RatingController.java:54-55 | finds the first rating with the (user, item, type) key, or nothing exactly when none has it |
| RatingApi.RateItem | src/main/java/com/excelr/controller/RatingController.java:41-80 | 401 exactly without a user, before any validation; a null rating fails; 400 exactly for stars outside 1..5; then a null item id or item type is refused by the save; it succeeds exactly with a user, stars in 1..5 and both item fields. An existing rating for the key gets the new stars and review in place, keeping its id and creation time, and otherwise a new rating is appended |
| RatingApi.RateKeepsKeysUnique | src/main/java/com/excelr/controller/RatingController.java:54-74 | a successful rating keeps at most one rating per key, and keeps ids distinct when the new id is fresh |
| RatingApi.RateTwice | src/main/java/com/excelr/controller/RatingController.java:54-74 | sending the same rating twice leaves the store as after the first time |
| RatingApi.UserRating | src/main/java/com/excelr/controller/RatingController.java:101-120 | a rating is returned exactly when the caller is known and has rated the item, and it is theirs for that item |
| RatingApi.RateThenLookup | src/main/java/com/excelr/controller/RatingController.java:54-74 | after a rating is saved, the caller's lookup of the item returns it |
| RatingApi.FindById | src/main/java/com/excelr/controller/RatingController.java:132 | finds a rating with the id, or nothing exactly when none has it |
| RatingApi.DeleteRating | src/main/java/com/excelr/controller/RatingController.java:125-144 | 401, then 404, then 403 in that order, and success exactly when the caller owns an existing rating; then exactly that rating is removed and the rest stay in order |
| RatingApi.RateThenDelete | src/main/java/com/excelr/controller/RatingController.java:125-144 | an author deleting the rating they just saved succeeds and leaves them no rating of the item |
| RatingApi.RatingCount | src/main/java/com/excelr/controller/RatingController.java:91-95 | the count is zero exactly when no rating is on the item |
| RatingApi.RateCount | src/main/java/com/excelr/controller/RatingController.java:54-74 | a first rating raises the item's count by one, and a re-rating leaves it as it was |
| RatingApi.InsertNewestFirst | src/main/java/com/excelr/controller/RatingController.java:165 | inserting into a newest-first list keeps it newest-first and adds exactly one element |
| RatingApi.SortNewestFirst | src/main/java/com/excelr/controller/RatingController.java:165 | the result is newest-first and a permutation of the input |
| RatingApi.ReviewsInStoreOrder | src/main/java/com/excelr/controller/RatingController.java:154-164 | exactly the item's ratings with non-blank review text become reviews |
| RatingApi.GetReviews | src/main/java/com/excelr/controller/RatingController.java:149-169 | the list is newest-first, a permutation of the item's reviewed ratings, and holds no review whose text trims to empty |
| Wishlist.Find | src/main/java/com/excelr/service/WishlistService.java:29 | finds the first entry with the (user, item, type) key, or nothing exactly when none has it |
| Wishlist.GetWishlist | src/main/java/com/excelr/service/WishlistService.java:23-25 | exactly that user's entries |
| Wishlist.Toggle | src/main/java/com/excelr/service/WishlistService.java:28-38 | succeeds exactly when the key is present or the user is known; an existing entry is deleted and nothing is returned; otherwise the item, attached to the user under the generated id, is appended and returned; at most one entry per key is kept, the key's presence flips, and ids stay distinct when the new one is fresh |
| Wishlist.ToggleOnThenOff | src/main/java/com/excelr/service/WishlistService.java:28-38 | adding an item and toggling it again restores the wishlist exactly |
| Wishlist.ToggleOffThenOn | src/main/java/com/excelr/service/WishlistService.java:28-38 | removing an entry and sending it again puts it back at the end under the newly generated id, with every other entry in place |
| Wishlist.Remove | src/main/java/com/excelr/service/WishlistService.java:41-43 | no entry for the key remains, all other entries stay, and nothing changes when there was none |
| Wishlist.ParseLong | src/main/java/com/excelr/controller/WishlistController.java:32 | accepts exactly digits, or a sign and digits, whose value fits a 64-bit long, and gives that value |
| Wishlist.ParseLongIntText | src/main/java/com/excelr/controller/WishlistController.java:32 | printing a long and reading it back gives the same number |
| Wishlist.UserIdForms | src/main/java/com/excelr/controller/WishlistController.java:32 | every long id sent as text reads back; an Integer-range JSON number and the same number as text give the same user id; true and "" are not ids |
| Wishlist.Genre | src/main/java/com/excelr/controller/WishlistController.java:36-44 | absent, null or an empty list give ""; a list with a null element makes the request fail; any other list gives its elements' texts joined by ", "; any other value gives its own text |
| Wishlist.GenreOfStrings | src/main/java/com/excelr/controller/WishlistController.java:40 | a list of strings contributes exactly those strings, in order |
| Wishlist.GenreOfStringList | src/main/java/com/excelr/controller/WishlistController.java:36-44 | a non-empty list of strings is stored as those strings joined by ", " |
| Wishlist.StringField | src/main/java/com/excelr/controller/WishlistController.java:52-55 | a string is kept, null or absent gives null, and any other value makes the cast fail |
| Wishlist.ItemFromPayload | src/main/java/com/excelr/controller/WishlistController.java:46-56 | it succeeds exactly when the genre has no null element and duration, venue and date are each null, absent or a string; the entry carries the id and type texts, the title or "Unknown Title", the poster text when one is sent and none otherwise, the genre text, and the duration, venue and date strings as sent |
| Wishlist.ReadPayload | src/main/java/com/excelr/controller/WishlistController.java:28-56 | 400 exactly when userId, id or type is missing or null; a bad user id fails; it succeeds exactly when the fields are present, the user id parses and the entry builds, and then gives the parsed id and the built entry |
| Wishlist.Answer | src/main/java/com/excelr/controller/WishlistController.java:58-63 | succeeds exactly when the service's toggle does, stores its result, and answers "removed" exactly when the key was present |
| Wishlist.ToggleRequest | src/main/java/com/excelr/controller/WishlistController.java:26-64 | 400 without calling the service exactly when a required field is missing; it succeeds exactly when the payload reads and the service's toggle does; then the store is the service's toggle of the parsed entry, and "removed" exactly when the entry existed |
| Auth.CheckEmail | src/main/java/com/excelr/controller/AuthController.java:35-41 | a conflict exactly when some user has the email |
| Auth.RegisterUser | src/main/java/com/excelr/service/impl/UserServiceImpl.java:18-25 | fails exactly for a registered email; otherwise the stored password is the encoded raw one, and unique emails stay unique |
| Auth.Redacted | src/main/java/com/excelr/controller/AuthController.java:60 | the answer has no password and differs from the user in nothing else |
| Auth.Register | src/main/java/com/excelr/controller/AuthController.java:43-62 | 409 exactly for a registered email, saving nothing (a null email matches no one); then the save refuses exactly a null name, email or role; otherwise the new user is stored with the encoded password, everyone else is untouched, and the answer has no password |
| Auth.LoginUser | src/main/java/com/excelr/service/impl/UserServiceImpl.java:27-32 | succeeds exactly when the email is registered and the encoder accepts the raw password against the stored hash; an unknown email and a wrong password give the same error |
| Auth.RegisterThenLogin | src/main/java/com/excelr/service/impl/UserServiceImpl.java:18-32 | a freshly registered user can log in with the raw password, and their email is then reported as taken |
| Auth.Patched | src/main/java/com/excelr/controller/AuthController.java:92-99 | only the non-null ones of name, phone, location and image URL change, and every other field is kept |
| Auth.UpdateUser | src/main/java/com/excelr/controller/AuthController.java:87-104 | succeeds exactly for a known id, and otherwise reports the user missing; the patched user is stored and answered without its password |
| Auth.PatchLaws | src/main/java/com/excelr/controller/AuthController.java:92-99 | an empty patch changes nothing, and applying a patch twice equals applying it once |
| Auth.GetUser | src/main/java/com/excelr/controller/AuthController.java:106-112 | succeeds exactly for a known id, and otherwise reports the user missing; the answer is the stored user without its password |
| Auth.RegisterThenGetUser | src/main/java/com/excelr/controller/AuthController.java:43-112 | a freshly registered user reads back as the registration answered, and other users read back as before |
| Auth.UpdateThenGetUser | src/main/java/com/excelr/controller/AuthController.java:87-112 | after an update the user reads back as the update answered |
| Auth.RegisterThenLoad | src/main/java/com/excelr/service/CustomUserDetailsService.java:21-38 | a freshly registered user with an email loads as a principal with the encoded password and the role's authority |
| Auth.VerifySmsOtp | src/main/java/com/excelr/controller/AuthController.java:152-163 | 200 exactly when the code is valid (the local code matches, or there is no local code and the gateway approves), 400 otherwise with the store unchanged |
| UserDetails.Authority | src/main/java/com/excelr/service/CustomUserDetailsService.java:29-32 | the authority always starts with ROLE_, equals the role exactly when the role already starts with it, and is otherwise ROLE_ followed by the role |
| UserDetails.AuthorityIdempotent | src/main/java/com/excelr/service/CustomUserDetailsService.java:30-32 | prefixing twice is prefixing once |
| UserDetails.AuthorityCollisions | src/main/java/com/excelr/service/CustomUserDetailsService.java:29-32 | two different roles share an authority only when one is the other with ROLE_ in front |
| UserDetails.LoadUserByUsername | src/main/java/com/excelr/service/CustomUserDetailsService.java:21-38 | not found exactly for an unknown email; otherwise the principal is the email with the stored password and the one authority; an empty email or a null password makes the principal's constructor refuse |
| Sms.OtpFor | src/main/java/com/excelr/service/SmsService.java:52 | the fallback code is six ASCII digits whose value is the draw |
| Sms.OtpForInjective | src/main/java/com/excelr/service/SmsService.java:52 | different draws give different codes |
| Sms.SendOtp | src/main/java/com/excelr/service/SmsService.java:40-63 | a gateway answer is returned with the store untouched; otherwise the phone's local code is replaced by the drawn code, other phones are untouched, and the id starts with "mock-sid-" |
| Sms.VerifyOtp | src/main/java/com/excelr/service/SmsService.java:68-94 | a local code decides alone: a match consumes it and a mismatch keeps it; without one the result is the gateway's "approved", and a failed call means invalid |
| Sms.FallbackCodeSingleUse | src/main/java/com/excelr/service/SmsService.java:52-74 | after a fallback send the drawn code is accepted without asking the gateway and is consumed, so a second use passes only if the gateway approves; any other code is refused and leaves the code in place |
| Sms.ResendReplacesCode | src/main/java/com/excelr/service/SmsService.java:52-53 | a second fallback send replaces the first code: only the newer one passes |
| ImageUpload.ValidateImage | src/main/java/com/excelr/controller/ImageUploadController.java:39-50 | passes exactly for a non-empty file whose content type starts with "image/"; an empty file is reported first |
| ImageUpload.UploadProfileImage | src/main/java/com/excelr/controller/ImageUploadController.java:59-79 | a validation error is returned as is; then an unknown user fails; then a store failure; it succeeds exactly for a valid file, a known user and a stored file, and the stored URL becomes the profile image |
| ImageUpload.UploadEventImage | src/main/java/com/excelr/controller/ImageUploadController.java:81-101 | a validation error is returned as is; then an unknown event fails; then a store failure; it succeeds exactly for a valid file, a known event and a stored file, and the stored URL becomes the poster |
| ImageUpload.UploadThenGetUser | src/main/java/com/excelr/controller/ImageUploadController.java:59-79 | after an upload the user reads back with the stored URL as the profile image and is otherwise unchanged |
| ImageUpload.UploadImageOnly | src/main/java/com/excelr/controller/ImageUploadController.java:103-115 | a validation failure is returned as it is; the store failing is reported exactly when validation passes and the store throws; otherwise the store's URL |
| ImageUpload.ImageOnlyMatchesEventUpload | src/main/java/com/excelr/controller/ImageUploadController.java:81-115 | uploading a poster without an event gives the same error or the same URL as uploading it to an existing event |
| ImageUpload.RejectedUploadStoresNothing | src/main/java/com/excelr/controller/ImageUploadController.java:64-65 | a rejected file never reaches the store: the outcome does not depend on what the store would answer |
| ImageUpload.ProxyImage | src/main/java/com/excelr/controller/ImageUploadController.java:124-160 | 400 exactly for an unparsable URL, a scheme other than https or a host other than image.tmdb.org (both ignoring case), or a failed fetch; 404 exactly for a non-200 or empty answer; 200 exactly when the guard passes and the upstream answers 200 with a non-empty body, which is passed on with its content type or image/jpeg, cacheable for a week |
| ImageUpload.RefusedUriIsNotFetched | src/main/java/com/excelr/controller/ImageUploadController.java:128-133 | a refused URL gives 400 whatever the upstream would answer |
| ImageUpload.ProxyGuardExamples | src/main/java/com/excelr/controller/ImageUploadController.java:128-133 | upper-case spellings of the scheme and host pass; http and a look-alike host do not |
| Common.Trim | src/main/java/com/excelr/service/impl/MovieScheduleServiceImpl.java:71 | `trim()` leaves no character at or below U+0020 at either end, keeps only characters of the input, and gives "" exactly when every character is at or below U+0020 |
| Common.JavaSplit | src/main/java/com/excelr/service/impl/MovieScheduleServiceImpl.java:75 | a string without the separator is one piece, and no piece holds the separator |
| Common.SplitAllJoin | src/main/java/com/excelr/service/impl/MovieScheduleServiceImpl.java:75 | splitting a joined list gives the list back when no piece holds the separator |
| Common.Distinct | src/main/java/com/excelr/controller/ShowController.java:125 | the result has no repeats and the same elements as the input |
| Common.DistinctFirstSeenOrder | src/main/java/com/excelr/controller/ShowController.java:125 | an element listed earlier in the result first occurs earlier in the input |
| Common.ZeroPad | src/main/java/com/excelr/service/SmsService.java:52 | the padded text is at least the width, all digits, and reads back as the number |
| Entities.UserWithEmail | src/main/java/com/excelr/service/CustomUserDetailsService.java:23-24 | the user with the email is found exactly when one is registered, and it carries that email |

## Left out

- **Spring plumbing.** HTTP routing, response bodies and headers, and the security context are out. The authenticated user arrives as an `Option<int>` parameter.
- **JWT and Google sign-in.** JWT generation, the `login` controller (which delegates to the authentication manager and `loadUserByUsername`) and `googleLogin` are out.
- **The SMS gateway.** The Twilio gateway is represented by its answers (`gatewaySid`, `gatewayStatus`). The `send-sms-otp` controller, which only wraps `sendOtp`, is not modelled on its own.
- **The password encoder.** It is a pair of parameters, `encode` and `matches`.
- **External I/O in the upload controller.** The file store, `cleanPath`, the URI parser and the HTTP client are represented by their answers: `storedUrl`, `uri` and `upstream`.
- **The database.** JPA fetching, cascades, transactions, concurrency and double booking are out. Booking creation does no seat or zone conflict check, and the model states no such property.
- **Generated keys.** Ids that the database generates (bookings, venues, ratings, wishlist entries, schedules and shows) arrive as parameters such as `newId`, and the model states what happens when they are fresh.
- **Unique constraints.** The users table's unique email and the ratings table's unique (user, item, type) key become requires (`UniqueEmails`) or hypotheses (`OnePerTriple`).
- **Integer widths.** The seat sums and the zone availability are Java `int`, but the model uses unbounded integers. It does not model their overflow, which would need more than two billion seats.
- **Floating point.** Revenue in the show summary is a `double` sum, and it is modelled as an integer sum of cents. The rating average and its rounding are out.
- **Parsing outside the model.** `LocalDate.parse` of a schedule's dates, and of the optional `fromDate` when listing a venue's schedules, is a parameter (`None` when it fails). The wishlist's `rating` field, a `Double.valueOf`, is not modelled.
- `Wishlist.ItemFromPayload`: ignores the `rating` field, so a non-numeric rating, which makes `Double.valueOf` throw in the source, still succeeds in the model.
- **Null request fields.** A null venue name, register password, phone or OTP code is not modelled, because the requests carry them as plain strings.
- `BookingApi.CreateMovieBooking`: a null `userId` is not modelled. The request carries it as an integer, while `findById(null)` throws in the source.
- `BookingApi.CreateEventBooking`: a null `userId` or `eventId` is not modelled, for the same reason.
- **Column lengths.** The length limits of the string columns (a payment method of at most 50 characters, a venue location of at most 100, and so on) are not checked. `BookingService.CreateBooking`, `BookingApi.CreateMovieBooking`, `BookingApi.CreateEventBooking`, `VenueApi.CreateVenue`, `VenueApi.UpdateVenue`, `Auth.Register` and `RatingApi.RateItem` succeed for over-long text where the database would refuse it.
- `Wishlist.ParseLong`: accepts ASCII digits only, while `Long.valueOf` also accepts other Unicode decimal digits.
- `Wishlist.ValueText`: prints a non-Integer number by its `intValue`, not by Java's text for a Long or a Double.
- `RatingApi.GetReviews`: states the newest-first order and the permutation. It does not state the stability of the sort among equal creation times.
- `ShowApi.MovieShowSummaries`: lists the lines in the order movies first occur. In the source they come out of a `HashMap`, in no specified order. The promised properties do not depend on the order.
- **A missing owner id.** In venue creation, `findById(null)` throws. The model reports this as `OwnerNotFound`.

=== FILE: auth.dfy ===
/** Accounts: email availability, registration with a hashed password,
    password login, profile edits, and the SMS code check. The password
    encoder is a pair of parameters, `encode` and `matches`. */
module Auth {
  import opened Common
  import opened Entities
  import Sms
  import UserDetails

  datatype AuthError =
    | EmailAlreadyRegistered   // 409, or "Email already registered" from the service
    | InvalidCredentials       // "Invalid email or password", for both failures
    | UserNotFound             // "User not found"
    | MissingColumn            // the save hits a NOT NULL name, email or role column

  /** `check-email`: a conflict exactly when the email is registered. */
  function CheckEmail(users: map<int, User>, email: string): (conflict: bool)
    ensures conflict ==> exists id :: id in users && users[id].email == email
    ensures !conflict ==> forall id :: id in users ==> users[id].email != email
  {
    EmailTaken(users, email)
  }

  /** `registerUser`: refuses a registered email; otherwise stores the user
      under the new id with the encoded password in place of the raw one. */
  function RegisterUser(users: map<int, User>, user: User, raw: string, encode: string -> string, newId: int)
    : (r: Result<(User, map<int, User>), AuthError>)
    requires newId !in users
    ensures r.Err? <==> EmailTaken(users, user.email)
    ensures r.Err? ==> r.error == EmailAlreadyRegistered
    ensures r.Ok? ==>
      && r.value.0 == user.(id := newId, password := Some(encode(raw)))
      && r.value.1 == users[newId := r.value.0]
    ensures r.Ok? && UniqueEmails(users) ==> UniqueEmails(r.value.1)
  {
    if EmailTaken(users, user.email) then Err(EmailAlreadyRegistered)
    else
      var saved := user.(id := newId, password := Some(encode(raw)));
      Ok((saved, users[newId := saved]))
  }

  /** The request body; `name`, `email` and `role` may be null. */
  datatype RegisterRequest = RegisterRequest(
    name: Option<string>, email: Option<string>, password: string, role: Option<string>,
    theatreName: Option<string>, phone: Option<string>, location: Option<string>)

  /** A user as answered to the client: the password left out. */
  function Redacted(u: User): (r: User)
    ensures r.password.None? && r.(password := u.password) == u
  {
    u.(password := None)
  }

  /** The request carries every column the user table requires. */
  predicate HasRequiredColumns(req: RegisterRequest) {
    req.name.Some? && req.email.Some? && req.role.Some?
  }

  /** `register`: 409 for a registered email (a null email matches no
      stored user); otherwise the built user is registered and answered
      without its password, and its save refuses a null name, email or
      role. */
  function Register(users: map<int, User>, req: RegisterRequest, encode: string -> string, newId: int)
    : (r: Result<(User, map<int, User>), AuthError>)
    requires newId !in users
    ensures r == Err(EmailAlreadyRegistered) <==> req.email.Some? && EmailTaken(users, req.email.value)
    ensures r == Err(MissingColumn) <==>
              !(req.email.Some? && EmailTaken(users, req.email.value)) && !HasRequiredColumns(req)
    ensures r.Ok? <==> HasRequiredColumns(req) && !EmailTaken(users, req.email.value)
    ensures r.Ok? ==>
      && HasRequiredColumns(req)
      && r.value.0.password.None?
      && newId in r.value.1 && r.value.1[newId] == r.value.0.(password := Some(encode(req.password)))
      && r.value.0 == User(newId, req.name.value, req.email.value, None, req.role.value, req.theatreName,
                           req.phone, req.location, None)
      && r.value.1.Keys == users.Keys + {newId}
      && forall id :: id in users ==> r.value.1[id] == users[id]
    ensures r.Ok? && UniqueEmails(users) ==> UniqueEmails(r.value.1)
  {
    if req.email.Some? && EmailTaken(users, req.email.value) then Err(EmailAlreadyRegistered)
    else if !HasRequiredColumns(req) then Err(MissingColumn)
    else
      var user := User(0, req.name.value, req.email.value, Some(req.password), req.role.value, req.theatreName,
                       req.phone, req.location, None);
      match RegisterUser(users, user, req.password, encode, newId)
      case Err(e) => Err(e)
      case Ok((saved, stored)) => Ok((Redacted(saved), stored))
  }

  /** `loginUser`: the user registered with `email`, when the encoder accepts
      the raw password against the stored hash; one error for both misses. */
  function LoginUser(users: map<int, User>, email: string, raw: string, matches: (string, string) -> bool)
    : (r: Result<User, AuthError>)
    requires UniqueEmails(users)
    ensures r.Ok? <==> exists id :: id in users && users[id].email == email && users[id].password.Some?
                                    && matches(raw, users[id].password.value)
    ensures r.Ok? ==> r.value.email == email && r.value in users.Values
    ensures r.Err? ==> r.error == InvalidCredentials
  {
    match UserWithEmail(users, email)
    case None => Err(InvalidCredentials)
    case Some(u) =>
      if u.password.Some? && matches(raw, u.password.value) then Ok(u) else Err(InvalidCredentials)
  }

  /** A freshly registered user can log in with the raw password, given an
      encoder whose `matches` accepts what `encode` produced; and the email
      is then reported as taken. */
  lemma RegisterThenLogin(users: map<int, User>, req: RegisterRequest, encode: string -> string,
                          matches: (string, string) -> bool, newId: int)
    requires UniqueEmails(users) && newId !in users
    requires Register(users, req, encode, newId).Ok?
    requires matches(req.password, encode(req.password))
    ensures var stored := Register(users, req, encode, newId).value.1;
            && UniqueEmails(stored)
            && LoginUser(stored, req.email.value, req.password, matches).Ok?
            && LoginUser(stored, req.email.value, req.password, matches).value == stored[newId]
            && CheckEmail(stored, req.email.value)
  {
    var stored := Register(users, req, encode, newId).value.1;
    assert stored[newId].email == req.email.value;
    var u := UserWithEmail(stored, req.email.value).value;
    assert u == stored[newId];
  }

  /** The editable profile fields; a null field is left as it is. */
  datatype ProfilePatch = ProfilePatch(
    name: Option<string>, phone: Option<string>, location: Option<string>, profileImageUrl: Option<string>)

  function Patched(u: User, p: ProfilePatch): (r: User)
    ensures r.id == u.id && r.email == u.email && r.password == u.password
    ensures r.role == u.role && r.theatreName == u.theatreName
    ensures r.name == (if p.name.Some? then p.name.value else u.name)
    ensures r.phone == (if p.phone.Some? then p.phone else u.phone)
    ensures r.location == (if p.location.Some? then p.location else u.location)
    ensures r.profileImageUrl == (if p.profileImageUrl.Some? then p.profileImageUrl else u.profileImageUrl)
  {
    u.(name := p.name.GetOr(u.name),
       phone := if p.phone.Some? then p.phone else u.phone,
       location := if p.location.Some? then p.location else u.location,
       profileImageUrl := if p.profileImageUrl.Some? then p.profileImageUrl else u.profileImageUrl)
  }

  /** `updateUser`: an unknown id fails; otherwise the patched user is
      stored and answered without its password. */
  function UpdateUser(users: map<int, User>, userId: int, p: ProfilePatch): (r: Result<(User, map<int, User>), AuthError>)
    ensures userId !in users <==> r == Err(UserNotFound)
    ensures r.Ok? <==> userId in users
    ensures r.Ok? ==>
      && r.value.1 == users[userId := Patched(users[userId], p)]
      && r.value.0 == Redacted(Patched(users[userId], p))
  {
    if userId !in users then Err(UserNotFound)
    else
      var updated := Patched(users[userId], p);
      Ok((Redacted(updated), users[userId := updated]))
  }

  /** An empty patch changes nothing, and a patch applied twice is applied once. */
  lemma PatchLaws(users: map<int, User>, userId: int, p: ProfilePatch)
    requires userId in users
    ensures UpdateUser(users, userId, ProfilePatch(None, None, None, None)).value.1 == users
    ensures UpdateUser(UpdateUser(users, userId, p).value.1, userId, p) == UpdateUser(users, userId, p)
  {
    assert Patched(users[userId], ProfilePatch(None, None, None, None)) == users[userId];
    var once := Patched(users[userId], p);
    assert Patched(once, p) == once;
    assert users[userId := once][userId := once] == users[userId := once];
  }

  /** `getUser`: the stored user without its password. */
  function GetUser(users: map<int, User>, userId: int): (r: Result<User, AuthError>)
    ensures userId !in users <==> r == Err(UserNotFound)
    ensures r.Ok? <==> userId in users
    ensures r.Ok? ==> r.value.password.None? && r.value.(password := users[userId].password) == users[userId]
  {
    if userId !in users then Err(UserNotFound) else Ok(Redacted(users[userId]))
  }

  /** A freshly registered user reads back as the registration answered it,
      and every other user reads back as before. */
  lemma RegisterThenGetUser(users: map<int, User>, req: RegisterRequest, encode: string -> string, newId: int, other: int)
    requires newId !in users
    requires Register(users, req, encode, newId).Ok?
    requires other != newId
    ensures GetUser(Register(users, req, encode, newId).value.1, newId) == Ok(Register(users, req, encode, newId).value.0)
    ensures GetUser(Register(users, req, encode, newId).value.1, other) == GetUser(users, other)
  {
  }

  /** A freshly registered user can sign in: the principal loaded for the
      email carries the encoded password and the role's authority. */
  lemma RegisterThenLoad(users: map<int, User>, req: RegisterRequest, encode: string -> string, newId: int)
    requires UniqueEmails(users) && newId !in users
    requires Register(users, req, encode, newId).Ok?
    requires req.email.value != ""
    ensures UniqueEmails(Register(users, req, encode, newId).value.1)
    ensures UserDetails.LoadUserByUsername(Register(users, req, encode, newId).value.1, req.email.value)
            == Ok(UserDetails.Principal(req.email.value, encode(req.password), [UserDetails.Authority(req.role.value)]))
  {
    var after := Register(users, req, encode, newId).value.1;
    assert after[newId].email == req.email.value;
    var u := UserWithEmail(after, req.email.value).value;
    var id :| id in after && after[id] == u;
    assert id == newId;
  }

  /** After a profile update the user reads back as the update answered. */
  lemma UpdateThenGetUser(users: map<int, User>, userId: int, p: ProfilePatch)
    requires UpdateUser(users, userId, p).Ok?
    ensures GetUser(UpdateUser(users, userId, p).value.1, userId) == Ok(UpdateUser(users, userId, p).value.0)
  {
  }

  const HttpOk := 200
  const HttpBadRequest := 400

  /** `verify-sms-otp`: 200 when the code is valid, 400 otherwise. */
  function VerifySmsOtp(store: Sms.OtpStore, phone: string, code: string, gatewayStatus: Option<string>)
    : (r: (int, Sms.OtpStore))
    ensures r.0 == HttpOk || r.0 == HttpBadRequest
    ensures r.0 == HttpOk <==>
              ((phone in store && store[phone] == code) || (phone !in store && gatewayStatus == Some(Sms.Approved)))
    ensures r.0 == HttpBadRequest ==> r.1 == store
  {
    var c := Sms.VerifyOtp(store, phone, code, gatewayStatus);
    (if c.valid then HttpOk else HttpBadRequest, c.store)
  }
}

=== FILE: booking_api.dfy ===
/** The booking endpoints: building movie and event bookings from requests,
    the owner-only reads, the public lookup by code, the seats already taken
    for a show, and the per-zone availability of an event date. Users, shows
    and events are lookup maps; the booking table is the service's store. */
module BookingApi {
  import opened Common
  import opened Entities
  import opened BookingCodes
  import opened BookingService

  // ---------------------------------------------------------------------------
  // Booking construction
  // ---------------------------------------------------------------------------

  datatype MovieBookingRequest = MovieBookingRequest(
    userId: int,
    showId: Option<int>,
    seats: Option<seq<string>>,
    totalAmount: Option<int>,
    paymentMethod: Option<string>)

  /** Zone name to (nullable) map of category name to (nullable) count. */
  type ZoneRequest = seq<(string, Option<seq<(string, Option<int>)>>)>

  datatype EventBookingRequest = EventBookingRequest(
    userId: int,
    eventId: int,
    eventDateId: Option<string>,
    selectedZones: Option<ZoneRequest>,
    totalAmount: Option<int>,
    paymentMethod: Option<string>)

  datatype ApiError =
    | UserNotFound
    | ShowNotFound
    | EventNotFound
    | SerializationFailed   // `Map.of` refuses a null value
    | CodeExhausted
    | MissingColumn          // the save hits the NOT NULL payment method column
    | Unauthorized
    | Forbidden
    | BookingNotFound
    | ConfigUnreadable

  /** The stored bookingDetails of a movie booking, `{"seats": [...]}`, as it
      reads back. */
  function SeatsDocument(seats: seq<string>): Document {
    Parsed([("seats", List(seq(|seats|, i requires 0 <= i < |seats| => Str(seats[i]))))])
  }

  function CountValue(c: Option<int>): Value {
    match c
    case Some(n) => Int(n)
    case None => Null
  }

  function ZoneValue(cats: Option<seq<(string, Option<int>)>>): Value {
    match cats
    case None => Null
    case Some(cs) => Object(seq(|cs|, j requires 0 <= j < |cs| => (cs[j].0, CountValue(cs[j].1))))
  }

  function ZoneMembers(z: ZoneRequest): seq<(string, Value)> {
    seq(|z|, i requires 0 <= i < |z| => (z[i].0, ZoneValue(z[i].1)))
  }

  /** The stored bookingDetails of an event booking, `{"selectedZones": {...}}`. */
  function ZonesDocument(z: ZoneRequest): Document {
    Parsed([("selectedZones", Object(ZoneMembers(z)))])
  }

  /** Both create endpoints: CONFIRMED, payment COMPLETED, amount 0 when absent,
      booked now. */
  function NewBooking(userId: int, kind: BookingType, show: Option<Show>, event: Option<Event>,
                      eventDateId: Option<string>, details: Document, totalAmount: Option<int>,
                      paymentMethod: Option<string>, now: int): Booking
  {
    Booking(0, None, userId, kind, show, event, eventDateId, details,
            Some(totalAmount.GetOr(0)), paymentMethod, PaymentCompleted, Confirmed, Some(now))
  }

  /** All ten candidate codes already exist, so the service gives up. */
  predicate CodesExhausted(store: BookingStore, draws: seq<seq<int>>)
    requires forall k :: 0 <= k < |draws| ==> ValidDraw(draws[k])
  {
    forall k :: 0 <= k < |draws| ==> Generate(draws[k]) in Codes(store.rows)
  }

  /** `createMovieBooking`: the user must exist; a show is looked up only
      when `showId` is given, so a movie booking may have no show; the seats
      are stored as `{"seats": [...]}` and the service assigns the code; the
      save then refuses a null payment method. */
  function CreateMovieBooking(users: map<int, User>, shows: map<int, Show>, store: BookingStore,
                              req: MovieBookingRequest, now: int, draws: seq<seq<int>>)
    : (r: Result<(Booking, BookingStore), ApiError>)
    requires |draws| == MaxAttempts
    requires forall k :: 0 <= k < |draws| ==> ValidDraw(draws[k])
    ensures req.userId !in users ==> r == Err(UserNotFound)
    ensures req.userId in users && req.showId.Some? && req.showId.value !in shows ==> r == Err(ShowNotFound)
    ensures req.userId in users && (req.showId.None? || req.showId.value in shows) && req.seats.None?
            ==> r == Err(SerializationFailed)
    ensures r == Err(CodeExhausted) <==>
      && req.userId in users && (req.showId.None? || req.showId.value in shows) && req.seats.Some?
      && CodesExhausted(store, draws)
    ensures r == Err(MissingColumn) <==>
      && req.userId in users && (req.showId.None? || req.showId.value in shows) && req.seats.Some?
      && !CodesExhausted(store, draws) && req.paymentMethod.None?
    ensures r.Ok? <==>
      && req.userId in users && (req.showId.None? || req.showId.value in shows) && req.seats.Some?
      && !CodesExhausted(store, draws) && req.paymentMethod.Some?
    ensures r.Ok? ==>
      var b := r.value.0;
      && req.userId in users && req.seats.Some?
      && b.kind == Movie && b.userId == req.userId
      && b.show == (if req.showId.Some? then Some(shows[req.showId.value]) else None)
      && b.event.None? && b.eventDateId.None?
      && b.details == SeatsDocument(req.seats.value)
      && b.status == Confirmed && b.paymentStatus == PaymentCompleted
      && b.totalAmount == Some(req.totalAmount.GetOr(0))
      && b.paymentMethod == req.paymentMethod
      && b.bookedAt == Some(now)
      && b.code.Some? && IsBookingCode(b.code.value) && b.code.value !in Codes(store.rows)
      && b.id == store.nextId && r.value.1 == BookingStore(store.rows + [b], store.nextId + 1)
  {
    if req.userId !in users then Err(UserNotFound)
    else if req.showId.Some? && req.showId.value !in shows then Err(ShowNotFound)
    else if req.seats.None? then Err(SerializationFailed)
    else
      var show := if req.showId.Some? then Some(shows[req.showId.value]) else None;
      var draft := NewBooking(req.userId, Movie, show, None, None, SeatsDocument(req.seats.value),
                              req.totalAmount, req.paymentMethod, now);
      match CreateBooking(store, draft, req.userId, now, draws)
      case Err(CodeGenerationFailed) => Err(CodeExhausted)
      case Err(SaveRefused) => Err(MissingColumn)
      case Ok(res) => Ok(res)
  }

  /** `createEventBooking`: both the user and the event must exist; the show
      is always null; the save refuses a null payment method. */
  function CreateEventBooking(users: map<int, User>, events: map<int, Event>, store: BookingStore,
                              req: EventBookingRequest, now: int, draws: seq<seq<int>>)
    : (r: Result<(Booking, BookingStore), ApiError>)
    requires |draws| == MaxAttempts
    requires forall k :: 0 <= k < |draws| ==> ValidDraw(draws[k])
    ensures req.userId !in users ==> r == Err(UserNotFound)
    ensures req.userId in users && req.eventId !in events ==> r == Err(EventNotFound)
    ensures req.userId in users && req.eventId in events && req.selectedZones.None?
            ==> r == Err(SerializationFailed)
    ensures r == Err(CodeExhausted) <==>
      req.userId in users && req.eventId in events && req.selectedZones.Some? && CodesExhausted(store, draws)
    ensures r == Err(MissingColumn) <==>
      && req.userId in users && req.eventId in events && req.selectedZones.Some? && !CodesExhausted(store, draws)
      && req.paymentMethod.None?
    ensures r.Ok? <==>
      && req.userId in users && req.eventId in events && req.selectedZones.Some? && !CodesExhausted(store, draws)
      && req.paymentMethod.Some?
    ensures r.Ok? ==>
      var b := r.value.0;
      && req.userId in users && req.eventId in events && req.selectedZones.Some?
      && b.kind == BookingType.Event && b.userId == req.userId
      && b.show.None? && b.event == Some(events[req.eventId])
      && b.eventDateId == req.eventDateId
      && b.details == ZonesDocument(req.selectedZones.value)
      && b.status == Confirmed && b.paymentStatus == PaymentCompleted
      && b.totalAmount == Some(req.totalAmount.GetOr(0))
      && b.paymentMethod == req.paymentMethod
      && b.bookedAt == Some(now)
      && b.code.Some? && IsBookingCode(b.code.value) && b.code.value !in Codes(store.rows)
      && b.id == store.nextId && r.value.1 == BookingStore(store.rows + [b], store.nextId + 1)
  {
    if req.userId !in users then Err(UserNotFound)
    else if req.eventId !in events then Err(EventNotFound)
    else if req.selectedZones.None? then Err(SerializationFailed)
    else
      var draft := NewBooking(req.userId, BookingType.Event, None, Some(events[req.eventId]), req.eventDateId,
                              ZonesDocument(req.selectedZones.value), req.totalAmount,
                              req.paymentMethod, now);
      match CreateBooking(store, draft, req.userId, now, draws)
      case Err(CodeGenerationFailed) => Err(CodeExhausted)
      case Err(SaveRefused) => Err(MissingColumn)
      case Ok(res) => Ok(res)
  }

  // ---------------------------------------------------------------------------
  // Owner-only reads and the public lookup
  // ---------------------------------------------------------------------------

  /** `getBookingById`: the booking must exist, the caller must be
      authenticated, and the caller must own it (403 otherwise). */
  function GetBookingById(store: BookingStore, id: int, auth: Option<int>): (r: Result<Booking, ApiError>)
    ensures FindBooking(store.rows, id).None? <==> r == Err(BookingNotFound)
    ensures FindBooking(store.rows, id).Some? && auth.None? ==> r == Err(Unauthorized)
    ensures r.Ok? <==> FindBooking(store.rows, id).Some? && auth.Some?
                       && store.rows[FindBooking(store.rows, id).value].userId == auth.value
    ensures r.Ok? ==> r.value.id == id && r.value.userId == auth.value && r.value in store.rows
    ensures r == Err(Forbidden) <==> FindBooking(store.rows, id).Some? && auth.Some?
                                     && store.rows[FindBooking(store.rows, id).value].userId != auth.value
  {
    match FindBooking(store.rows, id)
    case None => Err(BookingNotFound)
    case Some(i) =>
      if auth.None? then Err(Unauthorized)
      else if store.rows[i].userId != auth.value then Err(Forbidden)
      else Ok(store.rows[i])
  }

  /** `getBookingsForUser`: only the user themself may list their bookings. */
  function GetBookingsForUser(store: BookingStore, users: map<int, User>, userId: int, auth: Option<int>)
    : (r: Result<seq<Booking>, ApiError>)
    ensures auth.None? ==> r == Err(Unauthorized)
    ensures auth.Some? && auth.value != userId ==> r == Err(Forbidden)
    ensures auth == Some(userId) && userId !in users ==> r == Err(UserNotFound)
    ensures r.Ok? <==> auth == Some(userId) && userId in users
    ensures r.Ok? ==> auth == Some(userId)
                      && (forall i :: 0 <= i < |r.value| ==> r.value[i].userId == userId && r.value[i] in store.rows)
                      && (forall i :: 0 <= i < |store.rows| && store.rows[i].userId == userId ==> store.rows[i] in r.value)
  {
    if auth.None? then Err(Unauthorized)
    else if auth.value != userId then Err(Forbidden)
    else if userId !in users then Err(UserNotFound)
    else Ok(Filter(store.rows, (b: Booking) => b.userId == userId))
  }

  /** A booking just made is readable by its owner: by id, in their list, and
      publicly by its code. The store's next id must be fresh. */
  lemma CreatedBookingIsReadable(users: map<int, User>, shows: map<int, Show>, store: BookingStore,
                                 req: MovieBookingRequest, now: int, draws: seq<seq<int>>)
    requires |draws| == MaxAttempts
    requires forall k :: 0 <= k < |draws| ==> ValidDraw(draws[k])
    requires forall i :: 0 <= i < |store.rows| ==> store.rows[i].id != store.nextId
    requires CreateMovieBooking(users, shows, store, req, now, draws).Ok?
    ensures var (b, after) := CreateMovieBooking(users, shows, store, req, now, draws).value;
            && GetBookingById(after, b.id, Some(req.userId)) == Ok(b)
            && GetBookingsForUser(after, users, req.userId, Some(req.userId)).Ok?
            && b in GetBookingsForUser(after, users, req.userId, Some(req.userId)).value
            && GetBookingByCodePublic(after, b.code.value) == Ok(Redact(b))
  {
    var (b, after) := CreateMovieBooking(users, shows, store, req, now, draws).value;
    var n := |store.rows|;
    assert after.rows[n] == b;
    FindBookingOfLast(store.rows, b);
    assert b.code.value in Codes(after.rows);
    var pub := GetBookingByCodePublic(after, b.code.value).value;
    var i :| 0 <= i < |after.rows| && pub == Redact(after.rows[i]);
    if i < n {
      assert false;
    }
  }

  /** Appending a row with an id no earlier row carries makes it the one found. */
  lemma {:induction false} FindBookingOfLast(rows: seq<Booking>, b: Booking)
    requires forall i :: 0 <= i < |rows| ==> rows[i].id != b.id
    ensures FindBooking(rows + [b], b.id) == Some(|rows|)
  {
    assert (rows + [b])[|rows|] == b;
    var r := FindBooking(rows + [b], b.id);
    if r.Some? && r.value < |rows| {
      assert false;
    }
  }

  /** The public ticket view: every booking field except the user. */
  datatype PublicBooking = PublicBooking(
    id: int,
    code: Option<string>,
    kind: BookingType,
    show: Option<Show>,
    event: Option<Event>,
    eventDateId: Option<string>,
    details: Document,
    totalAmount: Option<int>,
    paymentMethod: Option<string>,
    status: Status,
    bookedAt: Option<int>)

  function Redact(b: Booking): PublicBooking {
    PublicBooking(b.id, b.code, b.kind, b.show, b.event, b.eventDateId, b.details,
                  b.totalAmount, b.paymentMethod, b.status, b.bookedAt)
  }

  /** `findByBookingCode`. */
  function FindByCode(rows: seq<Booking>, code: string): (r: Option<nat>)
    ensures r.Some? ==> r.value < |rows| && rows[r.value].code == Some(code)
    ensures r.None? <==> code !in Codes(rows)
  {
    if |rows| == 0 then None
    else if rows[0].code == Some(code) then Some(0)
    else
      match FindByCode(rows[1..], code)
      case None =>
        assert forall i :: 1 <= i < |rows| ==> rows[i] == rows[1..][i - 1];
        None
      case Some(k) => Some(k + 1)
  }

  /** `getBookingByCodePublic`: found exactly when some booking has the code;
      the answer carries the booking's ticket data and no user. */
  function GetBookingByCodePublic(store: BookingStore, code: string): (r: Result<PublicBooking, ApiError>)
    ensures r.Ok? <==> code in Codes(store.rows)
    ensures r.Err? ==> r.error == BookingNotFound
    ensures r.Ok? ==> r.value.code == Some(code)
                      && exists i :: 0 <= i < |store.rows| && r.value == Redact(store.rows[i])
  {
    match FindByCode(store.rows, code)
    case None => Err(BookingNotFound)
    case Some(i) => Ok(Redact(store.rows[i]))
  }

  /** Redaction forgets the owner: bookings that differ only in their user
      give the same public answer. */
  lemma PublicViewHidesOwner(b: Booking, otherUser: int)
    ensures Redact(b.(userId := otherUser)) == Redact(b)
  {
  }

  // ---------------------------------------------------------------------------
  // Blocked seats
  // ---------------------------------------------------------------------------

  /** The "seats" list of a booking as the blocked-seats endpoint reads it;
      an unreadable document, a missing or null key, or a non-list value
      contributes nothing. */
  function SeatsOf(d: Document): seq<Value> {
    match d
    case Malformed => []
    case Parsed(fields) =>
      match Get(fields, "seats")
      case Some(List(items)) => items
      case _ => []
  }

  predicate BlocksShow(b: Booking, showId: int) {
    b.status == Confirmed && b.show.Some? && b.show.value.id == showId
  }

  /** `getBlockedSeatsForShow`: the seat lists of the show's CONFIRMED bookings,
      concatenated in store order, duplicates kept. */
  function BlockedSeats(rows: seq<Booking>, showId: int): (seats: seq<Value>)
    ensures |rows| == 1 ==> seats == (if BlocksShow(rows[0], showId) then SeatsOf(rows[0].details) else [])
    ensures |seats| == Sum(seq(|rows|, i requires 0 <= i < |rows| =>
                            if BlocksShow(rows[i], showId) then |SeatsOf(rows[i].details)| else 0))
    ensures forall v :: v in seats <==>
              exists i :: 0 <= i < |rows| && BlocksShow(rows[i], showId) && v in SeatsOf(rows[i].details)
  {
    if |rows| == 0 then []
    else
      var rest := BlockedSeats(rows[1..], showId);
      var mine := if BlocksShow(rows[0], showId) then SeatsOf(rows[0].details) else [];
      assert seq(|rows|, i requires 0 <= i < |rows| =>
                  if BlocksShow(rows[i], showId) then |SeatsOf(rows[i].details)| else 0)[1..]
          == seq(|rows[1..]|, i requires 0 <= i < |rows[1..]| =>
                  if BlocksShow(rows[1..][i], showId) then |SeatsOf(rows[1..][i].details)| else 0);
      assert forall i :: 1 <= i < |rows| ==> rows[i] == rows[1..][i - 1];
      assert forall v :: v in rest <==>
               exists i :: 1 <= i < |rows| && BlocksShow(rows[i], showId) && v in SeatsOf(rows[i].details) by {
        forall v | v in rest
          ensures exists i :: 1 <= i < |rows| && BlocksShow(rows[i], showId) && v in SeatsOf(rows[i].details)
        {
          var k :| 0 <= k < |rows[1..]| && BlocksShow(rows[1..][k], showId) && v in SeatsOf(rows[1..][k].details);
          assert rows[k + 1] == rows[1..][k];
        }
      }
      mine + rest
  }

  /** The blocked seats of two runs of rows are the first run's followed
      by the second's: the lists are concatenated in store order. */
  lemma {:induction false} BlockedSeatsAppend(a: seq<Booking>, b: seq<Booking>, showId: int)
    ensures BlockedSeats(a + b, showId) == BlockedSeats(a, showId) + BlockedSeats(b, showId)
  {
    if |a| > 0 {
      assert (a + b)[0] == a[0];
      assert (a + b)[1..] == a[1..] + b;
      BlockedSeatsAppend(a[1..], b, showId);
    } else {
      assert a + b == b;
    }
  }

  /** A movie booking made by `createMovieBooking` blocks exactly the seats
      it asked for, and analytics counts as many seats. */
  lemma CreatedMovieBookingSeats(seats: seq<string>)
    ensures SeatsOf(SeatsDocument(seats)) == seq(|seats|, i requires 0 <= i < |seats| => Str(seats[i]))
    ensures MovieSeats(SeatsDocument(seats)) == |seats|
  {
  }

  /** Cancelling a booking releases exactly its seats: the blocked multiset
      loses that booking's seats and nothing else. */
  lemma CancelReleasesSeats(rows: seq<Booking>, i: nat, showId: int)
    requires i < |rows| && BlocksShow(rows[i], showId)
    ensures var cancelled := rows[i].(status := Cancelled, paymentStatus := Refunded);
            multiset(BlockedSeats(rows[i := cancelled], showId))
              == multiset(BlockedSeats(rows, showId)) - multiset(SeatsOf(rows[i].details))
  {
    var cancelled := rows[i].(status := Cancelled, paymentStatus := Refunded);
    var before, after := rows[..i], rows[i + 1..];
    assert rows == before + [rows[i]] + after;
    assert rows[i := cancelled] == before + [cancelled] + after;
    BlockedSeatsAppend(before + [rows[i]], after, showId);
    BlockedSeatsAppend(before, [rows[i]], showId);
    BlockedSeatsAppend(before + [cancelled], after, showId);
    BlockedSeatsAppend(before, [cancelled], showId);
    var x, y, seats := BlockedSeats(before, showId), BlockedSeats(after, showId), SeatsOf(rows[i].details);
    assert BlockedSeats(rows, showId) == x + seats + y;
    assert BlockedSeats(rows[i := cancelled], showId) == x + [] + y;
    assert multiset(x + seats + y) == multiset(x) + multiset(seats) + multiset(y);
  }

  lemma {:induction false} SubsetOfBlocked(rows: seq<Booking>, i: nat, showId: int)
    requires i < |rows| && BlocksShow(rows[i], showId)
    ensures multiset(SeatsOf(rows[i].details)) <= multiset(BlockedSeats(rows, showId))
  {
    if i > 0 {
      SubsetOfBlocked(rows[1..], i - 1, showId);
      assert rows[1..][i - 1] == rows[i];
    }
  }

  /** Duplicates are kept: two confirmed bookings of the same seat both show it. */
  lemma BlockedSeatsKeepDuplicates(b1: Booking, b2: Booking, showId: int)
    requires BlocksShow(b1, showId) && BlocksShow(b2, showId)
    requires b1.details == SeatsDocument(["A1"]) && b2.details == SeatsDocument(["A1"])
    ensures BlockedSeats([b1, b2], showId) == [Str("A1"), Str("A1")]
  {
    assert [b1, b2][1..] == [b2];
    assert [b2][1..] == [];
  }

  // ---------------------------------------------------------------------------
  // Zone availability
  // ---------------------------------------------------------------------------

  /** An Integer-valued field, 0 for anything else. */
  function IntOrZero(v: Option<Value>): int {
    match v
    case Some(Int(n)) => n
    case _ => 0
  }

  /** Adult plus child of one zone entry, 0 when the entry is not a map. */
  function EntryPasses(entry: Option<Value>): int {
    match entry
    case Some(Object(info)) => IntOrZero(Get(info, "adult")) + IntOrZero(Get(info, "child"))
    case _ => 0
  }

  /** Passes a booking holds in one zone: only the Integer "adult" and
      "child" counts. Unreadable details, a missing zone, a null or non-map
      zone entry all count 0, and so does a zone without a name. */
  function ZonePasses(d: Document, zone: Option<string>): int {
    if d.Malformed? || zone.None? then 0
    else
      match Get(d.fields, "selectedZones")
      case Some(Object(zones)) => EntryPasses(Get(zones, zone.value))
      case _ => 0
  }

  /** A zone declared in eventConfig: its (nullable) name and its capacity. */
  datatype ZoneDecl = ZoneDecl(name: Option<string>, capacity: int)

  /** One entry of the "zones" list; anything the casts reject is `None`. */
  function DecodeZone(v: Value): Option<ZoneDecl> {
    match v
    case Object(m) =>
      var name := Get(m, "name");
      var cap := Get(m, "capacity");
      if !(name.None? || name.value.Null? || name.value.Str?) then None
      else if !(cap.Some? && cap.value.Int?) then None
      else Some(ZoneDecl(if name.Some? && name.value.Str? then Some(name.value.s) else None, cap.value.i))
    case _ => None
  }

  function DecodeZones(items: seq<Value>): (r: Option<seq<ZoneDecl>>)
    ensures r.Some? <==> forall i :: 0 <= i < |items| ==> DecodeZone(items[i]).Some?
    ensures r.Some? ==> |r.value| == |items| && forall i :: 0 <= i < |items| ==> DecodeZone(items[i]) == Some(r.value[i])
  {
    if |items| == 0 then Some([])
    else
      match (DecodeZone(items[0]), DecodeZones(items[1..]))
      case (Some(z), Some(zs)) =>
        assert forall i :: 1 <= i < |items| ==> items[i] == items[1..][i - 1];
        Some([z] + zs)
      case (None, _) => None
      case (_, None) =>
        var k :| 0 <= k < |items[1..]| && DecodeZone(items[1..][k]).None?;
        assert items[k + 1] == items[1..][k];
        None
  }

  /** The zone list of an event config; `None` when the whole request fails. */
  function ConfigZones(config: Document): Option<seq<ZoneDecl>> {
    match config
    case Malformed => None
    case Parsed(fields) =>
      match Get(fields, "zones")
      case Some(List(items)) => DecodeZones(items)
      case _ => None
  }

  datatype ZoneAvailability = ZoneAvailability(capacity: int, booked: int, available: int, isAvailable: bool)

  /** Confirmed bookings of the event on the date (`findByEventIdAndEventDateIdAndStatus`). */
  predicate CountsFor(b: Booking, eventId: int, dateId: string) {
    b.status == Confirmed && b.event.Some? && b.event.value.id == eventId && b.eventDateId == Some(dateId)
  }

  function Booked(bookings: seq<Booking>, zone: Option<string>): int {
    if |bookings| == 0 then 0 else ZonePasses(bookings[0].details, zone) + Booked(bookings[1..], zone)
  }

  function Availability(capacity: int, booked: int): (a: ZoneAvailability)
    ensures a.capacity == capacity && a.booked == booked
    ensures a.available + booked == capacity
    ensures a.isAvailable <==> booked < capacity
  {
    ZoneAvailability(capacity, booked, capacity - booked, capacity - booked > 0)
  }

  /** Reference reading of the zone list: the capacity a name ends up
      with is that of its last declaration. */
  function LastCapacity(decls: seq<ZoneDecl>, name: Option<string>): Option<int> {
    if |decls| == 0 then None
    else if decls[|decls| - 1].name == name then Some(decls[|decls| - 1].capacity)
    else LastCapacity(decls[..|decls| - 1], name)
  }

  /** A name has a capacity exactly when it is declared, and it is the
      capacity of the last declaration carrying it. */
  lemma {:induction false} LastCapacityIsLastDeclaration(decls: seq<ZoneDecl>, name: Option<string>)
    ensures LastCapacity(decls, name).Some? <==> exists i :: 0 <= i < |decls| && decls[i].name == name
    ensures forall i :: 0 <= i < |decls| && decls[i].name == name
              && (forall j :: i < j < |decls| ==> decls[j].name != name)
              ==> LastCapacity(decls, name) == Some(decls[i].capacity)
  {
    if |decls| > 0 {
      var init := decls[..|decls| - 1];
      LastCapacityIsLastDeclaration(init, name);
      assert forall i :: 0 <= i < |init| ==> init[i] == decls[i];
    }
  }

  /** The availability map, zone by zone in declaration order; a later zone
      with the same name replaces an earlier one (`HashMap.put`). */
  function ZoneMap(decls: seq<ZoneDecl>, bookings: seq<Booking>): (m: map<Option<string>, ZoneAvailability>)
    ensures forall k :: k in m <==> LastCapacity(decls, k).Some?
    ensures forall k :: k in m ==> m[k] == Availability(LastCapacity(decls, k).value, Booked(bookings, k))
  {
    if |decls| == 0 then map[]
    else
      var last := decls[|decls| - 1];
      ZoneMap(decls[..|decls| - 1], bookings)[last.name := Availability(last.capacity, Booked(bookings, last.name))]
  }

  /** `getZoneAvailabilityForEvent`: every declared zone reports its capacity,
      the passes booked by the event date's confirmed bookings, and
      `capacity - booked` unclamped, available exactly when that is positive.
      The request fails when the event is missing or its config cannot be
      read; a booking with unreadable details never makes it fail. */
  function GetZoneAvailability(events: map<int, Event>, store: BookingStore, eventId: int, dateId: string)
    : (r: Result<map<Option<string>, ZoneAvailability>, ApiError>)
    ensures eventId !in events <==> r == Err(EventNotFound)
    ensures eventId in events ==> (r.Ok? <==> ConfigZones(events[eventId].config).Some?)
    ensures r.Err? ==> r.error == EventNotFound || r.error == ConfigUnreadable
    ensures r.Ok? ==>
      var decls := ConfigZones(events[eventId].config).value;
      var bookings := Filter(store.rows, (b: Booking) => CountsFor(b, eventId, dateId));
      && (forall k :: k in r.value <==> LastCapacity(decls, k).Some?)
      && (forall k :: k in r.value ==>
            && r.value[k].capacity == LastCapacity(decls, k).value
            && r.value[k].booked == Booked(bookings, k)
            && r.value[k].available == r.value[k].capacity - r.value[k].booked
            && (r.value[k].isAvailable <==> r.value[k].available > 0))
  {
    if eventId !in events then Err(EventNotFound)
    else
      match ConfigZones(events[eventId].config)
      case None => Err(ConfigUnreadable)
      case Some(decls) =>
        Ok(ZoneMap(decls, Filter(store.rows, (b: Booking) => CountsFor(b, eventId, dateId))))
  }

  /** The spot checks of a capacity-100 zone: 40 booked leaves 60 and is
      available; 110 booked reports -10 and is not. */
  lemma AvailabilityExamples()
    ensures Availability(100, 40) == ZoneAvailability(100, 40, 60, true)
    ensures Availability(100, 110) == ZoneAvailability(100, 110, -10, false)
  {
  }

  // ---------------------------------------------------------------------------
  // The two seat-counting rules
  // ---------------------------------------------------------------------------

  function RequestCount(c: Option<int>): int {
    match c
    case Some(n) => n
    case None => 0
  }

  /** `cats.get(name)` on a request's category map. */
  function RequestCategory(cats: seq<(string, Option<int>)>, name: string): Option<int> {
    if |cats| == 0 then None
    else if cats[0].0 == name then cats[0].1
    else RequestCategory(cats[1..], name)
  }

  /** Reference count of passes a request books in a zone: adult plus child. */
  function RequestPasses(z: ZoneRequest, zone: string): int {
    if |z| == 0 then 0
    else if z[0].0 == zone then
      match z[0].1
      case None => 0
      case Some(cats) => RequestCount(RequestCategory(cats, "adult")) + RequestCount(RequestCategory(cats, "child"))
    else RequestPasses(z[1..], zone)
  }

  /** Reference count of everything a request books: every category of every zone. */
  function RequestTotal(z: ZoneRequest): int {
    if |z| == 0 then 0
    else
      (match z[0].1
       case None => 0
       case Some(cats) => Sum(seq(|cats|, j requires 0 <= j < |cats| => RequestCount(cats[j].1))))
      + RequestTotal(z[1..])
  }

  lemma {:induction false} CategoryLookup(cats: seq<(string, Option<int>)>, name: string)
    ensures var members := seq(|cats|, j requires 0 <= j < |cats| => (cats[j].0, CountValue(cats[j].1)));
            IntOrZero(Get(members, name)) == RequestCount(RequestCategory(cats, name))
  {
    var members := seq(|cats|, j requires 0 <= j < |cats| => (cats[j].0, CountValue(cats[j].1)));
    if |cats| > 0 && cats[0].0 != name {
      CategoryLookup(cats[1..], name);
      assert members[1..] == seq(|cats[1..]|, j requires 0 <= j < |cats[1..]| => (cats[1..][j].0, CountValue(cats[1..][j].1)));
    }
  }

  lemma {:induction false} ZoneLookup(z: ZoneRequest, zone: string)
    ensures EntryPasses(Get(ZoneMembers(z), zone)) == RequestPasses(z, zone)
  {
    if |z| > 0 {
      if z[0].0 == zone {
        if z[0].1.Some? {
          CategoryLookup(z[0].1.value, "adult");
          CategoryLookup(z[0].1.value, "child");
        }
      } else {
        ZoneLookup(z[1..], zone);
        assert ZoneMembers(z)[1..] == ZoneMembers(z[1..]);
      }
    }
  }

  lemma {:induction false} ZoneTotal(z: ZoneRequest)
    ensures Sum(seq(|z|, i requires 0 <= i < |z| => ZoneQuantity(ZoneMembers(z)[i].1))) == RequestTotal(z)
  {
    if |z| > 0 {
      ZoneTotal(z[1..]);
      var s := seq(|z|, i requires 0 <= i < |z| => ZoneQuantity(ZoneMembers(z)[i].1));
      assert s[1..] == seq(|z[1..]|, i requires 0 <= i < |z[1..]| => ZoneQuantity(ZoneMembers(z[1..])[i].1));
      match z[0].1
      case None =>
      case Some(cats) =>
        var members := seq(|cats|, j requires 0 <= j < |cats| => (cats[j].0, CountValue(cats[j].1)));
        assert seq(|members|, j requires 0 <= j < |members| => NumberValue(members[j].1))
            == seq(|cats|, j requires 0 <= j < |cats| => RequestCount(cats[j].1));
    }
  }

  /** An event booking made by `createEventBooking` is counted by the two
      readers differently: availability sees adult + child of the zone,
      analytics sees every count of every zone. */
  lemma CreatedEventBookingCounts(z: ZoneRequest, zone: string)
    ensures ZonePasses(ZonesDocument(z), Some(zone)) == RequestPasses(z, zone)
    ensures EventSeats(ZonesDocument(z)) == RequestTotal(z)
  {
    ZoneLookup(z, zone);
    ZoneTotal(z);
  }

  /** The rules really differ: a Long count and an extra category are seats
      for analytics but not passes for availability. */
  lemma SeatRulesDiffer()
    ensures var d := Parsed([("selectedZones", Object([("VIP", Object([
                       ("adult", Int(2)), ("child", OtherNumber(1)), ("senior", Int(3))]))]))]);
            ZonePasses(d, Some("VIP")) == 2 && EventSeats(d) == 6
  {
    var cats: seq<(string, Value)> := [("adult", Int(2)), ("child", OtherNumber(1)), ("senior", Int(3))];
    assert seq(|cats|, i requires 0 <= i < |cats| => NumberValue(cats[i].1)) == [2, 1, 3];
    assert Sum([2, 1, 3]) == 6 by {
      assert [2, 1, 3][1..] == [1, 3];
      assert [1, 3][1..] == [3];
      assert [3][1..] == [];
    }
    var zones := [("VIP", Object(cats))];
    assert seq(|zones|, i requires 0 <= i < |zones| => ZoneQuantity(zones[i].1)) == [6];
    assert [6][1..] == [];
  }
}

=== FILE: booking_codes.dfy ===
/** Public booking references: "BK" followed by twelve characters drawn from
    A-Z0-9, and the bounded search for one that is not already in use. The
    secure random source is replaced by its outputs: each attempt is twelve
    draws of `nextInt(36)`. */
module BookingCodes {
  import opened Common

  const Alphabet: string := "ABCDEFGHIJKLMNOPQRSTUVWXYZ0123456789"
  const CodeLength: nat := 12
  const MaxAttempts: nat := 10

  predicate InAlphabet(c: char) {
    'A' <= c <= 'Z' || '0' <= c <= '9'
  }

  /** The outputs of twelve `nextInt(36)` calls. */
  predicate ValidDraw(d: seq<int>) {
    |d| == CodeLength && forall i :: 0 <= i < |d| ==> 0 <= d[i] < |Alphabet|
  }

  /** The shape of every generated code. */
  predicate IsBookingCode(code: string) {
    && |code| == 2 + CodeLength
    && code[..2] == "BK"
    && forall i :: 2 <= i < |code| ==> InAlphabet(code[i])
  }

  lemma AlphabetMembers(k: int)
    requires 0 <= k < |Alphabet|
    ensures InAlphabet(Alphabet[k])
    ensures k < 26 ==> Alphabet[k] as int == 'A' as int + k
    ensures 26 <= k ==> Alphabet[k] as int == '0' as int + (k - 26)
  {
  }

  /** `generateBookingCode()` for one attempt's draws. */
  function Generate(d: seq<int>): (code: string)
    requires ValidDraw(d)
    ensures IsBookingCode(code)
    ensures forall i :: 0 <= i < CodeLength ==> code[2 + i] == Alphabet[d[i]]
  {
    var tail := seq(CodeLength, i requires 0 <= i < CodeLength => Alphabet[d[i]]);
    forall i | 0 <= i < CodeLength ensures InAlphabet(tail[i]) {
      AlphabetMembers(d[i]);
    }
    "BK" + tail
  }

  /** Position of a code character in the alphabet. */
  function AlphabetIndex(c: char): (k: nat)
    requires InAlphabet(c)
    ensures k < |Alphabet| && Alphabet[k] == c
  {
    if 'A' <= c <= 'Z' then
      var k := c as int - 'A' as int;
      AlphabetMembers(k);
      k
    else
      var k := 26 + (c as int - '0' as int);
      AlphabetMembers(k);
      k
  }

  /** Different draws give different codes, and every string of the code
      shape is the code of some draw: generation is a bijection between
      draws and well-formed codes. */
  lemma GenerateInjective(d1: seq<int>, d2: seq<int>)
    requires ValidDraw(d1) && ValidDraw(d2)
    requires Generate(d1) == Generate(d2)
    ensures d1 == d2
  {
    forall i | 0 <= i < CodeLength ensures d1[i] == d2[i] {
      assert Alphabet[d1[i]] == Generate(d1)[2 + i] == Alphabet[d2[i]];
      AlphabetMembers(d1[i]);
      AlphabetMembers(d2[i]);
    }
  }

  lemma GenerateSurjective(code: string)
    requires IsBookingCode(code)
    ensures exists d :: ValidDraw(d) && Generate(d) == code
  {
    var d := seq(CodeLength, i requires 0 <= i < CodeLength => AlphabetIndex(code[2 + i]));
    assert ValidDraw(d);
    var g := Generate(d);
    assert g[..2] == code[..2];
    forall i | 0 <= i < |code| ensures g[i] == code[i] {
      if i < 2 {
        assert g[i] == g[..2][i];
      }
    }
    assert g == code;
  }

  /** The code the retry loop settles on: the first of the attempts that is
      not already taken, or nothing when all of them are. */
  function FirstFree(draws: seq<seq<int>>, taken: set<string>): (r: Option<string>)
    requires forall k :: 0 <= k < |draws| ==> ValidDraw(draws[k])
    ensures r.Some? ==> r.value !in taken && IsBookingCode(r.value)
    ensures r.Some? ==> exists k :: 0 <= k < |draws| && r.value == Generate(draws[k])
                                  && forall j :: 0 <= j < k ==> Generate(draws[j]) in taken
    ensures r.None? <==> forall k :: 0 <= k < |draws| ==> Generate(draws[k]) in taken
  {
    var k := FirstFreeAt(draws, taken);
    if k < |draws| then Some(Generate(draws[k])) else None
  }

  /** The position of the first candidate not yet taken (`|draws|` if none). */
  function FirstFreeAt(draws: seq<seq<int>>, taken: set<string>): (k: nat)
    requires forall k :: 0 <= k < |draws| ==> ValidDraw(draws[k])
    ensures k <= |draws|
    ensures forall j :: 0 <= j < k ==> Generate(draws[j]) in taken
    ensures k < |draws| ==> Generate(draws[k]) !in taken
  {
    if |draws| == 0 || Generate(draws[0]) !in taken then 0
    else
      var k := FirstFreeAt(draws[1..], taken);
      assert forall j :: 1 <= j < |draws| ==> draws[1..][j - 1] == draws[j];
      k + 1
  }

  /** The loop of `createBooking`: up to `MaxAttempts` candidates, stopping at
      the first one the store does not already hold. */
  method PickCode(draws: seq<seq<int>>, taken: set<string>) returns (code: Option<string>)
    requires |draws| == MaxAttempts
    requires forall k :: 0 <= k < |draws| ==> ValidDraw(draws[k])
    ensures code == FirstFree(draws, taken)
    ensures code.Some? ==> code.value !in taken && IsBookingCode(code.value)
    ensures code.None? <==> forall k :: 0 <= k < MaxAttempts ==> Generate(draws[k]) in taken
  {
    code := None;
    var i := 0;
    while i < MaxAttempts
      invariant 0 <= i <= MaxAttempts
      invariant forall j :: 0 <= j < i ==> Generate(draws[j]) in taken
      invariant FirstFree(draws, taken) == FirstFree(draws[i..], taken)
    {
      var candidate := Generate(draws[i]);
      if candidate !in taken {
        code := Some(candidate);
        return;
      }
      assert draws[i..][1..] == draws[i + 1..];
      i := i + 1;
    }
  }
}

=== FILE: booking_service.dfy ===
/** The booking lifecycle: saving a new booking with a fresh public code,
    cancelling within the 30-minute window, and folding confirmed bookings
    into revenue, seat and per-venue totals. The clock and the random source
    are parameters; the booking table is an explicit store. */
module BookingService {
  import opened Common
  import opened Entities
  import opened BookingCodes

  /** The booking table: rows in insertion order and the next identity value. */
  datatype BookingStore = BookingStore(rows: seq<Booking>, nextId: int)

  /** Every public code present in the store (`existsByBookingCode`). */
  function Codes(rows: seq<Booking>): (cs: set<string>)
    ensures forall i :: 0 <= i < |rows| && rows[i].code.Some? ==> rows[i].code.value in cs
    ensures forall c :: c in cs ==> exists i :: 0 <= i < |rows| && rows[i].code == Some(c)
  {
    set i | 0 <= i < |rows| && rows[i].code.Some? :: rows[i].code.value
  }

  /** No two rows share a public code. */
  predicate UniqueCodes(rows: seq<Booking>) {
    forall i, j :: 0 <= i < j < |rows| && rows[i].code.Some? ==> rows[i].code != rows[j].code
  }

  /** A code that is null or blank is regenerated. */
  predicate NeedsCode(b: Booking) {
    b.code.None? || IsBlank(b.code.value)
  }

  datatype CreateError =
    | CodeGenerationFailed   // all ten candidate codes were taken
    | SaveRefused            // the save violates a NOT NULL or unique column

  /** The ten candidates for a booking without a code are all taken. */
  predicate Exhausted(store: BookingStore, draft: Booking, draws: seq<seq<int>>)
    requires |draws| == MaxAttempts
    requires forall k :: 0 <= k < |draws| ==> ValidDraw(draws[k])
  {
    NeedsCode(draft) && forall k :: 0 <= k < MaxAttempts ==> Generate(draws[k]) in Codes(store.rows)
  }

  /** What the table refuses on save: a null payment method or total amount
      (NOT NULL columns), or a kept code that another row already carries
      (the unique code column). A generated code is free by construction. */
  predicate Refused(store: BookingStore, draft: Booking) {
    || draft.paymentMethod.None?
    || draft.totalAmount.None?
    || (!NeedsCode(draft) && draft.code.value in Codes(store.rows))
  }

  /** `createBooking(booking, user)`: attach the owner, stamp `bookedAt` when
      it is missing, assign the first free generated code when the booking
      has none, and save the row, which the table may refuse. `draws` are
      the random outputs of the ten attempts; `now` is the clock. */
  function CreateBooking(store: BookingStore, draft: Booking, userId: int, now: int,
                         draws: seq<seq<int>>): (r: Result<(Booking, BookingStore), CreateError>)
    requires |draws| == MaxAttempts
    requires forall k :: 0 <= k < |draws| ==> ValidDraw(draws[k])
    ensures r == Err(CodeGenerationFailed) <==> Exhausted(store, draft, draws)
    ensures r == Err(SaveRefused) <==> !Exhausted(store, draft, draws) && Refused(store, draft)
    ensures r.Ok? <==> !Exhausted(store, draft, draws) && !Refused(store, draft)
    ensures r.Ok? ==>
      var (saved, after) := r.value;
      && saved.userId == userId
      && saved.bookedAt == (if draft.bookedAt.Some? then draft.bookedAt else Some(now))
      && (!NeedsCode(draft) ==> saved.code == draft.code)
      && saved.code.Some? && saved.code.value !in Codes(store.rows)
      && (NeedsCode(draft) ==> IsBookingCode(saved.code.value))
      && saved == draft.(id := store.nextId, userId := userId, bookedAt := saved.bookedAt, code := saved.code)
      && after == BookingStore(store.rows + [saved], store.nextId + 1)
  {
    var stamped := draft.(userId := userId,
                          bookedAt := if draft.bookedAt.Some? then draft.bookedAt else Some(now));
    if !NeedsCode(draft) then
      if Refused(store, draft) then Err(SaveRefused)
      else
        var saved := stamped.(id := store.nextId);
        Ok((saved, BookingStore(store.rows + [saved], store.nextId + 1)))
    else
      match FirstFree(draws, Codes(store.rows))
      case None => Err(CodeGenerationFailed)
      case Some(code) =>
        if Refused(store, draft) then Err(SaveRefused)
        else
          var saved := stamped.(id := store.nextId, code := Some(code));
          Ok((saved, BookingStore(store.rows + [saved], store.nextId + 1)))
  }

  /** Every successful save keeps the codes of the table pairwise distinct,
      whether the code was kept or generated. */
  lemma CreateKeepsCodesUnique(store: BookingStore, draft: Booking, userId: int, now: int,
                               draws: seq<seq<int>>)
    requires |draws| == MaxAttempts
    requires forall k :: 0 <= k < |draws| ==> ValidDraw(draws[k])
    requires UniqueCodes(store.rows)
    requires CreateBooking(store, draft, userId, now, draws).Ok?
    ensures UniqueCodes(CreateBooking(store, draft, userId, now, draws).value.1.rows)
  {
    var (saved, after) := CreateBooking(store, draft, userId, now, draws).value;
    forall i, j | 0 <= i < j < |after.rows| && after.rows[i].code.Some?
      ensures after.rows[i].code != after.rows[j].code
    {
      if j == |store.rows| {
        assert after.rows[i] == store.rows[i];
        assert store.rows[i].code.value in Codes(store.rows);
      }
    }
  }

  // ---------------------------------------------------------------------------
  // Cancellation
  // ---------------------------------------------------------------------------

  const CancelWindowMinutes: int := 30

  /** `long / long` in Java: the quotient truncated toward zero. */
  function JavaDiv(a: int, b: int): (q: int)
    requires b > 0
    ensures a >= 0 ==> q * b <= a < (q + 1) * b
    ensures a < 0 ==> (q - 1) * b < a <= q * b
  {
    if a >= 0 then a / b else -((-a) / b)
  }

  /** `Duration.between(from, to).toMinutes()` for timestamps in seconds. */
  function MinutesBetween(from: int, to: int): int {
    JavaDiv(to - from, 60)
  }

  /** Because `toMinutes()` truncates, the window closes only when a full
      31st minute has begun: 30 minutes 59 seconds is still inside it. */
  lemma CancelWindowInSeconds(bookedAt: int, now: int)
    ensures MinutesBetween(bookedAt, now) <= CancelWindowMinutes <==> now - bookedAt < 31 * 60
  {
    var q := MinutesBetween(bookedAt, now);
    if now - bookedAt >= 0 {
      assert q * 60 <= now - bookedAt < (q + 1) * 60;
      if q <= 30 {
        assert (q + 1) * 60 <= 31 * 60;
      } else {
        assert q * 60 >= 31 * 60;
      }
    }
  }

  datatype CancelError = NotFound | AccessDenied | AlreadyCancelled | WindowExpired | MissingBookedAt

  /** Position of the row with this id (`findById`). */
  function FindBooking(rows: seq<Booking>, id: int): (r: Option<nat>)
    ensures r.Some? ==> r.value < |rows| && rows[r.value].id == id
    ensures r.Some? ==> forall i :: 0 <= i < r.value ==> rows[i].id != id
    ensures r.None? ==> forall i :: 0 <= i < |rows| ==> rows[i].id != id
  {
    if |rows| == 0 then None
    else if rows[0].id == id then Some(0)
    else
      match FindBooking(rows[1..], id)
      case None => None
      case Some(k) => Some(k + 1)
  }

  /** `cancelBooking(bookingId, user)`. The checks run in this order: the
      booking exists, the caller owns it, it is not already cancelled, and
      no more than 30 whole minutes have passed since it was booked. Success
      flips the status to CANCELLED and the payment to REFUNDED and touches
      nothing else; every failure leaves the store as it was. */
  function CancelBooking(store: BookingStore, bookingId: int, callerId: int, now: int)
    : (r: Result<(Booking, BookingStore), CancelError>)
    ensures FindBooking(store.rows, bookingId).None? <==> r == Err(NotFound)
    ensures FindBooking(store.rows, bookingId).Some? ==>
      var i := FindBooking(store.rows, bookingId).value;
      var b := store.rows[i];
      && (b.userId != callerId ==> r == Err(AccessDenied))
      && (b.userId == callerId && b.status == Cancelled ==> r == Err(AlreadyCancelled))
      && (b.userId == callerId && b.status != Cancelled && b.bookedAt.None? ==> r == Err(MissingBookedAt))
      && (b.userId == callerId && b.status != Cancelled && b.bookedAt.Some? ==>
            (r.Ok? <==> MinutesBetween(b.bookedAt.value, now) <= CancelWindowMinutes)
            && (r.Err? ==> r.error == WindowExpired))
      && (r.Ok? ==>
            var cancelled := b.(status := Cancelled, paymentStatus := Refunded);
            r.value == (cancelled, BookingStore(store.rows[i := cancelled], store.nextId)))
  {
    match FindBooking(store.rows, bookingId)
    case None => Err(NotFound)
    case Some(i) =>
      var b := store.rows[i];
      if b.userId != callerId then Err(AccessDenied)
      else if b.status == Cancelled then Err(AlreadyCancelled)
      else if b.bookedAt.None? then Err(MissingBookedAt)
      else if MinutesBetween(b.bookedAt.value, now) > CancelWindowMinutes then Err(WindowExpired)
      else
        var cancelled := b.(status := Cancelled, paymentStatus := Refunded);
        Ok((cancelled, BookingStore(store.rows[i := cancelled], store.nextId)))
  }

  /** Cancelling is one-way: once a cancellation succeeds, a second attempt
      by the same caller, at any time, reports that the booking is already
      cancelled, and the status stays CANCELLED. */
  lemma CancelTwice(store: BookingStore, bookingId: int, callerId: int, now: int, later: int)
    requires CancelBooking(store, bookingId, callerId, now).Ok?
    ensures var after := CancelBooking(store, bookingId, callerId, now).value.1;
            && CancelBooking(after, bookingId, callerId, later) == Err(AlreadyCancelled)
            && after.rows[FindBooking(after.rows, bookingId).value].status == Cancelled
  {
    var i := FindBooking(store.rows, bookingId).value;
    var after := CancelBooking(store, bookingId, callerId, now).value.1;
    FindBookingAfterUpdate(store.rows, bookingId, i, after.rows[i]);
  }

  lemma {:induction false} FindBookingAfterUpdate(rows: seq<Booking>, id: int, i: nat, b: Booking)
    requires FindBooking(rows, id) == Some(i)
    requires b.id == id
    ensures FindBooking(rows[i := b], id) == Some(i)
  {
    if i > 0 {
      assert rows[0].id != id;
      assert rows[i := b][1..] == rows[1..][i - 1 := b];
      FindBookingAfterUpdate(rows[1..], id, i - 1, b);
    }
  }

  // ---------------------------------------------------------------------------
  // Analytics
  // ---------------------------------------------------------------------------

  const UnknownVenue: string := "Unknown Venue"

  /** `Number.intValue()` of a zone quantity; anything that is not a number
      counts 0. */
  function NumberValue(v: Value): int {
    match v
    case Int(i) => i
    case OtherNumber(n) => n
    case _ => 0
  }

  /** The seats of one zone entry in analytics: every number among its values. */
  function ZoneQuantity(v: Value): int {
    match v
    case Object(cats) => Sum(seq(|cats|, i requires 0 <= i < |cats| => NumberValue(cats[i].1)))
    case _ => 0
  }

  /** Seat count of a movie booking: the length of its "seats" list; 0 when
      the document is unreadable, the key is absent or null, or the value is
      not a list. */
  function MovieSeats(d: Document): int {
    match d
    case Malformed => 0
    case Parsed(fields) =>
      match Get(fields, "seats")
      case Some(List(items)) => |items|
      case _ => 0
  }

  /** Seat count of an event booking: the sum of every number in every zone
      map under "selectedZones"; 0 when that is not an object. */
  function EventSeats(d: Document): int {
    match d
    case Malformed => 0
    case Parsed(fields) =>
      match Get(fields, "selectedZones")
      case Some(Object(zones)) => Sum(seq(|zones|, i requires 0 <= i < |zones| => ZoneQuantity(zones[i].1)))
      case _ => 0
  }

  function SeatsInBooking(b: Booking, isMovie: bool): int {
    if isMovie then MovieSeats(b.details) else EventSeats(b.details)
  }

  /** The venue bucket of a booking: for movies the show's venue name; for
      events the event's venue name, else the event's address; otherwise
      "Unknown Venue". */
  function VenueKey(b: Booking, isMovie: bool): (key: string)
    ensures isMovie && b.show.Some? && b.show.value.venue.Some? ==> key == b.show.value.venue.value.name
    ensures !isMovie && b.event.Some? && b.event.value.venue.Some? ==> key == b.event.value.venue.value.name
    ensures !isMovie && b.event.Some? && b.event.value.venue.None? && b.event.value.address.Some?
            ==> key == b.event.value.address.value
    ensures isMovie && (b.show.None? || b.show.value.venue.None?) ==> key == UnknownVenue
    ensures !isMovie && (b.event.None? || (b.event.value.venue.None? && b.event.value.address.None?))
            ==> key == UnknownVenue
  {
    if isMovie && b.show.Some? && b.show.value.venue.Some? then b.show.value.venue.value.name
    else if !isMovie && b.event.Some? then
      if b.event.value.venue.Some? then b.event.value.venue.value.name
      else if b.event.value.address.Some? then b.event.value.address.value
      else UnknownVenue
    else UnknownVenue
  }

  datatype VenueStats = VenueStats(revenue: int, bookings: int, seats: int) {
    function Plus(o: VenueStats): VenueStats {
      VenueStats(revenue + o.revenue, bookings + o.bookings, seats + o.seats)
    }
  }

  const NoStats := VenueStats(0, 0, 0)

  /** What one booking contributes: its amount (0 when null), one booking,
      and its seats. */
  function Contribution(b: Booking, isMovie: bool): VenueStats {
    VenueStats(b.totalAmount.GetOr(0), 1, SeatsInBooking(b, isMovie))
  }

  /** Reference definition: the totals of a list of bookings. */
  function Totals(bs: seq<Booking>, isMovie: bool): (t: VenueStats)
    ensures t.bookings == |bs|
  {
    if |bs| == 0 then NoStats
    else Totals(bs[..|bs| - 1], isMovie).Plus(Contribution(bs[|bs| - 1], isMovie))
  }

  /** Reference definition: the totals of the bookings that fall in bucket `key`. */
  function TotalsFor(bs: seq<Booking>, isMovie: bool, key: string): VenueStats {
    if |bs| == 0 then NoStats
    else
      var t := TotalsFor(bs[..|bs| - 1], isMovie, key);
      if VenueKey(bs[|bs| - 1], isMovie) == key then t.Plus(Contribution(bs[|bs| - 1], isMovie)) else t
  }

  type Buckets = seq<(string, VenueStats)>

  predicate DistinctKeys(m: Buckets) {
    forall i, j :: 0 <= i < j < |m| ==> m[i].0 != m[j].0
  }

  /** A bucket's statistics, zero when the bucket does not exist. */
  function Lookup(m: Buckets, key: string): VenueStats {
    if |m| == 0 then NoStats
    else if m[0].0 == key then m[0].1
    else Lookup(m[1..], key)
  }

  /** Sum of all buckets. */
  function BucketSum(m: Buckets): VenueStats {
    if |m| == 0 then NoStats else m[0].1.Plus(BucketSum(m[1..]))
  }

  /** `putIfAbsent` followed by adding `s` to the bucket. */
  function Upsert(m: Buckets, key: string, s: VenueStats): (r: Buckets)
    ensures BucketSum(r) == BucketSum(m).Plus(s)
    ensures Lookup(r, key) == Lookup(m, key).Plus(s)
    ensures forall k :: k != key ==> Lookup(r, k) == Lookup(m, k)
  {
    if |m| == 0 then [(key, s)]
    else if m[0].0 == key then [(key, m[0].1.Plus(s))] + m[1..]
    else [m[0]] + Upsert(m[1..], key, s)
  }

  /** Upserting adds `key` to the bucket names. */
  lemma {:induction false} UpsertKeys(m: Buckets, key: string, s: VenueStats)
    ensures BucketKeys(Upsert(m, key, s)) == BucketKeys(m) + {key}
  {
    if |m| > 0 && m[0].0 != key {
      UpsertKeys(m[1..], key, s);
      assert Upsert(m, key, s)[1..] == Upsert(m[1..], key, s);
    }
  }

  /** Upserting keeps the bucket names distinct. */
  lemma {:induction false} UpsertDistinct(m: Buckets, key: string, s: VenueStats)
    requires DistinctKeys(m)
    ensures DistinctKeys(Upsert(m, key, s))
  {
    var r := Upsert(m, key, s);
    if |m| == 0 {
    } else if m[0].0 == key {
      assert forall i :: 0 <= i < |r| ==> r[i].0 == m[i].0;
    } else {
      DistinctCons(m);
      UpsertDistinct(m[1..], key, s);
      UpsertKeys(m[1..], key, s);
      assert r[1..] == Upsert(m[1..], key, s);
      DistinctCons(r);
    }
  }

  /** The bucket names. */
  function BucketKeys(m: Buckets): (ks: set<string>)
    ensures forall i :: 0 <= i < |m| ==> m[i].0 in ks
    ensures forall k :: k in ks ==> exists i :: 0 <= i < |m| && m[i].0 == k
  {
    if |m| == 0 then {}
    else
      var rest := BucketKeys(m[1..]);
      assert forall i :: 1 <= i < |m| ==> m[i] == m[1..][i - 1];
      assert forall k :: k in rest ==> exists i :: 0 <= i < |m| && m[i].0 == k by {
        forall k | k in rest ensures exists i :: 0 <= i < |m| && m[i].0 == k {
          var i :| 0 <= i < |m[1..]| && m[1..][i].0 == k;
          assert m[i + 1].0 == k;
        }
      }
      {m[0].0} + rest
  }

  lemma DistinctCons(m: Buckets)
    requires |m| > 0
    ensures DistinctKeys(m) <==> m[0].0 !in BucketKeys(m[1..]) && DistinctKeys(m[1..])
  {
    assert forall i :: 1 <= i < |m| ==> m[i] == m[1..][i - 1];
  }

  /** The per-venue map built by the loop of `calculateAnalytics`. */
  function ByVenue(bs: seq<Booking>, isMovie: bool): (m: Buckets)
    ensures DistinctKeys(m)
    ensures BucketSum(m) == Totals(bs, isMovie)
    ensures forall key :: Lookup(m, key) == TotalsFor(bs, isMovie, key)
  {
    if |bs| == 0 then []
    else
      var last := bs[|bs| - 1];
      UpsertDistinct(ByVenue(bs[..|bs| - 1], isMovie), VenueKey(last, isMovie), Contribution(last, isMovie));
      Upsert(ByVenue(bs[..|bs| - 1], isMovie), VenueKey(last, isMovie), Contribution(last, isMovie))
  }

  datatype Analytics = Analytics(totalRevenue: int, totalBookings: int, totalSeats: int, byVenue: Buckets)

  /** `calculateAnalytics(bookings, isMovie)`: total revenue (null amounts
      count 0), the number of bookings, the seats, and the same three figures
      per venue bucket. The buckets add up to the totals and each holds
      exactly the bookings whose venue key is its name. */
  function CalculateAnalytics(bs: seq<Booking>, isMovie: bool): (a: Analytics)
    ensures a.totalBookings == |bs|
    ensures VenueStats(a.totalRevenue, a.totalBookings, a.totalSeats) == Totals(bs, isMovie)
    ensures BucketSum(a.byVenue) == VenueStats(a.totalRevenue, a.totalBookings, a.totalSeats)
    ensures DistinctKeys(a.byVenue)
    ensures forall key :: Lookup(a.byVenue, key) == TotalsFor(bs, isMovie, key)
  {
    var t := Totals(bs, isMovie);
    Analytics(t.revenue, |bs|, t.seats, ByVenue(bs, isMovie))
  }
}

=== FILE: common.dfy ===
/** Shared vocabulary of the booking backend model: optional values, results,
    and the few `java.lang.String` operations the controllers and services
    depend on, written out with the JDK's exact character rules. */
module Common {

  /** A Java reference that may be null. */
  datatype Option<+T> = None | Some(value: T) {
    /** `x != null ? x : default` */
    function GetOr(default: T): T {
      match this
      case Some(v) => v
      case None => default
    }
  }

  /** An operation that either produces a value or stops with an error
      (an exception or an early error response in the source). */
  datatype Result<+T, +E> = Ok(value: T) | Err(error: E)

  // ---------------------------------------------------------------------------
  // Characters
  // ---------------------------------------------------------------------------

  /** `Character.isWhitespace`: the ASCII controls TAB..CR and FS..US, the
      space, and the Unicode space/line/paragraph separators except the
      non-breaking ones (U+00A0, U+2007, U+202F). */
  predicate IsJavaWhitespace(c: char) {
    var n := c as int;
    || 9 <= n <= 13
    || 28 <= n <= 32
    || n == 0x1680
    || 0x2000 <= n <= 0x2006
    || 0x2008 <= n <= 0x200A
    || n == 0x2028 || n == 0x2029 || n == 0x205F || n == 0x3000
  }

  /** `String.isBlank()`: empty or only `Character.isWhitespace` characters. */
  predicate IsBlank(s: string) {
    forall i :: 0 <= i < |s| ==> IsJavaWhitespace(s[i])
  }

  /** `String.trim()` strips every character at or below U+0020 from both
      ends; this is a different set from `isBlank`'s. */
  predicate IsTrimmable(c: char) {
    c <= ' '
  }

  predicate IsAsciiDigit(c: char) {
    '0' <= c <= '9'
  }

  /** ASCII upper case to lower case; other characters are kept. */
  function AsciiLower(c: char): (r: char)
    ensures 'A' <= c <= 'Z' ==> r as int == c as int + 32
    ensures !('A' <= c <= 'Z') ==> r == c
  {
    if 'A' <= c <= 'Z' then (c as int + 32) as char else c
  }

  // ---------------------------------------------------------------------------
  // Strings
  // ---------------------------------------------------------------------------

  predicate StartsWith(s: string, prefix: string) {
    |prefix| <= |s| && s[..|prefix|] == prefix
  }

  predicate EndsWith(s: string, suffix: string) {
    |suffix| <= |s| && s[|s| - |suffix|..] == suffix
  }

  /** `String.equalsIgnoreCase` restricted to ASCII case pairs. */
  predicate EqualsIgnoreCase(a: string, b: string) {
    |a| == |b| && forall i :: 0 <= i < |a| ==> AsciiLower(a[i]) == AsciiLower(b[i])
  }

  function TrimStart(s: string): (r: string)
    ensures |r| <= |s| && r == s[|s| - |r|..]
    ensures r == [] || !IsTrimmable(r[0])
    ensures forall i :: 0 <= i < |s| - |r| ==> IsTrimmable(s[i])
  {
    if |s| > 0 && IsTrimmable(s[0]) then TrimStart(s[1..]) else s
  }

  function TrimEnd(s: string): (r: string)
    ensures |r| <= |s| && r == s[..|r|]
    ensures r == [] || !IsTrimmable(r[|r| - 1])
    ensures forall i :: |r| <= i < |s| ==> IsTrimmable(s[i])
  {
    if |s| > 0 && IsTrimmable(s[|s| - 1]) then TrimEnd(s[..|s| - 1]) else s
  }

  /** `String.trim()`: the longest infix whose ends are above U+0020. */
  function Trim(s: string): (r: string)
    ensures |r| <= |s|
    ensures r == [] || (!IsTrimmable(r[0]) && !IsTrimmable(r[|r| - 1]))
    ensures (forall i :: 0 <= i < |s| ==> IsTrimmable(s[i])) <==> r == []
    ensures forall c :: c in r ==> c in s
  {
    var t := TrimStart(s);
    var r := TrimEnd(t);
    assert forall i :: 0 <= i < |r| ==> r[i] == s[|s| - |t| + i];
    r
  }

  /** A string whose first and last characters survive `trim()` is its own trim. */
  lemma TrimOfUntrimmable(s: string)
    requires |s| > 0 && !IsTrimmable(s[0]) && !IsTrimmable(s[|s| - 1])
    ensures Trim(s) == s
  {
  }

  /** Joins `parts` with `sep` between neighbours, like `String.join` or a
      `StringBuilder` loop that appends the separator before all but the
      first element. */
  function Join(parts: seq<string>, sep: string): (r: string)
    ensures |parts| == 1 ==> r == parts[0]
  {
    if |parts| == 0 then []
    else if |parts| == 1 then parts[0]
    else parts[0] + sep + Join(parts[1..], sep)
  }

  /** Splits `s` at every `sep`, keeping empty pieces (including trailing ones). */
  function SplitAll(s: string, sep: char): (parts: seq<string>)
    ensures |parts| >= 1
    ensures forall i :: 0 <= i < |parts| ==> sep !in parts[i]
  {
    if |s| == 0 then [[]]
    else
      var rest := SplitAll(s[1..], sep);
      if s[0] == sep then [[]] + rest
      else [[s[0]] + rest[0]] + rest[1..]
  }

  /** Splitting a joined list gives the list back, provided no piece
      contains the separator. */
  lemma {:induction false} SplitAllJoin(parts: seq<string>, sep: char)
    requires |parts| >= 1
    requires forall i :: 0 <= i < |parts| ==> sep !in parts[i]
    ensures SplitAll(Join(parts, [sep]), sep) == parts
  {
    if |parts| == 1 {
      SplitAllPrefix(parts[0], [], sep);
      assert parts[0] + [] == parts[0];
    } else {
      var tail := Join(parts[1..], [sep]);
      SplitAllJoin(parts[1..], sep);
      assert Join(parts, [sep]) == parts[0] + ([sep] + tail);
      SplitAllPrefix(parts[0], [sep] + tail, sep);
      assert ([sep] + tail)[1..] == tail;
      var after := SplitAll([sep] + tail, sep);
      assert after == [[]] + parts[1..];
      assert parts[0] + after[0] == parts[0];
      assert after[1..] == parts[1..];
      assert parts == [parts[0]] + parts[1..];
    }
  }

  /** A separator-free prefix glues onto the first piece of the rest. */
  lemma {:induction false} SplitAllPrefix(a: string, rest: string, sep: char)
    requires sep !in a
    ensures SplitAll(a + rest, sep) == [a + SplitAll(rest, sep)[0]] + SplitAll(rest, sep)[1..]
  {
    if |a| > 0 {
      SplitAllPrefix(a[1..], rest, sep);
      assert (a + rest)[1..] == a[1..] + rest;
      assert [a[0]] + (a[1..] + SplitAll(rest, sep)[0]) == a + SplitAll(rest, sep)[0];
    } else {
      assert a + rest == rest;
      var p := SplitAll(rest, sep);
      assert a + p[0] == p[0];
      assert p == [p[0]] + p[1..];
    }
  }

  /** A string without the separator is a single piece. */
  lemma SplitAllNoSeparator(s: string, sep: char)
    requires sep !in s
    ensures SplitAll(s, sep) == [s]
  {
    SplitAllPrefix(s, [], sep);
    assert s + [] == s;
  }

  /** Drops the empty strings at the end of a list. */
  function DropTrailingEmpty(parts: seq<string>): (r: seq<string>)
    ensures |r| <= |parts| && r == parts[..|r|]
    ensures r == [] || r[|r| - 1] != []
    ensures forall i :: |r| <= i < |parts| ==> parts[i] == []
  {
    if |parts| > 0 && parts[|parts| - 1] == [] then DropTrailingEmpty(parts[..|parts| - 1]) else parts
  }

  lemma DropTrailingEmptyKeeps(parts: seq<string>)
    requires |parts| > 0 && parts[|parts| - 1] != []
    ensures DropTrailingEmpty(parts) == parts
  {
  }

  /** `String.split(String.valueOf(sep))`: when the separator occurs, the pieces
      without the trailing empty ones; when it does not, the string itself. */
  function JavaSplit(s: string, sep: char): (parts: seq<string>)
    ensures sep !in s ==> parts == [s]
    ensures forall i :: 0 <= i < |parts| ==> sep !in parts[i]
  {
    if sep !in s then [s] else DropTrailingEmpty(SplitAll(s, sep))
  }

  /** The elements of `s` without repetitions, each kept at its first
      occurrence (`Stream.distinct()`). */
  function Distinct<T(==)>(s: seq<T>): (r: seq<T>)
    ensures forall i, j :: 0 <= i < j < |r| ==> r[i] != r[j]
    ensures forall i :: 0 <= i < |s| ==> s[i] in r
    ensures forall i :: 0 <= i < |r| ==> r[i] in s
    ensures |r| <= |s|
  {
    if |s| == 0 then []
    else
      var d := Distinct(s[..|s| - 1]);
      if s[|s| - 1] in d then d else d + [s[|s| - 1]]
  }

  /** Position of the first occurrence of `x` in `s`. */
  function FirstIndex<T(==)>(s: seq<T>, x: T): (k: nat)
    requires x in s
    ensures k < |s| && s[k] == x
    ensures forall i :: 0 <= i < k ==> s[i] != x
  {
    if s[0] == x then 0 else 1 + FirstIndex(s[1..], x)
  }

  /** `Distinct` keeps first-seen order: an element listed earlier in the
      result first occurs earlier in the input. */
  lemma {:induction false} DistinctFirstSeenOrder<T>(s: seq<T>, i: int, j: int)
    requires 0 <= i < j < |Distinct(s)|
    ensures FirstIndex(s, Distinct(s)[i]) < FirstIndex(s, Distinct(s)[j])
  {
    var init := s[..|s| - 1];
    var d := Distinct(init);
    var last := s[|s| - 1];
    FirstIndexOfPrefix(s, init, Distinct(s)[i]);
    if j < |d| {
      DistinctFirstSeenOrder(init, i, j);
      FirstIndexOfPrefix(s, init, Distinct(s)[j]);
    } else {
      // Distinct(s)[j] is `last`, which does not occur in `init`.
      assert Distinct(s)[j] == last && last !in init;
      assert FirstIndex(s, last) == |s| - 1 by {
        FirstIndexOfLast(s, init, last);
      }
    }
  }

  lemma FirstIndexOfPrefix<T>(s: seq<T>, init: seq<T>, x: T)
    requires |init| <= |s| && init == s[..|init|] && x in init
    ensures FirstIndex(s, x) == FirstIndex(init, x)
  {
    var k := FirstIndex(init, x);
    FirstIndexUnique(s, x, k);
  }

  lemma FirstIndexOfLast<T>(s: seq<T>, init: seq<T>, x: T)
    requires |s| > 0 && init == s[..|s| - 1] && x == s[|s| - 1] && x !in init
    ensures FirstIndex(s, x) == |s| - 1
  {
    forall i | 0 <= i < |s| - 1 ensures s[i] != x {
      assert s[i] == init[i];
    }
    FirstIndexUnique(s, x, |s| - 1);
  }

  /** `FirstIndex` is characterised by its contract. */
  lemma {:induction false} FirstIndexUnique<T>(s: seq<T>, x: T, k: nat)
    requires k < |s| && s[k] == x && forall i :: 0 <= i < k ==> s[i] != x
    ensures FirstIndex(s, x) == k
  {
    if k > 0 {
      assert s[0] != x;
      FirstIndexUnique(s[1..], x, k - 1);
    }
  }

  /** The elements of `s` that satisfy `p`, in order (`stream().filter(p)`). */
  function Filter<T>(s: seq<T>, p: T -> bool): (r: seq<T>)
    ensures |r| <= |s|
    ensures forall i :: 0 <= i < |r| ==> p(r[i]) && r[i] in s
    ensures forall i :: 0 <= i < |s| && p(s[i]) ==> s[i] in r
    ensures (forall i :: 0 <= i < |s| ==> p(s[i])) ==> r == s
  {
    if |s| == 0 then []
    else
      var rest := Filter(s[1..], p);
      assert forall i :: 1 <= i < |s| ==> s[i] == s[1..][i - 1];
      if p(s[0]) then [s[0]] + rest else rest
  }

  /** Sum of a list of integers. */
  function Sum(xs: seq<int>): int {
    if |xs| == 0 then 0 else xs[0] + Sum(xs[1..])
  }

  lemma {:induction false} SumAppend(xs: seq<int>, ys: seq<int>)
    ensures Sum(xs + ys) == Sum(xs) + Sum(ys)
  {
    if |xs| == 0 {
      assert xs + ys == ys;
    } else {
      SumAppend(xs[1..], ys);
      assert (xs + ys)[1..] == xs[1..] + ys;
    }
  }

  /** `%0<width>d` of a non-negative number: decimal digits, left-padded
      with zeros to at least `width` characters. */
  function ZeroPad(n: nat, width: nat): (r: string)
    ensures |r| >= width
    ensures forall i :: 0 <= i < |r| ==> IsAsciiDigit(r[i])
    ensures ParseDigits(r) == n
  {
    var digits := Digits(n);
    if |digits| >= width then digits
    else
      var zeros := seq(width - |digits|, _ => '0');
      ParseDigitsLeadingZeros(|zeros|, digits);
      assert zeros == seq(|zeros|, _ => '0');
      zeros + digits
  }

  /** The shortest decimal representation of `n` ("0" for zero). */
  function Digits(n: nat): (r: string)
    ensures |r| >= 1
    ensures forall i :: 0 <= i < |r| ==> IsAsciiDigit(r[i])
    ensures ParseDigits(r) == n
  {
    if n < 10 then [('0' as int + n) as char]
    else
      var d := Digits(n / 10) + [('0' as int + n % 10) as char];
      ParseDigitsSnoc(Digits(n / 10), ('0' as int + n % 10) as char);
      d
  }

  /** A signed decimal, as `Long.toString`/`Integer.toString` print it. */
  function IntText(i: int): (r: string)
    ensures |r| >= 1
  {
    if i < 0 then "-" + Digits(-i) else Digits(i)
  }

  /** The value of a string of decimal digits, read most significant first. */
  function ParseDigits(s: string): nat
    requires forall i :: 0 <= i < |s| ==> IsAsciiDigit(s[i])
  {
    if |s| == 0 then 0
    else
      assert IsAsciiDigit(s[|s| - 1]);
      10 * ParseDigits(s[..|s| - 1]) + (s[|s| - 1] as int - '0' as int)
  }

  lemma ParseDigitsSnoc(s: string, c: char)
    requires forall i :: 0 <= i < |s| ==> IsAsciiDigit(s[i])
    requires IsAsciiDigit(c)
    ensures ParseDigits(s + [c]) == 10 * ParseDigits(s) + (c as int - '0' as int)
  {
    assert (s + [c])[..|s + [c]| - 1] == s;
  }

  lemma {:induction false} ParseDigitsLeadingZeros(k: nat, s: string)
    requires forall i :: 0 <= i < |s| ==> IsAsciiDigit(s[i])
    ensures ParseDigits(seq(k, _ => '0') + s) == ParseDigits(s)
  {
    if |s| == 0 {
      ParseDigitsZeros(k);
      assert seq(k, _ => '0') + s == seq(k, _ => '0');
    } else {
      var init := s[..|s| - 1];
      ParseDigitsLeadingZeros(k, init);
      assert (seq(k, _ => '0') + s)[..|seq(k, _ => '0') + s| - 1] == seq(k, _ => '0') + init;
    }
  }

  lemma {:induction false} ParseDigitsZeros(k: nat)
    ensures ParseDigits(seq(k, _ => '0')) == 0
  {
    if k > 0 {
      ParseDigitsZeros(k - 1);
      assert seq(k, _ => '0')[..k - 1] == seq(k - 1, _ => '0');
    }
  }
}

=== FILE: entities.dfy ===
/** The persistent records of the booking backend, one datatype per entity
    class. Identifiers are integers, dates are day numbers, timestamps are
    seconds, and money is an integer number of cents. A Java reference that
    the code tests for null is an `Option`. */
module Entities {
  import opened Common

  /** Shared lifecycle status of schedules, shows, events and bookings. */
  datatype Status = Active | Cancelled | Completed | Confirmed

  datatype PaymentStatus = Pending | PaymentCompleted | Failed | Refunded

  datatype BookingType = Movie | Event

  datatype VenueType = Theatre | EventGround

  /** A JSON value as Jackson returns it when a document is read into a
      `java.util.Map`. Object members are listed in document order, once per
      key. A number that fits `java.lang.Integer` is `Int`; every other number
      (Long, BigInteger, Double) is `OtherNumber`, carrying the value that
      `Number.intValue()` gives for it. */
  datatype Value =
    | Null
    | Bool(b: bool)
    | Int(i: int)
    | OtherNumber(intValue: int)
    | Str(s: string)
    | List(items: seq<Value>)
    | Object(members: seq<(string, Value)>)

  /** A stored JSON text after `objectMapper.readValue(text, Map.class)`:
      either the members of the top-level object, or `Malformed` when the
      call throws or yields null (not JSON, not an object, the literal null). */
  datatype Document = Malformed | Parsed(fields: seq<(string, Value)>)

  /** `Map.get(key)`: the value bound to `key`, if any. */
  function Get(members: seq<(string, Value)>, key: string): (r: Option<Value>)
    ensures r.Some? <==> exists i :: 0 <= i < |members| && members[i].0 == key
    ensures r.Some? ==> exists i :: 0 <= i < |members| && members[i] == (key, r.value)
  {
    if |members| == 0 then None
    else if members[0].0 == key then Some(members[0].1)
    else
      var r := Get(members[1..], key);
      assert r.Some? ==> members[1..][0..] == members[1..];
      r
  }

  /** The values of a map, in iteration order (`Map.values()`). */
  function Values(members: seq<(string, Value)>): (vs: seq<Value>)
    ensures |vs| == |members|
    ensures forall i :: 0 <= i < |members| ==> vs[i] == members[i].1
  {
    if |members| == 0 then [] else [members[0].1] + Values(members[1..])
  }

  datatype User = User(
    id: int,
    name: string,
    email: string,
    password: Option<string>,     // null only in redacted responses
    role: string,
    theatreName: Option<string>,
    phone: Option<string>,
    location: Option<string>,
    profileImageUrl: Option<string>)

  datatype Venue = Venue(
    id: int,
    ownerId: Option<int>,
    name: string,
    kind: VenueType,
    location: string,
    address: string,
    pincode: string,
    country: string,
    capacity: int,
    amenities: Option<string>)

  /** A movie schedule: a date range and a showtimes text such as
      `["09:00 AM","12:00 PM"]`, expanded into shows. */
  datatype Schedule = Schedule(
    id: int,
    venue: Option<Venue>,
    movieId: int,
    startDate: int,
    endDate: int,
    showtimes: Option<string>,
    silverPrice: Option<int>,
    goldPrice: Option<int>,
    vipPrice: Option<int>,
    status: Status)

  /** One screening of a movie at a venue on a date and time. */
  datatype Show = Show(
    id: int,
    venue: Option<Venue>,
    scheduleId: int,
    movieId: int,
    date: int,
    time: string,
    silverPrice: int,
    goldPrice: int,
    vipPrice: int,
    status: Status)

  /** A live event; `config` is the parsed eventConfig JSON (dates, zones). */
  datatype Event = Event(
    id: int,
    venue: Option<Venue>,
    ownerId: int,
    title: string,
    address: Option<string>,
    posterUrl: Option<string>,
    config: Document,
    status: Status)

  /** A reservation. `details` is the parsed bookingDetails JSON:
      `{"seats": [...]}` for movies, `{"selectedZones": {zone: {category: n}}}`
      for events. `id` is assigned by the store when the booking is saved. */
  datatype Booking = Booking(
    id: int,
    code: Option<string>,
    userId: int,
    kind: BookingType,
    show: Option<Show>,
    event: Option<Event>,
    eventDateId: Option<string>,
    details: Document,
    totalAmount: Option<int>,
    paymentMethod: Option<string>,
    paymentStatus: PaymentStatus,
    status: Status,
    bookedAt: Option<int>)

  /** A star rating, at most one per (user, item, item type). */
  datatype Rating = Rating(
    id: int,
    userId: int,
    itemId: string,
    itemType: string,
    stars: int,
    review: Option<string>,
    createdAt: int)

  /** A wishlist entry for a movie or an event; `id` is the generated key. */
  datatype WishlistItem = WishlistItem(
    id: int,
    userId: int,
    itemId: string,
    kind: string,
    title: string,
    poster: Option<string>,
    duration: Option<string>,
    genre: string,
    venue: Option<string>,
    date: Option<string>)

  /** The users table's unique constraint on the email column. */
  predicate UniqueEmails(users: map<int, User>) {
    forall i, j :: i in users && j in users && users[i].email == users[j].email ==> i == j
  }

  /** `existsByEmail`. */
  predicate EmailTaken(users: map<int, User>, email: string) {
    exists id :: id in users && users[id].email == email
  }

  /** `findByEmail`: the one user registered with `email`, if any. */
  function UserWithEmail(users: map<int, User>, email: string): (r: Option<User>)
    requires UniqueEmails(users)
    ensures r.Some? <==> EmailTaken(users, email)
    ensures r.Some? ==> r.value.email == email && r.value in users.Values
  {
    if EmailTaken(users, email) then
      var id :| id in users && users[id].email == email;
      Some(users[id])
    else None
  }
}

=== FILE: image_upload.dfy ===
/** Image uploads for profiles and event posters, and the poster proxy that
    fetches images from the movie database's image host. File storage, the
    URI parser and the HTTP client are parameters. */
module ImageUpload {
  import opened Common
  import opened Entities
  import Auth

  /** A multipart file: its size and its declared content type. */
  datatype Upload = Upload(size: nat, contentType: Option<string>)

  datatype UploadError =
    | EmptyFile          // 400, "Please select a file to upload"
    | NotAnImage         // 400, "Only image files are allowed"
    | OwnerNotFound      // 500, "User not found" / "Event not found"
    | StorageFailed      // 500, the file store threw

  const ImagePrefix := "image/"

  /** `validateImageFile`: an empty file first, then a missing or non-image
      content type. */
  function ValidateImage(f: Upload): (r: Option<UploadError>)
    ensures r.None? <==> f.size > 0 && f.contentType.Some? && StartsWith(f.contentType.value, ImagePrefix)
    ensures f.size == 0 <==> r == Some(EmptyFile)
    ensures r.Some? ==> r.value == EmptyFile || r.value == NotAnImage
  {
    if f.size == 0 then Some(EmptyFile)
    else if f.contentType.None? || !StartsWith(f.contentType.value, ImagePrefix) then Some(NotAnImage)
    else None
  }

  /** `uploadProfileImage`: validation, then the user must exist, then the
      file is stored (`storedUrl` is the store's answer, `None` when it
      throws) and its URL becomes the profile image. */
  function UploadProfileImage(users: map<int, User>, userId: int, f: Upload, storedUrl: Option<string>)
    : (r: Result<(string, map<int, User>), UploadError>)
    ensures ValidateImage(f).Some? ==> r == Err(ValidateImage(f).value)
    ensures ValidateImage(f).None? ==> (r == Err(OwnerNotFound) <==> userId !in users)
    ensures r.Ok? <==> ValidateImage(f).None? && userId in users && storedUrl.Some?
    ensures r == Err(StorageFailed) <==> ValidateImage(f).None? && userId in users && storedUrl.None?
    ensures r.Ok? ==>
      && ValidateImage(f).None? && storedUrl == Some(r.value.0)
      && r.value.1 == users[userId := users[userId].(profileImageUrl := storedUrl)]
  {
    if ValidateImage(f).Some? then Err(ValidateImage(f).value)
    else if userId !in users then Err(OwnerNotFound)
    else match storedUrl
      case None => Err(StorageFailed)
      case Some(url) => Ok((url, users[userId := users[userId].(profileImageUrl := Some(url))]))
  }

  /** `uploadEventImage`: the same steps for an event's poster. */
  function UploadEventImage(events: map<int, Event>, eventId: int, f: Upload, storedUrl: Option<string>)
    : (r: Result<(string, map<int, Event>), UploadError>)
    ensures ValidateImage(f).Some? ==> r == Err(ValidateImage(f).value)
    ensures ValidateImage(f).None? ==> (r == Err(OwnerNotFound) <==> eventId !in events)
    ensures r.Ok? <==> ValidateImage(f).None? && eventId in events && storedUrl.Some?
    ensures r == Err(StorageFailed) <==> ValidateImage(f).None? && eventId in events && storedUrl.None?
    ensures r.Ok? ==>
      && ValidateImage(f).None? && storedUrl == Some(r.value.0)
      && r.value.1 == events[eventId := events[eventId].(posterUrl := storedUrl)]
  {
    if ValidateImage(f).Some? then Err(ValidateImage(f).value)
    else if eventId !in events then Err(OwnerNotFound)
    else match storedUrl
      case None => Err(StorageFailed)
      case Some(url) => Ok((url, events[eventId := events[eventId].(posterUrl := Some(url))]))
  }

  /** After a profile image upload the user reads back with the stored URL
      as its image and is otherwise unchanged. */
  lemma UploadThenGetUser(users: map<int, User>, userId: int, f: Upload, storedUrl: Option<string>)
    requires UploadProfileImage(users, userId, f, storedUrl).Ok?
    ensures Auth.GetUser(UploadProfileImage(users, userId, f, storedUrl).value.1, userId).Ok?
    ensures
      var got := Auth.GetUser(UploadProfileImage(users, userId, f, storedUrl).value.1, userId).value;
      && got.profileImageUrl == Some(UploadProfileImage(users, userId, f, storedUrl).value.0)
      && got == Auth.Redacted(users[userId]).(profileImageUrl := got.profileImageUrl)
  {
  }

  /** `uploadEventImageOnly`: validation, then the store's URL. */
  function UploadImageOnly(f: Upload, storedUrl: Option<string>): (r: Result<string, UploadError>)
    ensures r.Ok? <==> ValidateImage(f).None? && storedUrl.Some?
    ensures r.Ok? ==> r.value == storedUrl.value
    ensures ValidateImage(f).Some? ==> r == Err(ValidateImage(f).value)
    ensures r == Err(StorageFailed) <==> ValidateImage(f).None? && storedUrl.None?
  {
    if ValidateImage(f).Some? then Err(ValidateImage(f).value)
    else match storedUrl
      case None => Err(StorageFailed)
      case Some(url) => Ok(url)
  }

  /** Uploading a poster without an event answers as uploading it to an
      existing event does: the same error or the same URL, only without
      touching the event. */
  lemma ImageOnlyMatchesEventUpload(events: map<int, Event>, eventId: int, f: Upload, storedUrl: Option<string>)
    requires eventId in events
    ensures UploadImageOnly(f, storedUrl).Ok? <==> UploadEventImage(events, eventId, f, storedUrl).Ok?
    ensures UploadImageOnly(f, storedUrl).Ok? ==>
              UploadImageOnly(f, storedUrl).value == UploadEventImage(events, eventId, f, storedUrl).value.0
    ensures UploadImageOnly(f, storedUrl).Err? ==>
              UploadImageOnly(f, storedUrl).error == UploadEventImage(events, eventId, f, storedUrl).error
  {
  }

  /** A rejected file leaves the stores as they were, whatever the file
      store would have answered. */
  lemma RejectedUploadStoresNothing(users: map<int, User>, events: map<int, Event>, id: int, f: Upload,
                                    u1: Option<string>, u2: Option<string>)
    requires ValidateImage(f).Some?
    ensures UploadProfileImage(users, id, f, u1) == UploadProfileImage(users, id, f, u2)
    ensures UploadEventImage(events, id, f, u1) == UploadEventImage(events, id, f, u2)
    ensures UploadProfileImage(users, id, f, u1).Err? && UploadEventImage(events, id, f, u1).Err?
  {
  }

  // ---------------------------------------------------------------------------
  // Poster proxy
  // ---------------------------------------------------------------------------

  /** The parts of a parsed URI that the proxy looks at. */
  datatype Uri = Uri(scheme: Option<string>, host: Option<string>)

  /** The upstream answer: status, body (absent when null), content-type header. */
  datatype Upstream = Upstream(status: int, body: Option<seq<bv8>>, contentType: Option<string>)

  datatype ProxyResponse = ProxyResponse(status: int, body: seq<bv8>, contentType: Option<string>, maxAgeSeconds: nat)

  const AllowedScheme := "https"
  const AllowedHost := "image.tmdb.org"
  const DefaultContentType := "image/jpeg"
  const WeekSeconds: nat := 7 * 24 * 60 * 60

  /** The scheme and host guard, both compared ignoring case. */
  predicate Allowed(uri: Uri) {
    && uri.scheme.Some? && EqualsIgnoreCase(AllowedScheme, uri.scheme.value)
    && uri.host.Some? && EqualsIgnoreCase(AllowedHost, uri.host.value)
  }

  function Refused(status: int): ProxyResponse {
    ProxyResponse(status, [], None, 0)
  }

  /** `proxyTmdbImage`. `uri` is `None` when the URL does not parse and
      `upstream` is `None` when the request throws; both give 400, as does a
      refused scheme or host. A non-200 status or an empty or null body is
      404; otherwise the body is passed on with the upstream content type
      (image/jpeg when absent), cacheable for a week. */
  function ProxyImage(uri: Option<Uri>, upstream: Option<Upstream>): (r: ProxyResponse)
    ensures r.status == 400 <==> uri.None? || !Allowed(uri.value) || upstream.None?
    ensures r.status == 200 <==>
      && uri.Some? && Allowed(uri.value) && upstream.Some? && upstream.value.status == 200
      && upstream.value.body.Some? && |upstream.value.body.value| > 0
    ensures r.status in {200, 400, 404}
    ensures r.status == 200 ==>
      && upstream.Some? && upstream.value.status == 200
      && upstream.value.body == Some(r.body) && |r.body| > 0
      && r.contentType == Some(upstream.value.contentType.GetOr(DefaultContentType))
      && r.maxAgeSeconds == WeekSeconds
    ensures r.status == 404 <==>
      && uri.Some? && Allowed(uri.value) && upstream.Some?
      && (upstream.value.status != 200 || upstream.value.body.None? || upstream.value.body == Some([]))
    ensures r.status != 200 ==> r.body == []
  {
    if uri.None? then Refused(400)
    else if uri.value.scheme.None? || !EqualsIgnoreCase(AllowedScheme, uri.value.scheme.value) then Refused(400)
    else if uri.value.host.None? || !EqualsIgnoreCase(AllowedHost, uri.value.host.value) then Refused(400)
    else match upstream
      case None => Refused(400)
      case Some(up) =>
        if up.status != 200 || up.body.None? || |up.body.value| == 0 then Refused(404)
        else ProxyResponse(200, up.body.value, Some(up.contentType.GetOr(DefaultContentType)), WeekSeconds)
  }

  /** A refused URI never depends on what the upstream would answer: the
      proxy does not fetch it. */
  lemma RefusedUriIsNotFetched(uri: Option<Uri>, u1: Option<Upstream>, u2: Option<Upstream>)
    requires uri.None? || !Allowed(uri.value)
    ensures ProxyImage(uri, u1) == ProxyImage(uri, u2) == Refused(400)
  {
  }

  /** Upper-case spellings of the scheme and host are accepted; a look-alike
      host is not. */
  lemma ProxyGuardExamples()
    ensures Allowed(Uri(Some("HTTPS"), Some("Image.TMDB.org")))
    ensures !Allowed(Uri(Some("http"), Some("image.tmdb.org")))
    ensures !Allowed(Uri(Some("https"), Some("image.tmdb.org.evil.example")))
  {
    assert !EqualsIgnoreCase(AllowedScheme, "http");
    assert |"image.tmdb.org.evil.example"| != |AllowedHost|;
  }
}

=== FILE: rating_api.dfy ===
/** Star ratings of movies and events: at most one per user, item and item
    type, replaced in place when the user rates again. */
module RatingApi {
  import opened Common
  import opened Entities

  /** The request body; every field may be absent, and `stars` is a boxed
      Integer. */
  datatype RatingRequest = RatingRequest(
    itemId: Option<string>, itemType: Option<string>, stars: Option<int>, review: Option<string>)

  datatype RatingError =
    | Unauthenticated    // 401
    | StarsMissing       // unboxing a null rating throws
    | StarsOutOfRange    // 400, "Rating must be between 1 and 5"
    | MissingColumn      // the save hits the NOT NULL item id or item type column
    | RatingNotFound     // 404
    | NotYourRating      // 403

  const MinStars := 1
  const MaxStars := 5

  predicate Keyed(r: Rating, userId: int, itemId: string, itemType: string) {
    r.userId == userId && r.itemId == itemId && r.itemType == itemType
  }

  /** The store's unique constraint on (user, item id, item type). */
  predicate OnePerTriple(rs: seq<Rating>) {
    forall i, j :: 0 <= i < j < |rs| ==> !Keyed(rs[j], rs[i].userId, rs[i].itemId, rs[i].itemType)
  }

  predicate DistinctIds(rs: seq<Rating>) {
    forall i, j :: 0 <= i < j < |rs| ==> rs[i].id != rs[j].id
  }

  /** `findByUserIdAndItemIdAndItemType`: the position of the first rating
      with that key. */
  function FindRating(rs: seq<Rating>, userId: int, itemId: string, itemType: string): (k: Option<nat>)
    ensures k.None? <==> forall i :: 0 <= i < |rs| ==> !Keyed(rs[i], userId, itemId, itemType)
    ensures k.Some? ==> k.value < |rs| && Keyed(rs[k.value], userId, itemId, itemType)
    ensures k.Some? ==> forall i :: 0 <= i < k.value ==> !Keyed(rs[i], userId, itemId, itemType)
  {
    if |rs| == 0 then None
    else if Keyed(rs[0], userId, itemId, itemType) then Some(0)
    else match FindRating(rs[1..], userId, itemId, itemType)
      case None => None
      case Some(j) => Some(j + 1)
  }

  /** The request's stars lie in 1..5. */
  predicate StarsInRange(req: RatingRequest) {
    req.stars.Some? && MinStars <= req.stars.value <= MaxStars
  }

  /** `createOrUpdateRating`: 401 without a user, then the 1..5 check; an
      existing rating for the key gets the new stars and review in place
      (keeping its id and creation time), otherwise a new one is appended
      with the store's next id and the current time. A null item id or type
      matches no stored rating, so the save of the new row refuses it. */
  function RateItem(store: seq<Rating>, auth: Option<int>, req: RatingRequest, newId: int, now: int)
    : (r: Result<(Rating, seq<Rating>), RatingError>)
    ensures auth.None? <==> r == Err(Unauthenticated)
    ensures auth.Some? ==> (r == Err(StarsMissing) <==> req.stars.None?)
    ensures r == Err(StarsOutOfRange) <==>
              auth.Some? && req.stars.Some? && !(MinStars <= req.stars.value <= MaxStars)
    ensures r == Err(MissingColumn) <==>
              auth.Some? && StarsInRange(req) && (req.itemId.None? || req.itemType.None?)
    ensures r.Ok? <==> auth.Some? && StarsInRange(req) && req.itemId.Some? && req.itemType.Some?
    ensures r.Ok? ==>
      && auth.Some? && req.stars.Some? && req.itemId.Some? && req.itemType.Some?
      && Keyed(r.value.0, auth.value, req.itemId.value, req.itemType.value)
      && r.value.0.stars == req.stars.value && r.value.0.review == req.review
    ensures r.Ok? && req.itemId.Some? && req.itemType.Some?
            && FindRating(store, auth.value, req.itemId.value, req.itemType.value).Some? ==>
      var k := FindRating(store, auth.value, req.itemId.value, req.itemType.value).value;
      && r.value.0.id == store[k].id && r.value.0.createdAt == store[k].createdAt
      && r.value.1 == store[k := r.value.0]
    ensures r.Ok? && req.itemId.Some? && req.itemType.Some?
            && FindRating(store, auth.value, req.itemId.value, req.itemType.value).None? ==>
      r.value.0.id == newId && r.value.0.createdAt == now && r.value.1 == store + [r.value.0]
  {
    if auth.None? then Err(Unauthenticated)
    else if req.stars.None? then Err(StarsMissing)
    else if req.stars.value < MinStars || req.stars.value > MaxStars then Err(StarsOutOfRange)
    else if req.itemId.None? || req.itemType.None? then Err(MissingColumn)
    else match FindRating(store, auth.value, req.itemId.value, req.itemType.value)
      case Some(k) =>
        var saved := store[k].(stars := req.stars.value, review := req.review);
        Ok((saved, store[k := saved]))
      case None =>
        var saved := Rating(newId, auth.value, req.itemId.value, req.itemType.value, req.stars.value, req.review, now);
        Ok((saved, store + [saved]))
  }

  /** The unique key survives every successful rating, and so do unique ids
      when the new id is fresh. */
  lemma RateKeepsKeysUnique(store: seq<Rating>, auth: Option<int>, req: RatingRequest, newId: int, now: int)
    requires OnePerTriple(store)
    requires RateItem(store, auth, req, newId, now).Ok?
    ensures OnePerTriple(RateItem(store, auth, req, newId, now).value.1)
    ensures DistinctIds(store) && (forall i :: 0 <= i < |store| ==> store[i].id != newId)
            ==> DistinctIds(RateItem(store, auth, req, newId, now).value.1)
  {
    var rs := RateItem(store, auth, req, newId, now).value.1;
    var k := FindRating(store, auth.value, req.itemId.value, req.itemType.value);
    if k.Some? {
      forall i, j | 0 <= i < j < |rs| ensures !Keyed(rs[j], rs[i].userId, rs[i].itemId, rs[i].itemType) {
        assert Keyed(rs[i], store[i].userId, store[i].itemId, store[i].itemType);
        assert Keyed(rs[j], store[j].userId, store[j].itemId, store[j].itemType);
      }
    }
  }

  /** Sending the same rating twice leaves the store as after the first. */
  lemma RateTwice(store: seq<Rating>, auth: Option<int>, req: RatingRequest, id1: int, now1: int, id2: int, now2: int)
    requires RateItem(store, auth, req, id1, now1).Ok?
    ensures RateItem(RateItem(store, auth, req, id1, now1).value.1, auth, req, id2, now2)
            == RateItem(store, auth, req, id1, now1)
  {
    var first := RateItem(store, auth, req, id1, now1).value;
    var k := FindRating(store, auth.value, req.itemId.value, req.itemType.value);
    var k2 := FindRating(first.1, auth.value, req.itemId.value, req.itemType.value);
    if k.Some? {
      assert first.1[k.value] == first.0;
      assert first.1[k.value := first.0] == first.1;
    } else {
      assert first.1[|store|] == first.0;
      assert first.1[|store| := first.0] == first.1;
    }
  }

  /** `getUserRating`: the caller's own rating of the item, if any. */
  function UserRating(store: seq<Rating>, auth: Option<int>, itemId: string, itemType: string): (r: Option<Rating>)
    ensures r.Some? <==> auth.Some? && exists i :: 0 <= i < |store| && Keyed(store[i], auth.value, itemId, itemType)
    ensures r.Some? ==> r.value in store && Keyed(r.value, auth.value, itemId, itemType)
  {
    if auth.None? then None
    else match FindRating(store, auth.value, itemId, itemType)
      case None => None
      case Some(k) => Some(store[k])
  }

  /** After rating an item the caller's lookup returns the saved rating. */
  lemma RateThenLookup(store: seq<Rating>, auth: Option<int>, req: RatingRequest, newId: int, now: int)
    requires RateItem(store, auth, req, newId, now).Ok?
    ensures UserRating(RateItem(store, auth, req, newId, now).value.1, auth, req.itemId.value, req.itemType.value)
            == Some(RateItem(store, auth, req, newId, now).value.0)
  {
    RateTwice(store, auth, req, newId, now, newId, now);
  }

  /** `findById`: the position of the first rating with that id. */
  function FindById(rs: seq<Rating>, id: int): (k: Option<nat>)
    ensures k.None? <==> forall i :: 0 <= i < |rs| ==> rs[i].id != id
    ensures k.Some? ==> k.value < |rs| && rs[k.value].id == id
  {
    if |rs| == 0 then None
    else if rs[0].id == id then Some(0)
    else match FindById(rs[1..], id)
      case None => None
      case Some(j) => Some(j + 1)
  }

  /** `deleteRating`: 401 without a user, 404 for an unknown id, 403 for
      someone else's rating; otherwise exactly that rating is removed. */
  function DeleteRating(store: seq<Rating>, auth: Option<int>, id: int): (r: Result<seq<Rating>, RatingError>)
    ensures auth.None? <==> r == Err(Unauthenticated)
    ensures r == Err(RatingNotFound) <==> auth.Some? && forall i :: 0 <= i < |store| ==> store[i].id != id
    ensures r == Err(NotYourRating) <==>
              auth.Some? && FindById(store, id).Some? && store[FindById(store, id).value].userId != auth.value
    ensures r.Ok? <==>
              auth.Some? && FindById(store, id).Some? && store[FindById(store, id).value].userId == auth.value
    ensures r.Ok? ==>
      var k := FindById(store, id).value;
      && store[k].userId == auth.value
      && r.value == store[..k] + store[k + 1..]
  {
    if auth.None? then Err(Unauthenticated)
    else match FindById(store, id)
      case None => Err(RatingNotFound)
      case Some(k) =>
        if store[k].userId != auth.value then Err(NotYourRating)
        else Ok(store[..k] + store[k + 1..])
  }

  /** Deleting the rating just saved, as its author, leaves the author with
      no rating of that item. */
  lemma RateThenDelete(store: seq<Rating>, auth: Option<int>, req: RatingRequest, newId: int, now: int)
    requires OnePerTriple(store) && DistinctIds(store)
    requires forall i :: 0 <= i < |store| ==> store[i].id != newId
    requires RateItem(store, auth, req, newId, now).Ok?
    ensures DeleteRating(RateItem(store, auth, req, newId, now).value.1, auth,
                         RateItem(store, auth, req, newId, now).value.0.id).Ok?
    ensures UserRating(DeleteRating(RateItem(store, auth, req, newId, now).value.1, auth,
                                    RateItem(store, auth, req, newId, now).value.0.id).value,
                       auth, req.itemId.value, req.itemType.value).None?
  {
    var first := RateItem(store, auth, req, newId, now).value;
    var rs := first.1;
    RateKeepsKeysUnique(store, auth, req, newId, now);
    RateThenLookup(store, auth, req, newId, now);
    var p := FindRating(rs, auth.value, req.itemId.value, req.itemType.value).value;
    assert rs[p] == first.0;
    var k := FindById(rs, first.0.id).value;
    var rest := rs[..k] + rs[k + 1..];
    forall i | 0 <= i < |rest| ensures !Keyed(rest[i], auth.value, req.itemId.value, req.itemType.value) {
      if i < k {
        assert rest[i] == rs[i];
      } else {
        assert rest[i] == rs[i + 1];
      }
    }
  }

  // ---------------------------------------------------------------------------
  // Summary count
  // ---------------------------------------------------------------------------

  predicate OnItem(r: Rating, itemId: string, itemType: string) {
    r.itemId == itemId && r.itemType == itemType
  }

  /** `countByItemIdAndItemType`, reported as `totalRatings`. */
  function RatingCount(rs: seq<Rating>, itemId: string, itemType: string): (n: nat)
    ensures n <= |rs|
    ensures n == 0 <==> forall i :: 0 <= i < |rs| ==> !OnItem(rs[i], itemId, itemType)
  {
    if |rs| == 0 then 0
    else (if OnItem(rs[0], itemId, itemType) then 1 else 0) + RatingCount(rs[1..], itemId, itemType)
  }

  lemma {:induction false} CountAppend(rs: seq<Rating>, x: Rating, itemId: string, itemType: string)
    ensures RatingCount(rs + [x], itemId, itemType)
            == RatingCount(rs, itemId, itemType) + (if OnItem(x, itemId, itemType) then 1 else 0)
  {
    if |rs| > 0 {
      assert (rs + [x])[1..] == rs[1..] + [x];
      CountAppend(rs[1..], x, itemId, itemType);
    }
  }

  lemma {:induction false} CountReplace(rs: seq<Rating>, k: nat, x: Rating, itemId: string, itemType: string)
    requires k < |rs| && OnItem(x, itemId, itemType) == OnItem(rs[k], itemId, itemType)
    ensures RatingCount(rs[k := x], itemId, itemType) == RatingCount(rs, itemId, itemType)
  {
    if k > 0 {
      assert rs[k := x][1..] == rs[1..][k - 1 := x];
      CountReplace(rs[1..], k - 1, x, itemId, itemType);
    } else {
      assert rs[k := x][1..] == rs[1..];
    }
  }

  /** A first rating of an item raises its count by one; a re-rating leaves
      the count as it was. */
  lemma RateCount(store: seq<Rating>, auth: Option<int>, req: RatingRequest, newId: int, now: int)
    requires RateItem(store, auth, req, newId, now).Ok?
    ensures RatingCount(RateItem(store, auth, req, newId, now).value.1, req.itemId.value, req.itemType.value)
            == RatingCount(store, req.itemId.value, req.itemType.value)
               + (if FindRating(store, auth.value, req.itemId.value, req.itemType.value).None? then 1 else 0)
  {
    var first := RateItem(store, auth, req, newId, now).value;
    match FindRating(store, auth.value, req.itemId.value, req.itemType.value)
    case Some(k) => CountReplace(store, k, first.0, req.itemId.value, req.itemType.value);
    case None => CountAppend(store, first.0, req.itemId.value, req.itemType.value);
  }

  // ---------------------------------------------------------------------------
  // Reviews
  // ---------------------------------------------------------------------------

  /** A review as listed: the author's name instead of the user. */
  datatype Review = Review(id: int, userName: string, stars: int, text: string, createdAt: int)

  /** The review text is present and not empty after `trim()`. */
  predicate HasText(review: Option<string>) {
    review.Some? && Trim(review.value) != []
  }

  predicate Listed(r: Rating, itemId: string, itemType: string) {
    OnItem(r, itemId, itemType) && HasText(r.review)
  }

  function ToReview(users: map<int, User>, r: Rating): Review
    requires r.userId in users && r.review.Some?
  {
    Review(r.id, users[r.userId].name, r.stars, r.review.value, r.createdAt)
  }

  predicate NewestFirst(s: seq<Review>) {
    forall i, j :: 0 <= i < j < |s| ==> s[i].createdAt >= s[j].createdAt
  }

  /** Places `x` before the first review not newer than it. */
  function InsertNewestFirst(x: Review, s: seq<Review>): (r: seq<Review>)
    requires NewestFirst(s)
    ensures NewestFirst(r)
    ensures multiset(r) == multiset(s) + multiset{x}
    ensures r[0] == x || (|s| > 0 && r[0] == s[0])
  {
    if |s| == 0 || x.createdAt >= s[0].createdAt then
      [x] + s
    else
      var rest := InsertNewestFirst(x, s[1..]);
      assert s == [s[0]] + s[1..];
      assert rest[0].createdAt <= s[0].createdAt;
      [s[0]] + rest
  }

  /** Sorting by creation time, newest first. */
  function SortNewestFirst(s: seq<Review>): (r: seq<Review>)
    ensures NewestFirst(r)
    ensures multiset(r) == multiset(s)
  {
    if |s| == 0 then []
    else
      assert s == [s[0]] + s[1..];
      InsertNewestFirst(s[0], SortNewestFirst(s[1..]))
  }

  /** The listed ratings of an item in store order, as reviews. */
  function ReviewsInStoreOrder(users: map<int, User>, rs: seq<Rating>, itemId: string, itemType: string)
    : (r: seq<Review>)
    requires forall i :: 0 <= i < |rs| ==> rs[i].userId in users
    ensures forall i :: 0 <= i < |rs| && Listed(rs[i], itemId, itemType) ==> ToReview(users, rs[i]) in r
    ensures forall x :: x in r ==> exists i :: 0 <= i < |rs| && Listed(rs[i], itemId, itemType) && x == ToReview(users, rs[i])
  {
    if |rs| == 0 then []
    else
      var rest := ReviewsInStoreOrder(users, rs[1..], itemId, itemType);
      assert forall i :: 1 <= i < |rs| ==> rs[i] == rs[1..][i - 1];
      if Listed(rs[0], itemId, itemType) then [ToReview(users, rs[0])] + rest else rest
  }

  /** `getReviews`: every rating of the item with a non-blank review, newest
      first; ratings without review text are left out. */
  function GetReviews(users: map<int, User>, store: seq<Rating>, itemId: string, itemType: string)
    : (r: seq<Review>)
    requires forall i :: 0 <= i < |store| ==> store[i].userId in users
    ensures NewestFirst(r)
    ensures multiset(r) == multiset(ReviewsInStoreOrder(users, store, itemId, itemType))
    ensures forall i :: 0 <= i < |store| && Listed(store[i], itemId, itemType) ==> ToReview(users, store[i]) in r
    ensures forall x :: x in r ==> x.text != [] && Trim(x.text) != []
  {
    var listed := ReviewsInStoreOrder(users, store, itemId, itemType);
    var r := SortNewestFirst(listed);
    assert forall x :: x in r <==> x in listed by {
      forall x ensures x in r <==> x in listed {
        assert x in r <==> x in multiset(r);
      }
    }
    r
  }
}

=== FILE: schedule_api.dfy ===
/** The scheduling endpoints: creating a schedule (which stores the
    showtimes as a JSON-like array text and immediately generates its shows)
    and listing a venue's schedules that have not ended. */
module ScheduleApi {
  import opened Common
  import opened Entities
  import opened ScheduleService

  /** A request's dates after `LocalDate.parse`, `None` where parsing fails;
      the ids are boxed Longs and may be null. */
  datatype CreateScheduleRequest = CreateScheduleRequest(
    venueId: Option<int>,
    movieId: Option<int>,
    startDate: Option<int>,
    endDate: Option<int>,
    showtimes: Option<seq<string>>,
    silverPrice: Option<int>,
    goldPrice: Option<int>,
    vipPrice: Option<int>)

  datatype ScheduleError =
    | VenueIdMissing   // `findById(null)` throws before any lookup
    | VenueNotFound
    | InvalidDate
    | MissingColumn    // the save hits the NOT NULL movie id column

  datatype ScheduleResponse = ScheduleResponse(scheduleId: int, generatedShowCount: int)

  function Quote(t: string): string {
    "\"" + t + "\""
  }

  function QuoteAll(times: seq<string>): (q: seq<string>)
    ensures |q| == |times| && forall i :: 0 <= i < |times| ==> q[i] == Quote(times[i])
  {
    if |times| == 0 then [] else [Quote(times[0])] + QuoteAll(times[1..])
  }

  /** `toJsonArray`: `[]` for a null or empty list, otherwise every time in
      double quotes, comma-separated, in brackets. Nothing is escaped. */
  function ToJsonArray(times: Option<seq<string>>): (text: string)
    ensures |text| >= 2 && text[0] == '[' && text[|text| - 1] == ']'
  {
    if times.None? || |times.value| == 0 then "[]"
    else "[" + Join(QuoteAll(times.value), [',']) + "]"
  }

  /** A showtime the stored text can carry: non-empty and without a comma. */
  predicate StorableTime(t: string) {
    t != [] && ',' !in t
  }

  lemma {:induction false} CleanQuoted(times: seq<string>)
    requires forall i :: 0 <= i < |times| ==> StorableTime(times[i])
    ensures CleanPieces(QuoteAll(times)) == times
  {
    if |times| > 0 {
      var q := QuoteAll(times);
      TrimOfUntrimmable(q[0]);
      assert Unquote(q[0]) == times[0];
      assert q[1..] == QuoteAll(times[1..]);
      CleanQuoted(times[1..]);
    }
  }

  /** The text between the brackets of a stored showtimes array. */
  function ArrayBody(times: Option<seq<string>>): string {
    if times.None? || |times.value| == 0 then [] else Join(QuoteAll(times.value), [','])
  }

  /** Reading a stored array first recovers the text between its brackets. */
  lemma UnwrapJsonArray(times: Option<seq<string>>)
    ensures !IsBlank(ToJsonArray(times))
    ensures StripBrackets(Trim(ToJsonArray(times))) == ArrayBody(times)
  {
    var raw := ToJsonArray(times);
    assert !IsJavaWhitespace(raw[0]);
    TrimOfUntrimmable(raw);
    assert raw == "[" + ArrayBody(times) + "]";
    assert raw[..1] == "[";
    assert raw[|raw| - 1..] == "]";
  }

  lemma QuotedCommaFree(ts: seq<string>)
    requires forall i :: 0 <= i < |ts| ==> StorableTime(ts[i])
    ensures forall i :: 0 <= i < |QuoteAll(ts)| ==> ',' !in QuoteAll(ts)[i]
  {
    forall i | 0 <= i < |ts| ensures ',' !in QuoteAll(ts)[i] {
      assert QuoteAll(ts)[i] == "\"" + ts[i] + "\"";
    }
  }

  /** Splitting the body at commas gives the quoted times back. */
  lemma SplitJsonArrayBody(ts: seq<string>)
    requires |ts| > 0 && forall i :: 0 <= i < |ts| ==> StorableTime(ts[i])
    ensures JavaSplit(Join(QuoteAll(ts), [',']), ',') == QuoteAll(ts)
  {
    var q := QuoteAll(ts);
    var inner := Join(q, [',']);
    QuotedCommaFree(ts);
    SplitAllJoin(q, ',');
    if ',' !in inner {
      SplitAllNoSeparator(inner, ',');
    } else {
      assert q[|q| - 1] == Quote(ts[|ts| - 1]);
      DropTrailingEmptyKeeps(q);
    }
  }

  /** Storing showtimes and reading them back gives the same list, for every
      list of non-empty, comma-free times (null reads back as empty). */
  lemma ShowtimesRoundTrip(times: Option<seq<string>>)
    requires times.Some? ==> forall i :: 0 <= i < |times.value| ==> StorableTime(times.value[i])
    ensures ParseShowtimes(Some(ToJsonArray(times))) == (if times.None? then [] else times.value)
  {
    UnwrapJsonArray(times);
    if times.None? || |times.value| == 0 {
      assert JavaSplit([], ',') == [[]];
      assert CleanPieces([[]]) == [];
    } else {
      SplitJsonArrayBody(times.value);
      CleanQuoted(times.value);
    }
  }

  /** `createSchedule`: the venue id must be given and the venue must exist,
      both dates must parse, and the save needs the movie id; the schedule
      stores the showtimes text and missing prices as 0, starts ACTIVE, and
      is expanded into shows whose number is reported. */
  function CreateSchedule(venues: map<int, Venue>, req: CreateScheduleRequest, scheduleId: int, firstShowId: int)
    : (r: Result<(ScheduleResponse, Schedule, seq<Show>), ScheduleError>)
    ensures req.venueId.None? <==> r == Err(VenueIdMissing)
    ensures req.venueId.Some? && req.venueId.value !in venues <==> r == Err(VenueNotFound)
    ensures r == Err(InvalidDate) <==>
              req.venueId.Some? && req.venueId.value in venues && (req.startDate.None? || req.endDate.None?)
    ensures r == Err(MissingColumn) <==>
              && req.venueId.Some? && req.venueId.value in venues && req.startDate.Some? && req.endDate.Some?
              && req.movieId.None?
    ensures r.Ok? <==>
              && req.venueId.Some? && req.venueId.value in venues && req.startDate.Some? && req.endDate.Some?
              && req.movieId.Some?
    ensures r.Ok? ==>
      var (resp, sch, shows) := r.value;
      && sch == Schedule(scheduleId, Some(venues[req.venueId.value]), req.movieId.value, req.startDate.value,
                         req.endDate.value, Some(ToJsonArray(req.showtimes)), Some(req.silverPrice.GetOr(0)),
                         Some(req.goldPrice.GetOr(0)), Some(req.vipPrice.GetOr(0)), Active)
      && resp == ScheduleResponse(scheduleId, |shows|)
      && shows == GenerateShows(sch, firstShowId)
      && |shows| == DaysIn(req.startDate.value, req.endDate.value) * |ParseShowtimes(sch.showtimes)|
      && (forall k :: 0 <= k < |shows| ==> FromSchedule(sch, shows[k]) && req.startDate.value <= shows[k].date <= req.endDate.value)
      && (req.showtimes.Some? && (forall i :: 0 <= i < |req.showtimes.value| ==> StorableTime(req.showtimes.value[i]))
          ==> |shows| == DaysIn(req.startDate.value, req.endDate.value) * |req.showtimes.value|
              && forall k :: 0 <= k < |shows| ==> shows[k].time in req.showtimes.value)
  {
    if req.venueId.None? then Err(VenueIdMissing)
    else if req.venueId.value !in venues then Err(VenueNotFound)
    else if req.startDate.None? || req.endDate.None? then Err(InvalidDate)
    else if req.movieId.None? then Err(MissingColumn)
    else
      var sch := Schedule(scheduleId, Some(venues[req.venueId.value]), req.movieId.value, req.startDate.value,
                          req.endDate.value, Some(ToJsonArray(req.showtimes)), Some(req.silverPrice.GetOr(0)),
                          Some(req.goldPrice.GetOr(0)), Some(req.vipPrice.GetOr(0)), Active);
      var shows := GenerateShows(sch, firstShowId);
      if req.showtimes.Some? && forall i :: 0 <= i < |req.showtimes.value| ==> StorableTime(req.showtimes.value[i]) then
        ShowtimesRoundTrip(req.showtimes);
        Ok((ScheduleResponse(scheduleId, |shows|), sch, shows))
      else
        Ok((ScheduleResponse(scheduleId, |shows|), sch, shows))
  }

  /** The worked example: 2025-01-15 to 2025-01-17 with two showtimes gives
      six shows, and an end date before the start date gives none. */
  lemma CreateScheduleCounts(venues: map<int, Venue>, req: CreateScheduleRequest, scheduleId: int, firstShowId: int)
    requires req.venueId.Some? && req.venueId.value in venues && req.startDate.Some? && req.endDate.Some?
    requires req.movieId.Some?
    requires req.showtimes == Some(["09:00 AM", "12:00 PM"])
    ensures req.endDate.value == req.startDate.value + 2
            ==> CreateSchedule(venues, req, scheduleId, firstShowId).value.0.generatedShowCount == 6
    ensures req.endDate.value < req.startDate.value
            ==> CreateSchedule(venues, req, scheduleId, firstShowId).value.0.generatedShowCount == 0
  {
    var times := req.showtimes.value;
    assert ',' !in times[0] by { assert times[0] == "09:00 AM"; }
    assert ',' !in times[1] by { assert times[1] == "12:00 PM"; }
    assert forall i :: 0 <= i < |times| ==> StorableTime(times[i]);
    var r := CreateSchedule(venues, req, scheduleId, firstShowId);
    assert r.Ok?;
    var count := r.value.0.generatedShowCount;
    var days := DaysIn(req.startDate.value, req.endDate.value);
    assert count == days * |times|;
    assert |times| == 2;
    if req.endDate.value == req.startDate.value + 2 {
      assert days == 3;
    } else if req.endDate.value < req.startDate.value {
      assert days == 0;
    }
  }

  /** A schedule of the venue that has not ended before `day`. */
  predicate Running(sch: Schedule, venueId: int, day: int) {
    sch.venue.Some? && sch.venue.value.id == venueId && sch.endDate >= day
  }

  /** `getSchedulesForVenue`: the venue must exist; then `fromDate`, when
      given, must parse (`Some(None)` is text that `LocalDate.parse`
      rejects); the venue's schedules whose end date is on or after that
      day, or today when no date is given. */
  function SchedulesForVenue(venues: map<int, Venue>, schedules: seq<Schedule>, venueId: int,
                             from: Option<Option<int>>, today: int)
    : (r: Result<seq<Schedule>, ScheduleError>)
    ensures venueId !in venues <==> r == Err(VenueNotFound)
    ensures r == Err(InvalidDate) <==> venueId in venues && from == Some(None)
    ensures r.Ok? ==>
      var day := if from.Some? then from.value.value else today;
      && (forall i :: 0 <= i < |r.value| ==> r.value[i] in schedules && Running(r.value[i], venueId, day))
      && (forall i :: 0 <= i < |schedules| && Running(schedules[i], venueId, day) ==> schedules[i] in r.value)
  {
    if venueId !in venues then Err(VenueNotFound)
    else if from == Some(None) then Err(InvalidDate)
    else
      var day := if from.Some? then from.value.value else today;
      Ok(Filter(schedules, (sch: Schedule) => Running(sch, venueId, day)))
  }

  /** A schedule just created for a venue is listed for that venue from any
      day up to its end date, next to the venue's earlier schedules. */
  lemma CreatedScheduleIsListed(venues: map<int, Venue>, schedules: seq<Schedule>, req: CreateScheduleRequest,
                                scheduleId: int, firstShowId: int, day: int)
    requires CreateSchedule(venues, req, scheduleId, firstShowId).Ok?
    requires venues[req.venueId.value].id == req.venueId.value
    requires day <= req.endDate.value
    ensures
      var sch := CreateSchedule(venues, req, scheduleId, firstShowId).value.1;
      var listed := SchedulesForVenue(venues, schedules + [sch], req.venueId.value, Some(Some(day)), day);
      && listed.Ok? && sch in listed.value
      && forall i :: 0 <= i < |schedules| && Running(schedules[i], req.venueId.value, day) ==> schedules[i] in listed.value
  {
    var sch := CreateSchedule(venues, req, scheduleId, firstShowId).value.1;
    var all := schedules + [sch];
    assert all[|schedules|] == sch && Running(sch, req.venueId.value, day);
    assert forall i :: 0 <= i < |schedules| ==> all[i] == schedules[i];
  }
}

=== FILE: schedule_service.dfy ===
/** The movie scheduler: reading a schedule's showtimes text and expanding
    the schedule into one show per day and showtime. */
module ScheduleService {
  import opened Common
  import opened Entities

  // ---------------------------------------------------------------------------
  // Showtimes text
  // ---------------------------------------------------------------------------

  /** Removes one enclosing `[` … `]` pair when both are present. */
  function StripBrackets(s: string): (r: string)
    ensures StartsWith(s, "[") && EndsWith(s, "]") ==> |s| >= 2 && r == s[1..|s| - 1]
    ensures !(StartsWith(s, "[") && EndsWith(s, "]")) ==> r == s
  {
    if StartsWith(s, "[") && EndsWith(s, "]") then
      assert s[0] == s[..1][0] && s[|s| - 1] == s[|s| - 1..][0];
      s[1..|s| - 1]
    else s
  }

  /** Removes one enclosing pair of double quotes, if the piece has one. */
  function Unquote(t: string): (r: string)
    ensures |t| >= 2 && t[0] == '"' && t[|t| - 1] == '"' ==> r == t[1..|t| - 1]
    ensures !(|t| >= 2 && t[0] == '"' && t[|t| - 1] == '"') ==> r == t
  {
    if StartsWith(t, "\"") && EndsWith(t, "\"") && |t| >= 2 then t[1..|t| - 1] else t
  }

  /** Each comma-separated piece trimmed and unquoted; empty results dropped. */
  function CleanPieces(pieces: seq<string>): (ts: seq<string>)
    ensures |ts| <= |pieces|
    ensures forall i :: 0 <= i < |ts| ==> ts[i] != []
    ensures (forall i :: 0 <= i < |pieces| ==> ',' !in pieces[i]) ==> forall i :: 0 <= i < |ts| ==> ',' !in ts[i]
  {
    if |pieces| == 0 then []
    else
      var t := Unquote(Trim(pieces[0]));
      var rest := CleanPieces(pieces[1..]);
      assert (forall i :: 0 <= i < |pieces| ==> ',' !in pieces[i]) ==> forall i :: 0 <= i < |pieces[1..]| ==> ',' !in pieces[1..][i] by {
        if forall i :: 0 <= i < |pieces| ==> ',' !in pieces[i] {
          forall i | 0 <= i < |pieces[1..]| ensures ',' !in pieces[1..][i] {
            assert pieces[1..][i] == pieces[i + 1];
          }
        }
      }
      assert ',' !in pieces[0] ==> ',' !in t by {
        if ',' !in pieces[0] {
          var u := Trim(pieces[0]);
          assert ',' !in u;
          assert forall c :: c in t ==> c in u;
        }
      }
      if t == [] then rest else [t] + rest
  }

  /** `parseShowtimes`: a null or blank text gives no showtimes; otherwise
      the trimmed text loses an enclosing bracket pair, is split at commas,
      and every piece is trimmed, unquoted and kept when non-empty. */
  function ParseShowtimes(raw: Option<string>): (ts: seq<string>)
    ensures raw.None? || IsBlank(raw.value) ==> ts == []
    ensures forall i :: 0 <= i < |ts| ==> ts[i] != [] && ',' !in ts[i]
  {
    if raw.None? || IsBlank(raw.value) then []
    else CleanPieces(JavaSplit(StripBrackets(Trim(raw.value)), ','))
  }

  // ---------------------------------------------------------------------------
  // Show generation
  // ---------------------------------------------------------------------------

  /** The number of days from `start` to `end`, both included. */
  function DaysIn(start: int, end: int): nat {
    if start <= end then end - start + 1 else 0
  }

  /** A show carries its schedule's venue, movie and prices (0 for a missing
      price) and starts out ACTIVE. */
  predicate FromSchedule(s: Schedule, show: Show) {
    && show.venue == s.venue
    && show.scheduleId == s.id
    && show.movieId == s.movieId
    && show.silverPrice == s.silverPrice.GetOr(0)
    && show.goldPrice == s.goldPrice.GetOr(0)
    && show.vipPrice == s.vipPrice.GetOr(0)
    && show.status == Active
  }

  /** The shows of one day, one per showtime in showtime order. */
  function DayShows(s: Schedule, times: seq<string>, date: int, firstId: int): (r: seq<Show>)
    ensures |r| == |times|
    ensures forall j :: 0 <= j < |r| ==> r[j].id == firstId + j && r[j].date == date && r[j].time == times[j]
                                         && FromSchedule(s, r[j])
  {
    seq(|times|, j requires 0 <= j < |times| =>
      Show(firstId + j, s.venue, s.id, s.movieId, date, times[j],
           s.silverPrice.GetOr(0), s.goldPrice.GetOr(0), s.vipPrice.GetOr(0), Active))
  }

  /** The shows from `date` to the schedule's end date, day after day. */
  function ShowsFrom(s: Schedule, times: seq<string>, date: int, firstId: int): (r: seq<Show>)
    decreases DaysIn(date, s.endDate)
    ensures |r| == DaysIn(date, s.endDate) * |times|
    ensures forall k :: 0 <= k < |r| ==> && r[k].id == firstId + k
                                         && date <= r[k].date <= s.endDate
                                         && r[k].time in times
                                         && FromSchedule(s, r[k])
    ensures forall k :: 0 < k < |r| ==> r[k - 1].date <= r[k].date
    ensures |times| > 0 ==>
      forall k :: 0 <= k < |r| ==> r[k].date == date + k / |times| && r[k].time == times[k % |times|]
  {
    if date > s.endDate then []
    else
      var today := DayShows(s, times, date, firstId);
      var later := ShowsFrom(s, times, date + 1, firstId + |times|);
      assert DaysIn(date, s.endDate) * |times| == |times| + DaysIn(date + 1, s.endDate) * |times|;
      DayMajorConcat(today, later, times, date);
      today + later
  }

  /** A day's shows followed by the shows from the next day on are laid out
      day by day, showtime by showtime. */
  lemma DayMajorConcat(today: seq<Show>, later: seq<Show>, times: seq<string>, date: int)
    requires |today| == |times|
    requires forall j :: 0 <= j < |today| ==> today[j].date == date && today[j].time == times[j]
    requires |times| > 0 ==>
      forall k :: 0 <= k < |later| ==> later[k].date == date + 1 + k / |times| && later[k].time == times[k % |times|]
    ensures |times| > 0 ==>
      forall k :: 0 <= k < |today + later| ==>
        (today + later)[k].date == date + k / |times| && (today + later)[k].time == times[k % |times|]
  {
    if |times| > 0 {
      forall k | 0 <= k < |today + later|
        ensures (today + later)[k].date == date + k / |times| && (today + later)[k].time == times[k % |times|]
      {
        if k < |times| {
          assert (today + later)[k] == today[k];
        } else {
          DivModStep(k, |times|);
          assert (today + later)[k] == later[k - |times|];
        }
      }
    }
  }

  /** One period further on: the quotient grows by one, the remainder stays. */
  lemma DivModStep(k: int, n: int)
    requires 0 < n <= k
    ensures k / n == (k - n) / n + 1 && k % n == (k - n) % n
  {
    var q, m := (k - n) / n, (k - n) % n;
    assert k - n == q * n + m && 0 <= m < n;
    assert k == (q + 1) * n + m;
    DivUnique(k, n, q + 1, m);
  }

  /** Euclidean division has one quotient and one remainder. */
  lemma DivUnique(k: int, n: int, a: int, b: int)
    requires n > 0 && 0 <= b < n && k == a * n + b
    ensures k / n == a && k % n == b
  {
    var q, r := k / n, k % n;
    assert k == q * n + r && 0 <= r < n;
    assert (a - q) * n == r - b;
    if a > q {
      MulAtLeast(a - q, n);
      assert false;
    } else if q > a {
      MulAtLeast(q - a, n);
      assert false;
    }
  }

  lemma MulAtLeast(x: int, n: int)
    requires x >= 1 && n > 0
    ensures x * n >= n
  {
    assert x * n == (x - 1) * n + n;
    assert (x - 1) * n >= 0;
  }

  /** `generateShowsForSchedule`: one ACTIVE show for every day from the
      start date to the end date and every parsed showtime, day by day; the
      store numbers them consecutively from `firstId`. */
  function GenerateShows(s: Schedule, firstId: int): (r: seq<Show>)
    ensures |r| == DaysIn(s.startDate, s.endDate) * |ParseShowtimes(s.showtimes)|
    ensures forall k :: 0 <= k < |r| ==> && r[k].id == firstId + k
                                         && s.startDate <= r[k].date <= s.endDate
                                         && r[k].time in ParseShowtimes(s.showtimes)
                                         && FromSchedule(s, r[k])
    ensures forall k :: 0 < k < |r| ==> r[k - 1].date <= r[k].date
    ensures |ParseShowtimes(s.showtimes)| > 0 ==>
      forall k :: 0 <= k < |r| ==> && r[k].date == s.startDate + k / |ParseShowtimes(s.showtimes)|
                                   && r[k].time == ParseShowtimes(s.showtimes)[k % |ParseShowtimes(s.showtimes)|]
  {
    ShowsFrom(s, ParseShowtimes(s.showtimes), s.startDate, firstId)
  }

  /** Every day of the range gets every showtime: `k` is where that show sits. */
  lemma ShowsFromCover(s: Schedule, times: seq<string>, date: int, firstId: int, day: int, j: int)
    returns (k: nat)
    requires date <= day <= s.endDate && 0 <= j < |times|
    ensures k < |ShowsFrom(s, times, date, firstId)|
    ensures ShowsFrom(s, times, date, firstId)[k].date == day
    ensures ShowsFrom(s, times, date, firstId)[k].time == times[j]
  {
    var n := |times|;
    var r := ShowsFrom(s, times, date, firstId);
    var d := day - date;
    k := d * n + j;
    assert k < |r| by {
      MulAtMost(d + 1, s.endDate - date + 1, n);
      assert (d + 1) * n == d * n + n;
      assert |r| == (s.endDate - date + 1) * n;
    }
    DivUnique(k, n, d, j);
    assert r[k].date == date + k / n;
  }

  lemma MulAtMost(a: int, b: int, n: int)
    requires 0 <= a <= b && n >= 0
    ensures a * n <= b * n
  {
    assert b * n == a * n + (b - a) * n;
    assert (b - a) * n >= 0;
  }

  lemma GenerateShowsCover(s: Schedule, firstId: int, day: int, j: int)
    requires s.startDate <= day <= s.endDate && 0 <= j < |ParseShowtimes(s.showtimes)|
    ensures exists k :: 0 <= k < |GenerateShows(s, firstId)|
                        && GenerateShows(s, firstId)[k].date == day
                        && GenerateShows(s, firstId)[k].time == ParseShowtimes(s.showtimes)[j]
  {
    var k := ShowsFromCover(s, ParseShowtimes(s.showtimes), s.startDate, firstId, day, j);
    assert GenerateShows(s, firstId) == ShowsFrom(s, ParseShowtimes(s.showtimes), s.startDate, firstId);
  }
}

=== FILE: show_api.dfy ===
/** The owner dashboard's show endpoints: the per-movie summary of shows
    (masked for the public) and the guarded removal of a movie's shows. */
module ShowApi {
  import opened Common
  import opened Entities

  // ---------------------------------------------------------------------------
  // Movie summary
  // ---------------------------------------------------------------------------

  /** The dates are `Option`s because the source takes them with
      `min(...).orElse(null)`; every reported group is non-empty. */
  datatype MovieShowSummary = MovieShowSummary(
    movieId: int,
    showCount: nat,
    firstShowDate: Option<int>,
    lastShowDate: Option<int>,
    totalBookings: nat,
    totalRevenue: int,
    theatres: string)

  datatype ShowError = MissingVenue

  /** A show at one of the owner's venues (`findByVenue_OwnerId`). */
  predicate OwnedBy(s: Show, ownerId: int) {
    s.venue.Some? && s.venue.value.ownerId == Some(ownerId)
  }

  /** The shows the summary starts from: the owner's, or all of them. */
  function Selected(shows: seq<Show>, ownerId: Option<int>): (r: seq<Show>)
    ensures ownerId.None? ==> r == shows
    ensures ownerId.Some? ==> forall i :: 0 <= i < |r| ==> r[i] in shows && OwnedBy(r[i], ownerId.value)
    ensures ownerId.Some? ==> forall i :: 0 <= i < |shows| && OwnedBy(shows[i], ownerId.value) ==> shows[i] in r
  {
    if ownerId.None? then shows else Filter(shows, (s: Show) => OwnedBy(s, ownerId.value))
  }

  function MovieIds(shows: seq<Show>): (ids: seq<int>)
    ensures |ids| == |shows| && forall i :: 0 <= i < |shows| ==> ids[i] == shows[i].movieId
  {
    seq(|shows|, i requires 0 <= i < |shows| => shows[i].movieId)
  }

  /** The shows of one movie, in list order (`groupingBy(getTmdbMovieId)`). */
  function Group(shows: seq<Show>, movieId: int): (g: seq<Show>)
    ensures |g| <= |shows|
    ensures forall i :: 0 <= i < |g| ==> g[i] in shows && g[i].movieId == movieId
    ensures forall i :: 0 <= i < |shows| && shows[i].movieId == movieId ==> shows[i] in g
  {
    if |shows| == 0 then []
    else
      var rest := Group(shows[1..], movieId);
      assert forall i :: 1 <= i < |shows| ==> shows[i] == shows[1..][i - 1];
      if shows[0].movieId == movieId then [shows[0]] + rest else rest
  }

  /** The earliest date of the group, `None` for an empty group. */
  function MinDate(group: seq<Show>): (d: Option<int>)
    ensures d.None? <==> |group| == 0
    ensures d.Some? ==> exists i :: 0 <= i < |group| && group[i].date == d.value
    ensures d.Some? ==> forall i :: 0 <= i < |group| ==> d.value <= group[i].date
  {
    if |group| == 0 then None
    else
      var rest := MinDate(group[1..]);
      assert forall i :: 1 <= i < |group| ==> group[i] == group[1..][i - 1];
      if rest.None? || group[0].date <= rest.value then Some(group[0].date) else rest
  }

  /** The latest date of the group, `None` for an empty group. */
  function MaxDate(group: seq<Show>): (d: Option<int>)
    ensures d.None? <==> |group| == 0
    ensures d.Some? ==> exists i :: 0 <= i < |group| && group[i].date == d.value
    ensures d.Some? ==> forall i :: 0 <= i < |group| ==> group[i].date <= d.value
  {
    if |group| == 0 then None
    else
      var rest := MaxDate(group[1..]);
      assert forall i :: 1 <= i < |group| ==> group[i] == group[1..][i - 1];
      if rest.None? || group[0].date >= rest.value then Some(group[0].date) else rest
  }

  function ShowIds(group: seq<Show>): set<int> {
    set i | 0 <= i < |group| :: group[i].id
  }

  predicate OnShows(b: Booking, ids: set<int>) {
    b.show.Some? && b.show.value.id in ids
  }

  /** `countByShowIn(group)`. */
  function BookingCount(bookings: seq<Booking>, ids: set<int>): (n: nat)
    ensures n <= |bookings|
    ensures n == 0 <==> forall i :: 0 <= i < |bookings| ==> !OnShows(bookings[i], ids)
    ensures |bookings| == 1 ==> n == if OnShows(bookings[0], ids) then 1 else 0
  {
    if |bookings| == 0 then 0
    else
      var rest := BookingCount(bookings[1..], ids);
      assert forall i :: 1 <= i < |bookings| ==> bookings[i] == bookings[1..][i - 1];
      (if OnShows(bookings[0], ids) then 1 else 0) + rest
  }

  /** The count adds up over a split of the bookings. */
  lemma {:induction false} BookingCountAppend(a: seq<Booking>, b: seq<Booking>, ids: set<int>)
    ensures BookingCount(a + b, ids) == BookingCount(a, ids) + BookingCount(b, ids)
  {
    if |a| > 0 {
      assert (a + b)[1..] == a[1..] + b;
      BookingCountAppend(a[1..], b, ids);
    } else {
      assert a + b == b;
    }
  }

  /** The amounts of the CONFIRMED bookings on the shows, a missing amount
      counting 0 (`findByShowInAndStatus` and the revenue sum). */
  function Revenue(bookings: seq<Booking>, ids: set<int>): (r: int)
    ensures (forall i :: 0 <= i < |bookings| ==> !(OnShows(bookings[i], ids) && bookings[i].status == Confirmed))
            ==> r == 0
    ensures (forall i :: 0 <= i < |bookings| ==> bookings[i].totalAmount.GetOr(0) >= 0) ==> r >= 0
    ensures |bookings| == 1 ==>
      r == if OnShows(bookings[0], ids) && bookings[0].status == Confirmed then bookings[0].totalAmount.GetOr(0) else 0
  {
    if |bookings| == 0 then 0
    else
      var b := bookings[0];
      (if OnShows(b, ids) && b.status == Confirmed then b.totalAmount.GetOr(0) else 0) + Revenue(bookings[1..], ids)
  }

  /** Revenue adds up over a split of the bookings: a new booking changes
      the revenue by exactly its own counted amount. */
  lemma {:induction false} RevenueAppend(a: seq<Booking>, b: seq<Booking>, ids: set<int>)
    ensures Revenue(a + b, ids) == Revenue(a, ids) + Revenue(b, ids)
  {
    if |a| > 0 {
      assert (a + b)[1..] == a[1..] + b;
      RevenueAppend(a[1..], b, ids);
    } else {
      assert a + b == b;
    }
  }

  predicate AllHaveVenues(shows: seq<Show>) {
    forall i :: 0 <= i < |shows| ==> shows[i].venue.Some?
  }

  /** The theatre names of the shows. A show without a venue never gets
      here: the request has already failed (`MovieShowSummaries`), so the
      placeholder name is never reported. */
  function VenueNames(group: seq<Show>): (names: seq<string>)
    ensures |names| == |group|
    ensures forall i :: 0 <= i < |group| && group[i].venue.Some? ==> names[i] == group[i].venue.value.name
  {
    seq(|group|, i requires 0 <= i < |group| => if group[i].venue.Some? then group[i].venue.value.name else "")
  }

  /** One movie's line: its show count and date range, its theatres without
      repetition in first-seen order joined by ", ", and the booking figures,
      which are reported as 0 unless an owner is asking. */
  function Summarize(group: seq<Show>, bookings: seq<Booking>, movieId: int, ownerId: Option<int>): (r: MovieShowSummary)
    ensures r.movieId == movieId && r.showCount == |group|
    ensures |group| > 0 ==> && r.firstShowDate.Some? && r.lastShowDate.Some?
                            && r.firstShowDate.value <= r.lastShowDate.value
                            && forall i :: 0 <= i < |group| ==> r.firstShowDate.value <= group[i].date <= r.lastShowDate.value
    ensures |group| > 0 ==> && (exists i :: 0 <= i < |group| && group[i].date == r.firstShowDate.value)
                            && (exists i :: 0 <= i < |group| && group[i].date == r.lastShowDate.value)
    ensures |group| == 0 ==> r.firstShowDate.None? && r.lastShowDate.None?
    ensures ownerId.None? ==> r.totalBookings == 0 && r.totalRevenue == 0
    ensures ownerId.Some? ==> r.totalBookings == BookingCount(bookings, ShowIds(group))
                              && r.totalRevenue == Revenue(bookings, ShowIds(group))
    ensures r.theatres == Join(Distinct(VenueNames(group)), ", ")
  {
    var ids := ShowIds(group);
    MovieShowSummary(
      movieId, |group|, MinDate(group), MaxDate(group),
      if ownerId.Some? then BookingCount(bookings, ids) else 0,
      if ownerId.Some? then Revenue(bookings, ids) else 0,
      Join(Distinct(VenueNames(group)), ", "))
  }

  /** A movie that occurs has a non-empty group. */
  lemma GroupOfPresentMovie(shows: seq<Show>, movieId: int)
    requires movieId in MovieIds(shows)
    ensures |Group(shows, movieId)| > 0
  {
    var k :| 0 <= k < |shows| && MovieIds(shows)[k] == movieId;
    assert shows[k] in Group(shows, movieId);
  }

  /** One line per key, in key order. */
  function SummariesFor(keys: seq<int>, shows: seq<Show>, bookings: seq<Booking>, ownerId: Option<int>)
    : seq<MovieShowSummary>
  {
    seq(|keys|, i requires 0 <= i < |keys| => Summarize(Group(shows, keys[i]), bookings, keys[i], ownerId))
  }

  /** Every selected show's movie has a line. */
  lemma SummariesCover(keys: seq<int>, shows: seq<Show>, bookings: seq<Booking>, ownerId: Option<int>)
    requires keys == Distinct(MovieIds(shows))
    ensures forall i :: 0 <= i < |shows| ==>
              exists j :: 0 <= j < |keys| && SummariesFor(keys, shows, bookings, ownerId)[j].movieId == shows[i].movieId
  {
    var r := SummariesFor(keys, shows, bookings, ownerId);
    var ids := MovieIds(shows);
    forall i | 0 <= i < |shows| ensures exists j :: 0 <= j < |keys| && r[j].movieId == shows[i].movieId {
      assert ids[i] in keys;
      var j :| 0 <= j < |keys| && keys[j] == ids[i];
      assert r[j].movieId == ids[i];
    }
  }

  /** Every line has shows. */
  lemma SummariesNonEmpty(keys: seq<int>, shows: seq<Show>, bookings: seq<Booking>, ownerId: Option<int>)
    requires keys == Distinct(MovieIds(shows))
    ensures forall j :: 0 <= j < |keys| ==> SummariesFor(keys, shows, bookings, ownerId)[j].showCount > 0
  {
    var r := SummariesFor(keys, shows, bookings, ownerId);
    forall j | 0 <= j < |keys| ensures r[j].showCount > 0 {
      GroupOfPresentMovie(shows, keys[j]);
    }
  }

  /** `getMovieShowSummary`: one line per movie, in the order movies first
      occur. A selected show without a venue makes the theatre-name step
      fail, and with it the whole request. */
  function MovieShowSummaries(shows: seq<Show>, bookings: seq<Booking>, ownerId: Option<int>)
    : (r: Result<seq<MovieShowSummary>, ShowError>)
    ensures r.Err? <==> !AllHaveVenues(Selected(shows, ownerId))
    ensures r.Ok? ==> SummaryOf(r.value, Selected(shows, ownerId), bookings, ownerId)
  {
    var sel := Selected(shows, ownerId);
    if !AllHaveVenues(sel) then Err(MissingVenue)
    else
      var keys := Distinct(MovieIds(sel));
      SummariesCorrect(keys, sel, bookings, ownerId);
      Ok(SummariesFor(keys, sel, bookings, ownerId))
  }

  /** What the summary promises about its lines: one line per movie of the
      selected shows, no movie twice, no empty line, and each line the
      summary of that movie's shows. */
  predicate SummaryOf(lines: seq<MovieShowSummary>, sel: seq<Show>, bookings: seq<Booking>, ownerId: Option<int>) {
    && (forall i, j :: 0 <= i < j < |lines| ==> lines[i].movieId != lines[j].movieId)
    && (forall i :: 0 <= i < |sel| ==> exists j :: 0 <= j < |lines| && lines[j].movieId == sel[i].movieId)
    && (forall j :: 0 <= j < |lines| ==> lines[j].showCount > 0)
    && (forall j :: 0 <= j < |lines| ==>
          lines[j] == Summarize(Group(sel, lines[j].movieId), bookings, lines[j].movieId, ownerId))
  }

  lemma SummariesCorrect(keys: seq<int>, sel: seq<Show>, bookings: seq<Booking>, ownerId: Option<int>)
    requires keys == Distinct(MovieIds(sel))
    ensures SummaryOf(SummariesFor(keys, sel, bookings, ownerId), sel, bookings, ownerId)
  {
    SummariesDistinct(keys, sel, bookings, ownerId);
    SummariesCover(keys, sel, bookings, ownerId);
    SummariesNonEmpty(keys, sel, bookings, ownerId);
    SummariesExact(keys, sel, bookings, ownerId);
  }

  /** No movie has two lines. */
  lemma SummariesDistinct(keys: seq<int>, shows: seq<Show>, bookings: seq<Booking>, ownerId: Option<int>)
    requires keys == Distinct(MovieIds(shows))
    ensures var lines := SummariesFor(keys, shows, bookings, ownerId);
            forall i, j :: 0 <= i < j < |lines| ==> lines[i].movieId != lines[j].movieId
  {
    SummariesKeys(keys, shows, bookings, ownerId);
  }

  /** Each line summarises the shows of its own movie. */
  lemma SummariesExact(keys: seq<int>, shows: seq<Show>, bookings: seq<Booking>, ownerId: Option<int>)
    ensures var lines := SummariesFor(keys, shows, bookings, ownerId);
            forall j :: 0 <= j < |lines| ==>
              lines[j] == Summarize(Group(shows, lines[j].movieId), bookings, lines[j].movieId, ownerId)
  {
    SummariesKeys(keys, shows, bookings, ownerId);
  }

  /** Line `i` is about key `i`. */
  lemma SummariesKeys(keys: seq<int>, shows: seq<Show>, bookings: seq<Booking>, ownerId: Option<int>)
    ensures |SummariesFor(keys, shows, bookings, ownerId)| == |keys|
    ensures forall i :: 0 <= i < |keys| ==> SummariesFor(keys, shows, bookings, ownerId)[i].movieId == keys[i]
  {
  }

  // The groups partition the selected shows.

  function TotalShowCount(rs: seq<MovieShowSummary>): int {
    if |rs| == 0 then 0 else rs[0].showCount + TotalShowCount(rs[1..])
  }

  /** Occurrences of `m` among the keys. */
  function Hits(keys: seq<int>, m: int): nat {
    if |keys| == 0 then 0 else (if keys[0] == m then 1 else 0) + Hits(keys[1..], m)
  }

  function GroupTotal(keys: seq<int>, shows: seq<Show>): int {
    if |keys| == 0 then 0 else |Group(shows, keys[0])| + GroupTotal(keys[1..], shows)
  }

  lemma {:induction false} HitsDistinct(keys: seq<int>, m: int)
    requires forall i, j :: 0 <= i < j < |keys| ==> keys[i] != keys[j]
    ensures Hits(keys, m) == if m in keys then 1 else 0
  {
    if |keys| > 0 {
      HitsDistinct(keys[1..], m);
      if keys[0] == m {
        assert m !in keys[1..] by {
          forall i | 0 <= i < |keys[1..]| ensures keys[1..][i] != m {
            assert keys[1..][i] == keys[i + 1];
          }
        }
      } else {
        assert m in keys <==> m in keys[1..] by {
          assert keys == [keys[0]] + keys[1..];
        }
      }
    }
  }

  /** Dropping the first show removes one from its movie's group only. */
  lemma {:induction false} GroupTotalStep(keys: seq<int>, shows: seq<Show>)
    requires |shows| > 0
    ensures GroupTotal(keys, shows) == Hits(keys, shows[0].movieId) + GroupTotal(keys, shows[1..])
  {
    if |keys| > 0 {
      GroupTotalStep(keys[1..], shows);
    }
  }

  lemma {:induction false} GroupsPartition(keys: seq<int>, shows: seq<Show>)
    requires forall i, j :: 0 <= i < j < |keys| ==> keys[i] != keys[j]
    requires forall i :: 0 <= i < |shows| ==> shows[i].movieId in keys
    ensures GroupTotal(keys, shows) == |shows|
  {
    if |shows| > 0 {
      GroupTotalStep(keys, shows);
      assert shows[0].movieId in keys;
      HitsDistinct(keys, shows[0].movieId);
      assert forall i :: 0 <= i < |shows[1..]| ==> shows[1..][i] == shows[i + 1];
      GroupsPartition(keys, shows[1..]);
      assert GroupTotal(keys, shows) == 1 + (|shows| - 1);
    } else {
      GroupTotalOfNoShows(keys, shows);
    }
  }

  lemma {:induction false} GroupTotalOfNoShows(keys: seq<int>, shows: seq<Show>)
    requires |shows| == 0
    ensures GroupTotal(keys, shows) == 0
  {
    if |keys| > 0 {
      GroupTotalOfNoShows(keys[1..], shows);
    }
  }

  /** Lines whose show counts are the group sizes of their keys add up to
      the keys' group total. */
  lemma {:induction false} CountsAddUp(lines: seq<MovieShowSummary>, keys: seq<int>, shows: seq<Show>)
    requires |lines| == |keys|
    requires forall i :: 0 <= i < |keys| ==> lines[i].showCount == |Group(shows, keys[i])|
    ensures TotalShowCount(lines) == GroupTotal(keys, shows)
  {
    if |keys| > 0 {
      CountsAddUp(lines[1..], keys[1..], shows);
    }
  }

  lemma SummariesTotal(keys: seq<int>, shows: seq<Show>, bookings: seq<Booking>, ownerId: Option<int>)
    ensures TotalShowCount(SummariesFor(keys, shows, bookings, ownerId)) == GroupTotal(keys, shows)
  {
    var lines := SummariesFor(keys, shows, bookings, ownerId);
    assert forall i :: 0 <= i < |keys| ==> lines[i].showCount == |Group(shows, keys[i])|;
    CountsAddUp(lines, keys, shows);
  }

  /** Every selected show is counted in exactly one line: the show counts add
      up to the number of selected shows. */
  lemma SummaryPartitionsShows(shows: seq<Show>, bookings: seq<Booking>, ownerId: Option<int>)
    requires MovieShowSummaries(shows, bookings, ownerId).Ok?
    ensures TotalShowCount(MovieShowSummaries(shows, bookings, ownerId).value) == |Selected(shows, ownerId)|
  {
    var sel := Selected(shows, ownerId);
    var keys := Distinct(MovieIds(sel));
    SummariesTotal(keys, sel, bookings, ownerId);
    assert forall i :: 0 <= i < |sel| ==> sel[i].movieId in keys by {
      forall i | 0 <= i < |sel| ensures sel[i].movieId in keys {
        assert MovieIds(sel)[i] == sel[i].movieId;
      }
    }
    GroupsPartition(keys, sel);
  }

  // ---------------------------------------------------------------------------
  // Removing a movie
  // ---------------------------------------------------------------------------

  datatype DeleteError = NoShows | ActiveBookings

  /** `findByTmdbMovieIdAndVenue_OwnerId`. */
  predicate Matches(s: Show, movieId: int, ownerId: int) {
    s.movieId == movieId && OwnedBy(s, ownerId)
  }

  function ShowsOf(shows: seq<Show>, movieId: int, ownerId: int): seq<Show> {
    Filter(shows, (s: Show) => Matches(s, movieId, ownerId))
  }

  function ScheduleIds(shows: seq<Show>): set<int> {
    set i | 0 <= i < |shows| :: shows[i].scheduleId
  }

  datatype Catalogue = Catalogue(shows: seq<Show>, schedules: seq<Schedule>, bookings: seq<Booking>)

  /** `deleteMovieForOwner`: 404 when the owner has no show of the movie,
      400 while any of those shows has a CONFIRMED booking; otherwise the
      shows' bookings (cancelled ones included) and the shows go, and so do
      their schedules unless that last step fails, a failure the endpoint
      ignores (`schedulesDeletable` is false). */
  function DeleteMovieForOwner(c: Catalogue, movieId: int, ownerId: int, schedulesDeletable: bool)
    : (r: Result<Catalogue, DeleteError>)
    ensures r == Err(NoShows) <==> forall i :: 0 <= i < |c.shows| ==> !Matches(c.shows[i], movieId, ownerId)
    ensures r == Err(ActiveBookings) <==>
      && (exists i :: 0 <= i < |c.shows| && Matches(c.shows[i], movieId, ownerId))
      && exists j :: 0 <= j < |c.bookings| && c.bookings[j].status == Confirmed
                     && OnShows(c.bookings[j], ShowIds(ShowsOf(c.shows, movieId, ownerId)))
    ensures r.Ok? ==>
      var ids := ShowIds(ShowsOf(c.shows, movieId, ownerId));
      var gone := ScheduleIds(ShowsOf(c.shows, movieId, ownerId));
      && (forall s :: s in r.value.shows <==> s in c.shows && !Matches(s, movieId, ownerId))
      && (forall b :: b in r.value.bookings <==> b in c.bookings && !OnShows(b, ids))
      && (schedulesDeletable ==> forall sch :: sch in r.value.schedules <==> sch in c.schedules && sch.id !in gone)
      && (!schedulesDeletable ==> r.value.schedules == c.schedules)
  {
    var matched := ShowsOf(c.shows, movieId, ownerId);
    var ids := ShowIds(matched);
    if |matched| == 0 then
      Err(NoShows)
    else if exists j :: 0 <= j < |c.bookings| && c.bookings[j].status == Confirmed && OnShows(c.bookings[j], ids) then
      Err(ActiveBookings)
    else
      assert matched[0] in c.shows && Matches(matched[0], movieId, ownerId);
      var gone := ScheduleIds(matched);
      var shows := Filter(c.shows, (s: Show) => !Matches(s, movieId, ownerId));
      var bookings := Filter(c.bookings, (b: Booking) => !OnShows(b, ids));
      var schedules := if schedulesDeletable then Filter(c.schedules, (sch: Schedule) => sch.id !in gone) else c.schedules;
      Ok(Catalogue(shows, schedules, bookings))
  }

  /** Once removed, the movie is gone for that owner: removing it again
      finds no show. */
  lemma DeleteMovieTwice(c: Catalogue, movieId: int, ownerId: int, d1: bool, d2: bool)
    requires DeleteMovieForOwner(c, movieId, ownerId, d1).Ok?
    ensures DeleteMovieForOwner(DeleteMovieForOwner(c, movieId, ownerId, d1).value, movieId, ownerId, d2) == Err(NoShows)
  {
    var after := DeleteMovieForOwner(c, movieId, ownerId, d1).value;
    assert forall i :: 0 <= i < |after.shows| ==> after.shows[i] in after.shows;
  }
}

=== FILE: sms.dfy ===
/** Phone one-time passwords. The SMS gateway is tried first; when it fails
    a six-digit code is kept locally instead, and a locally kept code is
    checked locally and consumed. The gateway's answers are parameters. */
module Sms {
  import opened Common

  /** Phone number to the locally kept code. */
  type OtpStore = map<string, string>

  const OtpWidth: nat := 6
  /** `Random.nextInt(999999)` draws from 0 to 999998. */
  const OtpBound: nat := 999999
  const MockSidPrefix := "mock-sid-"
  const Approved := "approved"

  predicate IsOtp(code: string) {
    |code| == OtpWidth && forall i :: 0 <= i < |code| ==> IsAsciiDigit(code[i])
  }

  function Pow10(k: nat): (p: nat)
    ensures p >= 1
  {
    if k == 0 then 1 else 10 * Pow10(k - 1)
  }

  /** A number below 10^k has at most k digits. */
  lemma {:induction false} DigitsLength(n: nat, k: nat)
    requires 1 <= k && n < Pow10(k)
    ensures |Digits(n)| <= k
  {
    if n >= 10 {
      assert Pow10(1) == 10;
      assert n / 10 < Pow10(k - 1);
      DigitsLength(n / 10, k - 1);
    }
  }

  /** The fallback code for a draw: `String.format("%06d", draw)`. */
  function OtpFor(draw: nat): (code: string)
    requires draw < OtpBound
    ensures IsOtp(code)
    ensures ParseDigits(code) == draw
  {
    assert Pow10(6) == 1000000;
    DigitsLength(draw, OtpWidth);
    ZeroPad(draw, OtpWidth)
  }

  /** Distinct draws give distinct codes. */
  lemma OtpForInjective(a: nat, b: nat)
    requires a < OtpBound && b < OtpBound && a != b
    ensures OtpFor(a) != OtpFor(b)
  {
  }

  datatype Sent = Sent(sid: string, store: OtpStore)

  /** `sendOtp`: the gateway's verification id when it accepts the request
      (`gatewaySid`); otherwise a fresh local code for `phone`, replacing any
      earlier one, and a mock id built from the clock. */
  function SendOtp(store: OtpStore, phone: string, gatewaySid: Option<string>, draw: nat, millis: int): (r: Sent)
    requires draw < OtpBound
    ensures gatewaySid.Some? ==> r.sid == gatewaySid.value && r.store == store
    ensures gatewaySid.None? ==>
      && StartsWith(r.sid, MockSidPrefix)
      && r.store.Keys == store.Keys + {phone}
      && IsOtp(r.store[phone]) && ParseDigits(r.store[phone]) == draw
      && forall p :: p in store && p != phone ==> r.store[p] == store[p]
  {
    if gatewaySid.Some? then Sent(gatewaySid.value, store)
    else Sent(MockSidPrefix + IntText(millis), store[phone := OtpFor(draw)])
  }

  datatype Checked = Checked(valid: bool, store: OtpStore)

  /** `verifyOtp`: a locally kept code decides alone (a match consumes it, a
      mismatch keeps it); without one, the gateway's status must be
      "approved", and a failed gateway call (`None`) means invalid. */
  function VerifyOtp(store: OtpStore, phone: string, code: string, gatewayStatus: Option<string>): (r: Checked)
    ensures phone in store ==> (r.valid <==> store[phone] == code)
    ensures phone in store && r.valid ==> r.store == store - {phone}
    ensures !r.valid ==> r.store == store
    ensures phone !in store ==> (r.valid <==> gatewayStatus == Some(Approved)) && r.store == store
  {
    if phone in store then
      if store[phone] == code then Checked(true, store - {phone}) else Checked(false, store)
    else Checked(gatewayStatus == Some(Approved), store)
  }

  /** After a fallback send, the drawn code is accepted exactly once, without
      asking the gateway; any other code is refused and leaves it in place. */
  lemma FallbackCodeSingleUse(store: OtpStore, phone: string, draw: nat, millis: int, code: string,
                              status1: Option<string>, status2: Option<string>)
    requires draw < OtpBound
    ensures var sent := SendOtp(store, phone, None, draw, millis);
            var first := VerifyOtp(sent.store, phone, OtpFor(draw), status1);
            && first.valid
            && phone !in first.store
            && (VerifyOtp(first.store, phone, OtpFor(draw), status2).valid <==> status2 == Some(Approved))
    ensures var sent := SendOtp(store, phone, None, draw, millis);
            code != OtpFor(draw) ==> VerifyOtp(sent.store, phone, code, status1) == Checked(false, sent.store)
  {
  }

  /** A second fallback send replaces the first code: only the newer one passes. */
  lemma ResendReplacesCode(store: OtpStore, phone: string, d1: nat, d2: nat, m1: int, m2: int, status: Option<string>)
    requires d1 < OtpBound && d2 < OtpBound && d1 != d2
    ensures var s1 := SendOtp(store, phone, None, d1, m1);
            var s2 := SendOtp(s1.store, phone, None, d2, m2);
            !VerifyOtp(s2.store, phone, OtpFor(d1), status).valid
            && VerifyOtp(s2.store, phone, OtpFor(d2), status).valid
  {
    OtpForInjective(d1, d2);
  }
}

=== FILE: user_details.dfy ===
/** The security principal built for a user at login: the email as its
    name, the stored password hash, and one role authority. */
module UserDetails {
  import opened Common
  import opened Entities

  const RolePrefix := "ROLE_"

  /** The authority name for a stored role: "ROLE_" is added unless the
      role already carries it. */
  function Authority(role: string): (r: string)
    ensures StartsWith(r, RolePrefix)
    ensures r == role <==> StartsWith(role, RolePrefix)
    ensures !StartsWith(role, RolePrefix) ==> r[|RolePrefix|..] == role
  {
    if StartsWith(role, RolePrefix) then role else RolePrefix + role
  }

  /** Prefixing twice is prefixing once. */
  lemma AuthorityIdempotent(role: string)
    ensures Authority(Authority(role)) == Authority(role)
  {
  }

  /** Two roles that differ give different authorities unless one is the
      other with the prefix. */
  lemma AuthorityCollisions(a: string, b: string)
    requires Authority(a) == Authority(b) && a != b
    ensures a == RolePrefix + b || b == RolePrefix + a
  {
    if StartsWith(a, RolePrefix) && !StartsWith(b, RolePrefix) {
      assert a == RolePrefix + b;
    } else if !StartsWith(a, RolePrefix) && StartsWith(b, RolePrefix) {
      assert b == RolePrefix + a;
    }
  }

  datatype Principal = Principal(username: string, password: string, authorities: seq<string>)

  datatype LoadError =
    | UsernameNotFound       // no user with that email
    | EmptyCredentials       // the principal's constructor refuses an empty name or a null password

  /** `loadUserByUsername`. */
  function LoadUserByUsername(users: map<int, User>, email: string): (r: Result<Principal, LoadError>)
    requires UniqueEmails(users)
    ensures !EmailTaken(users, email) <==> r == Err(UsernameNotFound)
    ensures r.Ok? ==>
      var u := UserWithEmail(users, email).value;
      && r.value.username == email
      && u.password == Some(r.value.password)
      && r.value.authorities == [Authority(u.role)]
    ensures r == Err(EmptyCredentials) <==>
      EmailTaken(users, email) && (email == "" || UserWithEmail(users, email).value.password.None?)
  {
    match UserWithEmail(users, email)
    case None => Err(UsernameNotFound)
    case Some(u) =>
      if u.email == "" || u.password.None? then Err(EmptyCredentials)
      else Ok(Principal(u.email, u.password.value, [Authority(u.role)]))
  }
}

=== FILE: venue_api.dfy ===
/** The venue endpoints of the owner dashboard: the six-digit pincode rule
    and the ownership guards on create, update and delete. */
module VenueApi {
  import opened Common
  import opened Entities

  /** The create/update request body. `kind` is the type name sent by the
      client, `"THEATRE"` or `"EVENT_GROUND"`. */
  datatype VenueRequest = VenueRequest(
    ownerId: Option<int>,
    name: string,
    kind: Option<string>,
    location: Option<string>,
    address: Option<string>,
    pincode: Option<string>,
    country: Option<string>,
    capacity: Option<int>,
    amenities: Option<string>)

  datatype VenueError =
    | OwnerNotFound
    | PincodeRequired        // 400, "Pincode is required"
    | PincodeNotSixDigits    // 400, "Pincode must be exactly 6 digits"
    | UnknownVenueType       // `VenueType.valueOf` throws
    | VenueNotFound          // 404
    | NotOwner               // 403
    | StillReferenced        // 409, the delete hit a foreign key
    | MissingColumn          // the save hits a NOT NULL column left null

  const PincodeLength: nat := 6

  /** The whole string matches `^\d{6}$`: six ASCII digits. */
  predicate SixDigits(p: string) {
    |p| == PincodeLength && forall i :: 0 <= i < |p| ==> IsAsciiDigit(p[i])
  }

  /** The pincode check shared by create and update: the trimmed value is
      required, must be six digits, and is what gets stored. */
  function ValidatePincode(raw: Option<string>): (r: Result<string, VenueError>)
    ensures r.Ok? <==> raw.Some? && SixDigits(Trim(raw.value))
    ensures r.Ok? ==> r.value == Trim(raw.value)
    ensures r == Err(PincodeRequired) <==> raw.None? || Trim(raw.value) == []
    ensures r.Err? ==> r.error == PincodeRequired || r.error == PincodeNotSixDigits
  {
    var p := if raw.Some? then Trim(raw.value) else [];
    if p == [] then Err(PincodeRequired)
    else if !SixDigits(p) then Err(PincodeNotSixDigits)
    else Ok(p)
  }

  /** A stored pincode passes the check unchanged. */
  lemma PincodeStable(p: string)
    requires SixDigits(p)
    ensures ValidatePincode(Some(p)) == Ok(p)
  {
    TrimOfUntrimmable(p);
  }

  /** Surrounding spaces or line breaks never change the pincode kept. */
  lemma PincodePadded(p: string, pad1: string, pad2: string)
    requires SixDigits(p)
    requires forall i :: 0 <= i < |pad1| ==> IsTrimmable(pad1[i])
    requires forall i :: 0 <= i < |pad2| ==> IsTrimmable(pad2[i])
    ensures ValidatePincode(Some(pad1 + p + pad2)) == Ok(p)
  {
    TrimPadded(pad1, p, pad2);
  }

  lemma TrimPadded(pad1: string, p: string, pad2: string)
    requires |p| > 0 && !IsTrimmable(p[0]) && !IsTrimmable(p[|p| - 1])
    requires forall i :: 0 <= i < |pad1| ==> IsTrimmable(pad1[i])
    requires forall i :: 0 <= i < |pad2| ==> IsTrimmable(pad2[i])
    ensures Trim(pad1 + p + pad2) == p
  {
    assert pad1 + p + pad2 == pad1 + (p + pad2);
    TrimStartPadded(pad1, p + pad2);
    TrimEndPadded(p, pad2);
  }

  lemma {:induction false} TrimStartPadded(pad: string, rest: string)
    requires |rest| > 0 && !IsTrimmable(rest[0])
    requires forall i :: 0 <= i < |pad| ==> IsTrimmable(pad[i])
    ensures TrimStart(pad + rest) == rest
  {
    if |pad| == 0 {
      assert pad + rest == rest;
    } else {
      assert (pad + rest)[1..] == pad[1..] + rest;
      TrimStartPadded(pad[1..], rest);
    }
  }

  lemma {:induction false} TrimEndPadded(rest: string, pad: string)
    requires |rest| > 0 && !IsTrimmable(rest[|rest| - 1])
    requires forall i :: 0 <= i < |pad| ==> IsTrimmable(pad[i])
    ensures TrimEnd(rest + pad) == rest
  {
    if |pad| == 0 {
      assert rest + pad == rest;
    } else {
      var init := pad[..|pad| - 1];
      assert (rest + pad)[..|rest + pad| - 1] == rest + init;
      TrimEndPadded(rest, init);
    }
  }

  /** `VenueType.valueOf`. */
  function ParseVenueType(name: Option<string>): (r: Option<VenueType>)
    ensures r == Some(Theatre) <==> name == Some("THEATRE")
    ensures r == Some(EventGround) <==> name == Some("EVENT_GROUND")
  {
    if name == Some("THEATRE") then Some(Theatre)
    else if name == Some("EVENT_GROUND") then Some(EventGround)
    else None
  }

  /** The request fills every NOT NULL column that it supplies: location,
      address, country and capacity. */
  predicate HasRequiredColumns(req: VenueRequest) {
    req.location.Some? && req.address.Some? && req.country.Some? && req.capacity.Some?
  }

  /** `createVenue`: the owner must exist, then the pincode must pass, then
      the type must be known, then the save needs every NOT NULL column; the
      new venue belongs to that owner and keeps the trimmed pincode. */
  function CreateVenue(users: map<int, User>, venues: map<int, Venue>, req: VenueRequest, newId: int)
    : (r: Result<(Venue, map<int, Venue>), VenueError>)
    requires newId !in venues
    ensures req.ownerId.None? || req.ownerId.value !in users <==> r == Err(OwnerNotFound)
    ensures req.ownerId.Some? && req.ownerId.value in users && ValidatePincode(req.pincode).Err?
            ==> r == Err(ValidatePincode(req.pincode).error)
    ensures r.Ok? ==>
      && ValidatePincode(req.pincode).Ok? && ParseVenueType(req.kind).Some? && HasRequiredColumns(req)
      && r.value.0 == Venue(newId, req.ownerId, req.name, ParseVenueType(req.kind).value, req.location.value,
                            req.address.value, Trim(req.pincode.value), req.country.value, req.capacity.value,
                            req.amenities)
      && r.value.1 == venues[newId := r.value.0]
    ensures r == Err(UnknownVenueType) <==>
      req.ownerId.Some? && req.ownerId.value in users && ValidatePincode(req.pincode).Ok? && ParseVenueType(req.kind).None?
    ensures r == Err(MissingColumn) <==>
      && req.ownerId.Some? && req.ownerId.value in users && ValidatePincode(req.pincode).Ok?
      && ParseVenueType(req.kind).Some? && !HasRequiredColumns(req)
    ensures r.Ok? <==>
      && req.ownerId.Some? && req.ownerId.value in users && ValidatePincode(req.pincode).Ok?
      && ParseVenueType(req.kind).Some? && HasRequiredColumns(req)
  {
    if req.ownerId.None? || req.ownerId.value !in users then Err(OwnerNotFound)
    else match ValidatePincode(req.pincode)
      case Err(e) => Err(e)
      case Ok(pin) =>
        match ParseVenueType(req.kind)
        case None => Err(UnknownVenueType)
        case Some(kind) =>
          if !HasRequiredColumns(req) then Err(MissingColumn)
          else
            var v := Venue(newId, req.ownerId, req.name, kind, req.location.value, req.address.value, pin,
                           req.country.value, req.capacity.value, req.amenities);
            Ok((v, venues[newId := v]))
  }

  /** Creating a venue and then deleting it as its owner, before anything
      refers to it, gives back the venues as they were. */
  lemma CreateThenDelete(users: map<int, User>, venues: map<int, Venue>, req: VenueRequest, newId: int)
    requires newId !in venues
    requires CreateVenue(users, venues, req, newId).Ok?
    ensures DeleteVenue(CreateVenue(users, venues, req, newId).value.1, newId, req.ownerId, false) == Ok(venues)
  {
    var after := CreateVenue(users, venues, req, newId).value.1;
    assert after - {newId} == venues;
  }

  /** The update guard: the request names an owner, the venue has one, and
      they are the same. */
  predicate MayEdit(v: Venue, ownerId: Option<int>) {
    ownerId.Some? && v.ownerId.Some? && v.ownerId.value == ownerId.value
  }

  /** `updateVenue`: 404 for an unknown venue, then 403 unless `MayEdit`,
      then the pincode and type checks, then the save's NOT NULL columns; on
      success exactly the editable fields are overwritten and the id and
      owner stay. */
  function UpdateVenue(venues: map<int, Venue>, id: int, req: VenueRequest)
    : (r: Result<(Venue, map<int, Venue>), VenueError>)
    ensures id !in venues <==> r == Err(VenueNotFound)
    ensures id in venues && !MayEdit(venues[id], req.ownerId) <==> r == Err(NotOwner)
    ensures id in venues && MayEdit(venues[id], req.ownerId) && ValidatePincode(req.pincode).Err?
            ==> r == Err(ValidatePincode(req.pincode).error)
    ensures r == Err(UnknownVenueType) <==>
      id in venues && MayEdit(venues[id], req.ownerId) && ValidatePincode(req.pincode).Ok? && ParseVenueType(req.kind).None?
    ensures r == Err(MissingColumn) <==>
      && id in venues && MayEdit(venues[id], req.ownerId) && ValidatePincode(req.pincode).Ok?
      && ParseVenueType(req.kind).Some? && !HasRequiredColumns(req)
    ensures r.Ok? <==>
      && id in venues && MayEdit(venues[id], req.ownerId) && ValidatePincode(req.pincode).Ok?
      && ParseVenueType(req.kind).Some? && HasRequiredColumns(req)
    ensures r.Ok? ==>
      var old_ := venues[id];
      && ValidatePincode(req.pincode).Ok? && ParseVenueType(req.kind).Some?
      && r.value.0.id == old_.id && r.value.0.ownerId == old_.ownerId
      && r.value.0.name == req.name && r.value.0.kind == ParseVenueType(req.kind).value
      && Some(r.value.0.location) == req.location && Some(r.value.0.address) == req.address
      && r.value.0.pincode == Trim(req.pincode.value) && Some(r.value.0.country) == req.country
      && Some(r.value.0.capacity) == req.capacity && r.value.0.amenities == req.amenities
      && r.value.1 == venues[id := r.value.0]
  {
    if id !in venues then Err(VenueNotFound)
    else
      var v := venues[id];
      if !MayEdit(v, req.ownerId) then Err(NotOwner)
      else match ValidatePincode(req.pincode)
        case Err(e) => Err(e)
        case Ok(pin) =>
          match ParseVenueType(req.kind)
          case None => Err(UnknownVenueType)
          case Some(kind) =>
            if !HasRequiredColumns(req) then Err(MissingColumn)
            else
              var updated := v.(name := req.name, kind := kind, location := req.location.value,
                                address := req.address.value, pincode := pin, country := req.country.value,
                                capacity := req.capacity.value, amenities := req.amenities);
              Ok((updated, venues[id := updated]))
  }

  function TypeName(k: VenueType): string {
    match k
    case Theatre => "THEATRE"
    case EventGround => "EVENT_GROUND"
  }

  /** The request an edit form sends back when nothing was changed. */
  function Resubmit(v: Venue): VenueRequest {
    VenueRequest(v.ownerId, v.name, Some(TypeName(v.kind)), Some(v.location), Some(v.address), Some(v.pincode),
                 Some(v.country), Some(v.capacity), v.amenities)
  }

  /** Re-submitting a venue's own fields as its owner changes nothing. */
  lemma UpdateWithOwnFields(venues: map<int, Venue>, id: int)
    requires id in venues && venues[id].ownerId.Some? && SixDigits(venues[id].pincode)
    ensures UpdateVenue(venues, id, Resubmit(venues[id])) == Ok((venues[id], venues))
  {
    var v := venues[id];
    ResubmitPasses(v);
    var r := UpdateVenue(venues, id, Resubmit(v));
    assert r.value.0 == v;
    assert venues[id := v] == venues;
  }

  lemma ResubmitPasses(v: Venue)
    requires v.ownerId.Some? && SixDigits(v.pincode)
    ensures MayEdit(v, Resubmit(v).ownerId)
    ensures ValidatePincode(Resubmit(v).pincode) == Ok(v.pincode)
    ensures ParseVenueType(Resubmit(v).kind) == Some(v.kind)
    ensures HasRequiredColumns(Resubmit(v))
  {
    PincodeStable(v.pincode);
    match v.kind
    case Theatre =>
    case EventGround =>
  }

  /** `deleteVenue`: 404 for an unknown venue; 403 only when the caller, the
      venue's owner and that owner's id are all known and differ; a venue
      still referenced elsewhere cannot go (409). */
  function DeleteVenue(venues: map<int, Venue>, id: int, ownerId: Option<int>, referenced: bool)
    : (r: Result<map<int, Venue>, VenueError>)
    ensures id !in venues <==> r == Err(VenueNotFound)
    ensures r == Err(NotOwner) <==>
              id in venues && ownerId.Some? && venues[id].ownerId.Some? && venues[id].ownerId.value != ownerId.value
    ensures r.Ok? <==> (id in venues && !referenced
                        && (ownerId.None? || venues[id].ownerId.None? || venues[id].ownerId.value == ownerId.value))
    ensures r.Ok? ==> r.value.Keys == venues.Keys - {id} && forall k :: k in r.value ==> r.value[k] == venues[k]
  {
    if id !in venues then Err(VenueNotFound)
    else if ownerId.Some? && venues[id].ownerId.Some? && venues[id].ownerId.value != ownerId.value then Err(NotOwner)
    else if referenced then Err(StillReferenced)
    else Ok(venues - {id})
  }

  /** Without an owner id anyone may delete: the guard is only a UI aid. */
  lemma DeleteWithoutOwnerId(venues: map<int, Venue>, id: int)
    requires id in venues
    ensures DeleteVenue(venues, id, None, false).Ok?
  {
  }

  /** A deleted venue is gone: deleting it again reports it missing. */
  lemma DeleteVenueTwice(venues: map<int, Venue>, id: int, ownerId: Option<int>, referenced: bool, o2: Option<int>, r2: bool)
    requires DeleteVenue(venues, id, ownerId, referenced).Ok?
    ensures DeleteVenue(DeleteVenue(venues, id, ownerId, referenced).value, id, o2, r2) == Err(VenueNotFound)
  {
  }
}

=== FILE: wishlist.dfy ===
/** The wishlist: one entry per user, item and item type, switched on and
    off by a toggle, and the endpoint that reads the toggle request from a
    loosely typed JSON payload. */
module Wishlist {
  import opened Common
  import opened Entities

  datatype WishlistError =
    | MissingFields            // 400, userId, id or type absent or null
    | BadUserId                // `Long.valueOf` throws
    | NullGenreElement         // `Object::toString` on a null list element throws
    | NotAString(field: string) // the `(String)` cast throws
    | UserNotFound             // "User not found"

  predicate SameEntry(w: WishlistItem, userId: int, itemId: string, kind: string) {
    w.userId == userId && w.itemId == itemId && w.kind == kind
  }

  predicate Has(ws: seq<WishlistItem>, userId: int, itemId: string, kind: string) {
    exists i :: 0 <= i < |ws| && SameEntry(ws[i], userId, itemId, kind)
  }

  /** What the toggle keeps true: never two entries for the same key. */
  predicate AtMostOnePerKey(ws: seq<WishlistItem>) {
    forall i, j :: 0 <= i < j < |ws| ==> !SameEntry(ws[j], ws[i].userId, ws[i].itemId, ws[i].kind)
  }

  /** `findByUserIdAndItemIdAndType`: the position of the first entry with
      that key. */
  function Find(ws: seq<WishlistItem>, userId: int, itemId: string, kind: string): (k: Option<nat>)
    ensures k.None? <==> !Has(ws, userId, itemId, kind)
    ensures k.Some? ==> k.value < |ws| && SameEntry(ws[k.value], userId, itemId, kind)
    ensures k.Some? ==> forall i :: 0 <= i < k.value ==> !SameEntry(ws[i], userId, itemId, kind)
  {
    if |ws| == 0 then None
    else if SameEntry(ws[0], userId, itemId, kind) then Some(0)
    else match Find(ws[1..], userId, itemId, kind)
      case None =>
        assert forall i :: 1 <= i < |ws| ==> ws[i] == ws[1..][i - 1];
        None
      case Some(j) => Some(j + 1)
  }

  /** `getWishlist`: exactly the user's entries, in store order. */
  function GetWishlist(store: seq<WishlistItem>, userId: int): (r: seq<WishlistItem>)
    ensures forall i :: 0 <= i < |r| ==> r[i].userId == userId && r[i] in store
    ensures forall i :: 0 <= i < |store| && store[i].userId == userId ==> store[i] in r
  {
    Filter(store, (w: WishlistItem) => w.userId == userId)
  }

  /** No two entries share a generated id. */
  predicate DistinctIds(ws: seq<WishlistItem>) {
    forall i, j :: 0 <= i < j < |ws| ==> ws[i].id != ws[j].id
  }

  /** `id` has not been handed out to any entry of `ws`. */
  predicate FreshId(ws: seq<WishlistItem>, id: int) {
    forall i :: 0 <= i < |ws| ==> ws[i].id != id
  }

  /** `toggleWishlist`: an existing entry for the key is deleted and nothing
      is returned; otherwise the user must exist, and the item, attached to
      that user, is saved under the id the database generates (`newId`) and
      returned. */
  function Toggle(store: seq<WishlistItem>, users: set<int>, userId: int, item: WishlistItem, newId: int)
    : (r: Result<(Option<WishlistItem>, seq<WishlistItem>), WishlistError>)
    ensures r.Ok? <==> Has(store, userId, item.itemId, item.kind) || userId in users
    ensures r.Err? ==> r.error == UserNotFound
    ensures Has(store, userId, item.itemId, item.kind) ==>
      var k := Find(store, userId, item.itemId, item.kind).value;
      r == Ok((None, store[..k] + store[k + 1..]))
    ensures !Has(store, userId, item.itemId, item.kind) && userId in users ==>
      r == Ok((Some(item.(userId := userId, id := newId)), store + [item.(userId := userId, id := newId)]))
    ensures r.Ok? && AtMostOnePerKey(store) ==>
      && AtMostOnePerKey(r.value.1)
      && (Has(r.value.1, userId, item.itemId, item.kind) <==> !Has(store, userId, item.itemId, item.kind))
    ensures r.Ok? && DistinctIds(store) && FreshId(store, newId) ==> DistinctIds(r.value.1)
  {
    match Find(store, userId, item.itemId, item.kind)
    case Some(k) =>
      var rest := store[..k] + store[k + 1..];
      assert forall i :: 0 <= i < |rest| ==> rest[i] == store[if i < k then i else i + 1];
      Ok((None, rest))
    case None =>
      if userId !in users then Err(UserNotFound)
      else
        var saved := item.(userId := userId, id := newId);
        var ws := store + [saved];
        assert SameEntry(ws[|store|], userId, item.itemId, item.kind);
        Ok((Some(saved), ws))
  }

  /** Toggling an item on and then off again restores the wishlist. */
  lemma ToggleOnThenOff(store: seq<WishlistItem>, users: set<int>, userId: int, item: WishlistItem,
                         newId: int, again: WishlistItem, otherId: int)
    requires Toggle(store, users, userId, item, newId).Ok? && Toggle(store, users, userId, item, newId).value.0.Some?
    requires again.itemId == item.itemId && again.kind == item.kind
    ensures Toggle(Toggle(store, users, userId, item, newId).value.1, users, userId, again, otherId) == Ok((None, store))
  {
    var ws := Toggle(store, users, userId, item, newId).value.1;
    assert SameEntry(ws[|store|], userId, item.itemId, item.kind);
    assert forall i :: 0 <= i < |store| ==> ws[i] == store[i];
    assert ws[..|store|] + ws[|store| + 1..] == store;
  }

  /** Toggling an entry off and then sending the same entry again puts it
      back at the end under the newly generated id; every other entry stays
      where it was. */
  lemma ToggleOffThenOn(store: seq<WishlistItem>, users: set<int>, userId: int, item: WishlistItem,
                        oldId: int, newId: int)
    requires AtMostOnePerKey(store) && userId in users
    requires Has(store, userId, item.itemId, item.kind)
    requires item.(userId := userId) == store[Find(store, userId, item.itemId, item.kind).value]
    ensures Toggle(store, users, userId, item, oldId).Ok?
    ensures
      var k := Find(store, userId, item.itemId, item.kind).value;
      Toggle(Toggle(store, users, userId, item, oldId).value.1, users, userId, item, newId)
        == Ok((Some(store[k].(id := newId)), store[..k] + store[k + 1..] + [store[k].(id := newId)]))
  {
    var k := Find(store, userId, item.itemId, item.kind).value;
    var rest := store[..k] + store[k + 1..];
    assert !Has(rest, userId, item.itemId, item.kind);
  }

  /** `removeFromWishlist`: every entry for the key goes, all others stay in
      order; with no such entry nothing changes. */
  function Remove(store: seq<WishlistItem>, userId: int, itemId: string, kind: string): (r: seq<WishlistItem>)
    ensures !Has(r, userId, itemId, kind)
    ensures forall i :: 0 <= i < |r| ==> r[i] in store
    ensures forall i :: 0 <= i < |store| && !SameEntry(store[i], userId, itemId, kind) ==> store[i] in r
    ensures !Has(store, userId, itemId, kind) ==> r == store
  {
    Filter(store, (w: WishlistItem) => !SameEntry(w, userId, itemId, kind))
  }

  // ---------------------------------------------------------------------------
  // The toggle endpoint
  // ---------------------------------------------------------------------------

  /** `Object.toString()` of a parsed JSON value: strings as they are,
      lists as `[a, b]`, maps as `{k=v}`. */
  function ValueText(v: Value): string
    decreases v, 1
  {
    match v
    case Null => "null"
    case Bool(b) => if b then "true" else "false"
    case Int(i) => IntText(i)
    case OtherNumber(n) => IntText(n)
    case Str(s) => s
    case List(items) => "[" + Join(ItemTexts(v, items), ", ") + "]"
    case Object(members) => "{" + Join(MemberTexts(v, members), ", ") + "}"
  }

  function ItemTexts(parent: Value, items: seq<Value>): (r: seq<string>)
    requires forall x :: x in items ==> x < parent
    decreases parent, 0, |items|
    ensures |r| == |items|
  {
    if |items| == 0 then []
    else
      assert items[0] in items;
      assert forall x :: x in items[1..] ==> x in items;
      [ValueText(items[0])] + ItemTexts(parent, items[1..])
  }

  function MemberTexts(parent: Value, members: seq<(string, Value)>): (r: seq<string>)
    requires forall m :: m in members ==> m.1 < parent
    decreases parent, 0, |members|
    ensures |r| == |members|
  {
    if |members| == 0 then []
    else
      assert members[0] in members;
      assert forall m :: m in members[1..] ==> m in members;
      [members[0].0 + "=" + ValueText(members[0].1)] + MemberTexts(parent, members[1..])
  }

  const LongMin: int := -0x8000_0000_0000_0000
  const LongMax: int := 0x7FFF_FFFF_FFFF_FFFF
  /** The `java.lang.Integer` range, the numbers Jackson reads as `Int`. */
  const IntegerMin: int := -0x8000_0000
  const IntegerMax: int := 0x7FFF_FFFF

  predicate AllDigits(s: string) {
    forall i :: 0 <= i < |s| ==> IsAsciiDigit(s[i])
  }

  /** The shapes `Long.valueOf` reads: digits, or a sign followed by digits. */
  predicate LongLiteral(s: string) {
    || (|s| >= 1 && AllDigits(s))
    || (|s| >= 2 && (s[0] == '-' || s[0] == '+') && AllDigits(s[1..]))
  }

  /** `Long.valueOf(String)`: an optional sign and at least one digit,
      within the range of a 64-bit long; anything else is rejected. */
  function ParseLong(s: string): (r: Option<int>)
    ensures r.Some? ==> LongLiteral(s) && LongMin <= r.value <= LongMax
    ensures |s| >= 1 && AllDigits(s) ==>
      r == if ParseDigits(s) <= LongMax then Some(ParseDigits(s)) else None
    ensures |s| >= 2 && s[0] == '-' && AllDigits(s[1..]) ==>
      r == if ParseDigits(s[1..]) <= -LongMin then Some(-(ParseDigits(s[1..]) as int)) else None
    ensures |s| >= 2 && s[0] == '+' && AllDigits(s[1..]) ==>
      r == if ParseDigits(s[1..]) <= LongMax then Some(ParseDigits(s[1..])) else None
  {
    var negative := |s| > 0 && s[0] == '-';
    var body := if |s| > 0 && (s[0] == '-' || s[0] == '+') then s[1..] else s;
    if |body| == 0 || !AllDigits(body) then None
    else
      var n: int := if negative then -(ParseDigits(body) as int) else ParseDigits(body);
      if LongMin <= n <= LongMax then Some(n) else None
  }

  /** Printing a long and reading it back gives the same number. */
  lemma ParseLongIntText(i: int)
    requires LongMin <= i <= LongMax
    ensures ParseLong(IntText(i)) == Some(i)
  {
    if i < 0 {
      assert ("-" + Digits(-i))[1..] == Digits(-i);
    }
  }

  /** `Long.valueOf(payload.get("userId").toString())`. */
  function UserIdOf(v: Value): Option<int> {
    ParseLong(ValueText(v))
  }

  /** Every long id sent as text is read back, and an id in the Integer
      range reads alike as a JSON number and as text. */
  lemma UserIdForms(i: int)
    requires LongMin <= i <= LongMax
    ensures IntegerMin <= i <= IntegerMax ==> UserIdOf(Int(i)) == Some(i)
    ensures UserIdOf(Str(IntText(i))) == Some(i)
    ensures UserIdOf(Bool(true)).None? && UserIdOf(Str("")).None?
  {
    ParseLongIntText(i);
  }

  /** `payload.get(key) != null`: present and not JSON null. */
  predicate Present(payload: seq<(string, Value)>, key: string) {
    Get(payload, key).Some? && Get(payload, key).value != Null
  }

  /** The genre text: a non-empty list is its elements' texts joined with
      ", " (a null element throws), an empty list or an absent genre is "",
      anything else its own text. */
  function Genre(g: Option<Value>): (r: Option<string>)
    ensures g.None? || g == Some(Null) || g == Some(List([])) ==> r == Some("")
    ensures r.None? <==> g.Some? && g.value.List? && Null in g.value.items
    ensures g.Some? && g.value.List? && |g.value.items| == 1 && g.value.items[0] != Null
            ==> r == Some(ValueText(g.value.items[0]))
    ensures g.Some? && g.value.List? && |g.value.items| > 1 && Null !in g.value.items
            ==> r == Some(Join(ItemTexts(g.value, g.value.items), ", "))
    ensures g.Some? && !g.value.List? && g.value != Null ==> r == Some(ValueText(g.value))
  {
    match g
    case None => Some("")
    case Some(List(items)) =>
      if |items| == 0 then Some("")
      else if Null in items then None
      else
        var texts := ItemTexts(g.value, items);
        Some(Join(texts, ", "))
    case Some(v) => if v == Null then Some("") else Some(ValueText(v))
  }

  /** A list of plain strings becomes those strings, comma-separated, in order. */
  lemma {:induction false} GenreOfStrings(parent: Value, names: seq<string>)
    requires forall x :: x in Strs(names) ==> x < parent
    ensures ItemTexts(parent, Strs(names)) == names
  {
    if |names| > 0 {
      assert Strs(names)[1..] == Strs(names[1..]);
      assert forall x :: x in Strs(names[1..]) ==> x in Strs(names);
      GenreOfStrings(parent, names[1..]);
    }
  }

  /** A genre sent as a list of strings is stored as those strings joined
      with ", ". */
  lemma GenreOfStringList(names: seq<string>)
    requires |names| > 0
    ensures Genre(Some(List(Strs(names)))) == Some(Join(names, ", "))
  {
    var g := List(Strs(names));
    assert forall x :: x in Strs(names) ==> x < g;
    GenreOfStrings(g, names);
    assert Null !in Strs(names) by {
      forall i | 0 <= i < |names| ensures Strs(names)[i] != Null { }
    }
  }

  function Strs(names: seq<string>): (r: seq<Value>)
    ensures |r| == |names|
  {
    seq(|names|, i requires 0 <= i < |names| => Str(names[i]))
  }

  /** `(String) payload.get(key)`: null stays null, a string is kept, any
      other value makes the cast throw. */
  function StringField(payload: seq<(string, Value)>, key: string): (r: Result<Option<string>, WishlistError>)
    ensures r.Ok? && r.value.Some? <==> Get(payload, key).Some? && Get(payload, key).value.Str?
    ensures r.Err? <==> Present(payload, key) && !Get(payload, key).value.Str?
  {
    match Get(payload, key)
    case None => Ok(None)
    case Some(Null) => Ok(None)
    case Some(Str(s)) => Ok(Some(s))
    case Some(_) => Err(NotAString(key))
  }

  const DefaultTitle := "Unknown Title"

  /** The entry the controller builds from the payload, before the service
      attaches the user. */
  function ItemFromPayload(payload: seq<(string, Value)>): (r: Result<WishlistItem, WishlistError>)
    requires Present(payload, "id") && Present(payload, "type")
    ensures r.Ok? ==>
      && r.value.itemId == ValueText(Get(payload, "id").value)
      && r.value.kind == ValueText(Get(payload, "type").value)
      && (r.value.title == DefaultTitle <== !Present(payload, "title"))
      && (Present(payload, "title") ==> r.value.title == ValueText(Get(payload, "title").value))
      && (r.value.poster.Some? <==> Present(payload, "poster"))
      && Genre(Get(payload, "genre")) == Some(r.value.genre)
    ensures r.Ok? <==>
      && Genre(Get(payload, "genre")).Some?
      && StringField(payload, "duration").Ok? && StringField(payload, "venue").Ok? && StringField(payload, "date").Ok?
    ensures r.Ok? ==>
      && r.value.duration == StringField(payload, "duration").value
      && r.value.venue == StringField(payload, "venue").value
      && r.value.date == StringField(payload, "date").value
      && (Present(payload, "poster") ==> r.value.poster == Some(ValueText(Get(payload, "poster").value)))
    ensures Genre(Get(payload, "genre")).None? <==> r == Err(NullGenreElement)
    ensures r.Err? ==> r.error == NullGenreElement || r.error.NotAString?
  {
    match Genre(Get(payload, "genre"))
    case None => Err(NullGenreElement)
    case Some(genre) =>
      match StringField(payload, "duration")
      case Err(e) => Err(e)
      case Ok(duration) =>
        match StringField(payload, "venue")
        case Err(e) => Err(e)
        case Ok(venue) =>
          match StringField(payload, "date")
          case Err(e) => Err(e)
          case Ok(date) =>
            var title := if Present(payload, "title") then ValueText(Get(payload, "title").value) else DefaultTitle;
            var poster := if Present(payload, "poster") then Some(ValueText(Get(payload, "poster").value)) else None;
            Ok(WishlistItem(0, 0, ValueText(Get(payload, "id").value), ValueText(Get(payload, "type").value),
                            title, poster, duration, genre, venue, date))
  }

  datatype ToggleStatus = Removed | Added(item: WishlistItem)

  /** `POST /toggle`: 400 unless userId, id and type are all present, then
      the user id is read, the entry built and the service toggles it;
      "removed" exactly when the service returned nothing. */
  function ToggleRequest(store: seq<WishlistItem>, users: set<int>, payload: seq<(string, Value)>, newId: int)
    : (r: Result<(ToggleStatus, seq<WishlistItem>), WishlistError>)
    ensures !(Present(payload, "userId") && Present(payload, "id") && Present(payload, "type"))
            <==> r == Err(MissingFields)
    ensures r.Ok? <==>
      && Present(payload, "userId") && Present(payload, "id") && Present(payload, "type")
      && UserIdOf(Get(payload, "userId").value).Some?
      && ItemFromPayload(payload).Ok?
      && (Has(store, UserIdOf(Get(payload, "userId").value).value,
              ItemFromPayload(payload).value.itemId, ItemFromPayload(payload).value.kind)
          || UserIdOf(Get(payload, "userId").value).value in users)
    ensures r.Ok? ==>
      && UserIdOf(Get(payload, "userId").value).Some?
      && ItemFromPayload(payload).Ok?
      && var userId := UserIdOf(Get(payload, "userId").value).value;
         var item := ItemFromPayload(payload).value;
         && Toggle(store, users, userId, item, newId).Ok?
         && r.value.1 == Toggle(store, users, userId, item, newId).value.1
         && (r.value.0 == Removed <==> Has(store, userId, item.itemId, item.kind))
    ensures r == Err(BadUserId) <==>
      Present(payload, "userId") && Present(payload, "id") && Present(payload, "type")
      && UserIdOf(Get(payload, "userId").value).None?
  {
    match ReadPayload(payload)
    case Err(e) => Err(e)
    case Ok((userId, item)) => Answer(store, users, userId, item, newId)
  }

  /** The user id and the entry read from the payload, in the controller's order. */
  function ReadPayload(payload: seq<(string, Value)>): (r: Result<(int, WishlistItem), WishlistError>)
    ensures !(Present(payload, "userId") && Present(payload, "id") && Present(payload, "type"))
            <==> r == Err(MissingFields)
    ensures r.Ok? <==>
      && Present(payload, "userId") && Present(payload, "id") && Present(payload, "type")
      && UserIdOf(Get(payload, "userId").value).Some?
      && ItemFromPayload(payload).Ok?
    ensures r.Ok? ==>
      && UserIdOf(Get(payload, "userId").value) == Some(r.value.0)
      && ItemFromPayload(payload) == Ok(r.value.1)
    ensures r == Err(BadUserId) <==>
      Present(payload, "userId") && Present(payload, "id") && Present(payload, "type")
      && UserIdOf(Get(payload, "userId").value).None?
  {
    if !(Present(payload, "userId") && Present(payload, "id") && Present(payload, "type")) then Err(MissingFields)
    else match UserIdOf(Get(payload, "userId").value)
      case None => Err(BadUserId)
      case Some(userId) =>
        match ItemFromPayload(payload)
        case Err(e) => Err(e)
        case Ok(item) => Ok((userId, item))
  }

  /** The toggle's outcome as the endpoint reports it. */
  function Answer(store: seq<WishlistItem>, users: set<int>, userId: int, item: WishlistItem, newId: int)
    : (r: Result<(ToggleStatus, seq<WishlistItem>), WishlistError>)
    ensures r.Ok? <==> Toggle(store, users, userId, item, newId).Ok?
    ensures r.Ok? ==>
      && r.value.1 == Toggle(store, users, userId, item, newId).value.1
      && (r.value.0 == Removed <==> Has(store, userId, item.itemId, item.kind))
  {
    match Toggle(store, users, userId, item, newId)
    case Err(e) => Err(e)
    case Ok((saved, ws)) =>
      match saved
      case None => Ok((Removed, ws))
      case Some(w) => Ok((Added(w), ws))
  }
}
